=== FILE: README.md ===
# aGrep: the search core as a Dafny model

aGrep is an Android grep. The user types a query. The app turns the query into a regular expression. It walks the enabled directory trees and keeps the files whose names pass the extension filter. It reads each such file line by line. Every matching line becomes one result row (`GrepView.Data`): the display path, the one-based line number and the line's text. Rows reach the screen in progress events while the search runs, and a summary ends the search.

This project models that core as pure Dafny functions over immutable data and proves what the code promises about it. The parts are:

- **Query preparation** (`Pattern`). `escapeMetaChar` and `convertOrPattern`, plus a reader of regex atoms that gives the escaped text a meaning. A literal-mode query reads back as exactly its own characters, or as one group of alternatives split at the spaces.
- **Three search engines**, each a fold over an abstract file tree (`FileTree.Node`) that yields a trace of progress events and a result:
  - `ExecutorEngine`: depth-first, extension filter, "<10 matches → report each alone" batching, every-10th-file heartbeat, swallowed per-file errors, and cancellation that still ends in a summary.
  - `CoroutineEngine`: breadth-first, fixed batches of 10, every file counted before filtering, and cancellation as an exception.
  - `GrepTask`: the older task inside `Search.java`. It polls for cancellation only after a match, and a null document stops the walk.
- **Shared pieces.** The extension filters of all three engines and the media-permission needs (`ExtFilter`). The record constructors and UI-state factories (`Records`, `Checked`). The result comparator and row label (`GrepData`).
- **View models and rendering.**
  - `SearchModels`: both search view models.
  - `ViewerModel`: the text viewer's loader.
  - `Render`: the status line, toasts and adapter rules of both screens, and the search screen's intent handling.
- **Settings and file choosing.**
  - `Prefs`: the preference encodings.
  - `Settings`: the list editing of both settings screens.
  - `FileSelector`: the directory browser.
  - `TextViewer`: the pure parts of the text viewer activities.

The collaborators the core cannot see become parameters:

- The compiled regex is a per-line predicate `matches: string -> bool`. In `highlightKeyword` it is a find-from oracle.
- The file system is a tree whose files are either unopenable or readable. A readable file holds its lines and a flag for a read error after the last line.
- Tree-URI resolution is a function `string -> Option<Node>`.
- Cancellation is a deterministic oracle, `Cancel = Never | AfterPolls(n)`. It answers "cancelled" at every poll from the `n`-th on, which matches a flag that stays set once set.
- The search duration, an exception's message and the directory listing of the file selector are parameters.

## Model

| member | source | states |
|---|---|---|
| Pattern.EscapeChar | src/jp/sblo/pandora/aGrep/Search.java:157-163 | one character escapes to itself, with a backslash in front exactly when it is one of the 14 metacharacters |
| Pattern.Escape | src/jp/sblo/pandora/aGrep/Search.java:149-165 | the escaped text is longer than the input by exactly the number of metacharacters; a text without metacharacters is unchanged |
| Pattern.IsMetaMeansListed | src/jp/sblo/pandora/aGrep/Search.java:151 | the metacharacter test agrees with membership in the listed string `.^${}[]*+?\|()\` |
| Pattern.EscapeReadsLiterally | src/jp/sblo/pandora/aGrep/Search.java:149-165 | read as regex atoms, escaped text is exactly the input's characters as literals, so a literal-mode query has no operator, bar or group |
| Pattern.ConvertOrPattern | src/jp/sblo/pandora/aGrep/Search.java:167-174 | no space means no change; otherwise the result is the input in brackets with every space turned into a bar, character for character, and holds no space |
| Pattern.CreatePatternText | src/jp/sblo/pandora/aGrep/Search.kt:132-139 | in regex mode the typed text is used unchanged; in literal mode a text with no space and no metacharacter is also unchanged |
| Pattern.LiteralQueryMeaning | src/jp/sblo/pandora/aGrep/Search.kt:132-139 | a literal-mode pattern reads as the query's characters, or, when it has a space, as one group of bar-separated literal words, the bars coming only from spaces |
| Pattern.AlternationReads | src/jp/sblo/pandora/aGrep/Search.java:167-174 | converting an escaped query with a space gives one group around its words with bars between them |
| Pattern.EscapeOrReads | src/jp/sblo/pandora/aGrep/Search.java:167-174 | escaping and then replacing spaces with bars reads as literals with one bar per space |
| Pattern.ReadAtomsAppend | src/jp/sblo/pandora/aGrep/Search.java:157-163 | the atoms of a text that reads completely, followed by anything, are its atoms followed by those of the rest |
| Pattern.EscapeSpaces | src/jp/sblo/pandora/aGrep/Search.java:157-163 | escaping neither adds nor removes spaces, so the alternation step sees the same spaces the user typed |
| Pattern.EscapeIdentityExamples | app/src/test/java/dev/kappa/agrep_again/SpecialCharacterEscapeTest.java:236-239 | the empty text and `test123` escape to themselves, as the escape tests expect |
| Pattern.EscapeBarExample | app/src/test/java/dev/kappa/agrep_again/SpecialCharacterEscapeTest.java:191 | a typed bar is escaped, so it never acts as alternation |
| Pattern.OrPatternExample | src/jp/sblo/pandora/aGrep/Search.kt:132-139 | `a.b c` in literal mode becomes the two-way alternation `(a\.b\|c)` |
| Text.LastIndexOf | app/src/main/java/jp/sblo/pandora/aGrep/TextViewer.java:359 | the index is the greatest position holding the character, or -1 exactly when it does not occur |
| Text.CompareIgnoreCaseAntisymmetric | app/src/main/java/dev/kappa/agrep_again/GrepView.java:45 | swapping the operands of the case-insensitive comparison negates it |
| Text.CompareIgnoreCaseZero | app/src/main/java/dev/kappa/agrep_again/GrepView.java:45 | the case-insensitive comparison is zero exactly for strings equal ignoring case |
| Text.CompareIgnoreCaseTransitive | app/src/main/java/dev/kappa/agrep_again/GrepView.java:45 | the case-insensitive order is transitive, so it can drive a sort |
| Text.SplitAllJoin | app/src/main/java/dev/kappa/agrep_again/Prefs.java:126 | splitting a join at the separator gives the fields back when no field holds the separator |
| Text.StripTrailingEmpty | app/src/main/java/dev/kappa/agrep_again/Prefs.java:126 | `split` drops exactly the trailing empty fields and keeps every field before them |
| Text.ParseIntOfIntToString | app/src/main/java/dev/kappa/agrep_again/Prefs.java:65 | parsing the decimal rendering of any 32-bit integer gives the integer back |
| Text.ParseInt | app/src/main/java/dev/kappa/agrep_again/Prefs.java:64-68 | a successful parse is always within the 32-bit range |
| Sorting.InsertBy | src/jp/sblo/pandora/aGrep/SearchViewModel.kt:58-59 | inserting keeps every element, adds one, and keeps a sorted sequence sorted |
| Sorting.SortBy | src/jp/sblo/pandora/aGrep/SearchViewModel.kt:58-59 | a sort is a permutation of its input ordered by the comparator, and when ties are an equivalence every class of tied elements keeps its input order, as a stable sort does |
| Sorting.StablePermutation | src/jp/sblo/pandora/aGrep/SearchViewModel.kt:58-59 | a rearrangement that keeps every tie class in order holds exactly the elements of the original |
| FileTree.SafeName | app/src/main/java/dev/kappa/agrep_again/ExecutorGrepEngine.java:268-278 | the document name, else the URI's last path segment, else the empty text |
| FileTree.ChildPath | app/src/main/java/dev/kappa/agrep_again/ExecutorGrepEngine.java:118-120 | a child is shown as `base/name`, or just `name` under an empty base |
| FileTree.CancelIsSticky | app/src/main/java/dev/kappa/agrep_again/ExecutorGrepEngine.java:306-307 | once a poll sees cancellation, every later poll sees it too |
| FileTree.SeenLastPolled | app/src/main/java/dev/kappa/agrep_again/ExecutorGrepEngine.java:197-200 | a poll that found the flag clear, ahead of polls where only the last can have seen it set, keeps that rule for the longer run |
| Walk.Hits | app/src/main/java/dev/kappa/agrep_again/ExecutorGrepEngine.java:197-215 | a stretch of lines gives at most one record per line |
| Walk.HitsSplit | app/src/main/java/dev/kappa/agrep_again/ExecutorGrepEngine.java:197-215 | the records of two adjacent stretches of lines are those of the whole stretch, in line order |
| Walk.PrefixJoin | app/src/main/java/dev/kappa/agrep_again/ExecutorGrepEngine.java:111-136 | a prefix of one part, extended by a prefix of the next only once the first was complete, is a prefix of both parts together |
| Records.FlattenAppend | app/src/main/java/dev/kappa/agrep_again/ExecutorGrepEngine.java:217-238 | the matches of two traces joined are the matches of each, in order |
| Records.NewProgress | app/src/main/java/jp/sblo/pandora/aGrep/SearchProgress.java:16-21 | the query and counters are stored as given; a null list becomes empty; a present list is kept as is |
| Records.NewSummary | app/src/main/java/jp/sblo/pandora/aGrep/SearchSummary.java:16-23 | the query, totals and duration are stored as given; a null list becomes empty; a present list is kept as is |
| Records.Idle | app/src/main/java/jp/sblo/pandora/aGrep/SearchUiState.java:20-22 | the idle state is not searching and carries no payload |
| Records.Searching | app/src/main/java/jp/sblo/pandora/aGrep/SearchUiState.java:24-26 | the searching state carries only its progress |
| Records.Completed | app/src/main/java/jp/sblo/pandora/aGrep/SearchUiState.java:28-30 | the completed state is not searching and carries only its summary |
| Records.Failed | app/src/main/java/jp/sblo/pandora/aGrep/SearchUiState.java:32-34 | the error state is not searching and carries only its message |
| Records.BuiltStates | app/src/main/java/jp/sblo/pandora/aGrep/SearchUiState.java:12-35 | every state the factories build has at most one payload, and it is searching exactly when `searching` built it |
| Checked.DisplayName | app/src/main/java/jp/sblo/pandora/aGrep/CheckedString.java:22-24 | the name when one is set, else the value; none only when both are missing |
| Checked.Enabled | app/src/main/java/jp/sblo/pandora/aGrep/CheckedString.java:8-10 | the one-argument constructor is checked, and both value and name are the argument |
| Checked.WithState | app/src/main/java/jp/sblo/pandora/aGrep/CheckedString.java:12-14 | the two-argument constructor keeps the flag, and the name is the value |
| Checked.Labelled | app/src/main/java/jp/sblo/pandora/aGrep/CheckedString.java:16-20 | the three-argument constructor keeps flag and value, and a missing label falls back to the value |
| Checked.SetDisplayName | app/src/main/java/jp/sblo/pandora/aGrep/CheckedString.java:26-28 | only the shown name changes; clearing it shows the value again |
| Checked.ConstructorExamples | app/src/test/java/jp/sblo/pandora/aGrep/CheckedStringTest.java:99-143 | a blank value counts as a value, an empty or missing one does not, and a cleared name falls back to the value or to nothing |
| GrepData.Blank | app/src/main/java/dev/kappa/agrep_again/GrepView.java:30-32 | the no-argument row has no URI, name or text, and line 0 |
| GrepData.CompareAntisymmetric | app/src/main/java/dev/kappa/agrep_again/GrepView.java:41-50 | swapping two rows negates the comparison |
| GrepData.CompareReflexive | app/src/main/java/dev/kappa/agrep_again/GrepView.java:41-50 | every row compares equal to itself |
| GrepData.CompareMeaning | app/src/main/java/dev/kappa/agrep_again/GrepView.java:41-50 | a row comes first when its name, null read as empty, is smaller ignoring case, or the names are equal ignoring case and its line number is smaller |
| GrepData.CompareTransitive | app/src/main/java/dev/kappa/agrep_again/GrepView.java:41-50 | the row order is transitive |
| GrepData.CompareIsAntisymmetric | app/src/main/java/dev/kappa/agrep_again/GrepView.java:41-50 | the row comparator is antisymmetric over all rows, as the sort requires |
| GrepData.CompareTiesTransitive | app/src/main/java/dev/kappa/agrep_again/GrepView.java:41-50 | rows tie exactly in classes (same name ignoring case and same line), so the stable sort keeps each class in order |
| GrepData.SortResults | src/jp/sblo/pandora/aGrep/SearchViewModel.kt:58-59 | the sorted results are a permutation of the summary's rows, ordered by the row comparator, with rows of the same name and line kept in the order they were found |
| GrepData.RowLabel | app/src/main/java/dev/kappa/agrep_again/GrepView.java:160-161 | the label starts with the name (null shown as empty), and the text in its final parentheses reads back as the line number |
| GrepData.RowLabelExamples | app/src/main/java/dev/kappa/agrep_again/GrepView.java:160-161 | a named row shows as `docs/a.txt(12)` and a nameless one as `(3)` |
| ExtFilter.ExecutorMatchesExtension | app/src/main/java/dev/kappa/agrep_again/ExecutorGrepEngine.java:280-303 | a null name is rejected; otherwise the name passes exactly when no entry is enabled, or an enabled entry is `*` and the name has no dot, or the lower-cased name ends in a dot and the entry |
| ExtFilter.TaskMatchesExtension | src/jp/sblo/pandora/aGrep/Search.java:642-664 | the older task's filter accepts exactly the names the executor's filter accepts, and rejects a null name |
| ExtFilter.TaskScan | src/jp/sblo/pandora/aGrep/Search.java:649-663 | the scan of the remaining entries accepts when nothing was or is enabled, or some enabled entry admits the name |
| ExtFilter.CoroutineScan | src/jp/sblo/pandora/aGrep/CoroutineGrepEngine.kt:53-65 | the scan accepts exactly when some enabled entry admits the name |
| ExtFilter.ShouldIncludeFile | src/jp/sblo/pandora/aGrep/CoroutineGrepEngine.kt:47-66 | a missing or empty list admits every file; otherwise a file passes exactly when some enabled entry admits it |
| ExtFilter.AllDisabledDisagree | src/jp/sblo/pandora/aGrep/CoroutineGrepEngine.kt:47-66 | with a non-empty list of disabled entries, the executor and task filters admit every name and the coroutine filter admits none |
| ExtFilter.FiltersAgreeWhenEnabled | src/jp/sblo/pandora/aGrep/CoroutineGrepEngine.kt:47-66 | when some entry is enabled, the executor and coroutine filters agree on every name |
| ExtFilter.TxtFilterExample | tests/src/test/java/jp/sblo/pandora/aGrep/CoroutineGrepEngineTest.kt:17-35 | the filter `txt` admits `include.txt` and rejects `exclude.log` |
| ExtFilter.LowerKeepsDots | app/src/main/java/dev/kappa/agrep_again/ExecutorGrepEngine.java:284-292 | lower-casing a name neither adds nor removes a dot, so the `*` test can look at either |
| ExtFilter.CollectMediaNeeds | src/jp/sblo/pandora/aGrep/Search.java:264-293 | an enabled `*` entry needs all three media kinds; otherwise a kind is needed exactly when some enabled entry, lower-cased, is in that kind's fixed list |
| ExtFilter.MediaNeedsExample | src/jp/sblo/pandora/aGrep/Search.java:67-75 | an enabled `JPG` entry needs images only, and a disabled `mp3` entry needs nothing |
| ExecutorEngine.LineStep | app/src/main/java/dev/kappa/agrep_again/ExecutorGrepEngine.java:202-227 | one line is numbered and tested; a match is counted and recorded once and, while fewer than ten matches were counted, reported alone |
| ExecutorEngine.ScanLines | app/src/main/java/dev/kappa/agrep_again/ExecutorGrepEngine.java:197-228 | the loop polls once before each line; it stops exactly on the first poll that finds the flag set, with lines left, and no earlier poll saw it; it records and batches exactly the matches of the lines read |
| ExecutorEngine.ScanLinesClear | app/src/main/java/dev/kappa/agrep_again/ExecutorGrepEngine.java:197-200 | a flag that no poll up to the last line's finds set lets the line loop read every line |
| ExecutorEngine.Flush | app/src/main/java/dev/kappa/agrep_again/ExecutorGrepEngine.java:230-238 | a non-empty leftover batch is sent as one event, and the trace's matches grow by exactly that batch |
| ExecutorEngine.FinishFile | app/src/main/java/dev/kappa/agrep_again/ExecutorGrepEngine.java:230-248 | the leftover batch is reported; a file with no match and a file number that is a multiple of ten gets one empty heartbeat, and a file with a match gets none |
| ExecutorEngine.ReadDocument | app/src/main/java/dev/kappa/agrep_again/ExecutorGrepEngine.java:195-248 | an opened file is counted once and polls at most once per line; the matches recorded are a prefix of the file's matching lines in line order, all of them unless its last poll found the flag set; the events report exactly the recorded matches |
| ExecutorEngine.ProcessDocument | app/src/main/java/dev/kappa/agrep_again/ExecutorGrepEngine.java:139-266 | only a poll that finds the flag set stops the walk, and it is the last poll; a name the filter rejects or a file that cannot be opened leaves the run uncounted and unchanged; a read file adds a prefix of its matches, all of them unless the last poll found the flag set, so a flag no poll sees changes nothing |
| ExecutorEngine.ProcessDir | app/src/main/java/dev/kappa/agrep_again/ExecutorGrepEngine.java:104-137 | a directory polls at most as often as its uninterrupted walk and adds a prefix of its depth-first matches and at most its file count, all of both unless its last poll found the flag set; a stop ends on such a poll; a flag already set adds nothing |
| ExecutorEngine.ProcessChild | app/src/main/java/dev/kappa/agrep_again/ExecutorGrepEngine.java:123-129 | a directory child is walked and any other child processed as a document, adding a prefix of its depth-first matches, all of them unless its last poll found the flag set |
| ExecutorEngine.ProcessChildren | app/src/main/java/dev/kappa/agrep_again/ExecutorGrepEngine.java:111-136 | the children are visited in order under `base/name`, with one poll before each; they add a prefix of their matches and at most their file count, all of both unless the last poll found the flag set; a flag already set adds nothing; the batching and file-order rules hold throughout |
| ExecutorEngine.RootOf | app/src/main/java/dev/kappa/agrep_again/ExecutorGrepEngine.java:68-71 | a root is walked exactly when its entry is enabled, has a value and resolves to a directory |
| ExecutorEngine.RootBase | app/src/main/java/dev/kappa/agrep_again/ExecutorGrepEngine.java:72-75 | the base path is the entry's display name, which always exists for a walked root |
| ExecutorEngine.SearchRoots | app/src/main/java/dev/kappa/agrep_again/ExecutorGrepEngine.java:56-89 | the selected roots, with one poll before each entry, add a prefix of their matches in entry order and at most their file count, all of both unless the last poll found the flag set; a stop ends on such a poll; a flag already set adds and reports nothing |
| ExecutorEngine.Search | app/src/main/java/dev/kappa/agrep_again/ExecutorGrepEngine.java:46-102 | however the walk ends there is one summary whose match count equals its list; events carry at most one match while under ten, file numbers never decrease, and the events' matches are the summary's; the list is a prefix of every match in depth-first order and the file count at most the files read; when no poll of the uninterrupted walk finds the flag set both are exact, and a flag set before the first poll gives an empty summary and no events |
| ExecutorEngine.PollAdvances | app/src/main/java/dev/kappa/agrep_again/ExecutorGrepEngine.java:198-200 | an extra poll of the flag keeps everything the line loop has established |
| ExecutorEngine.TailKeeps | app/src/main/java/dev/kappa/agrep_again/ExecutorGrepEngine.java:217-248 | the events added for one file keep the batching rule and the order of file numbers |
| ExecutorEngine.UpToJoin | app/src/main/java/dev/kappa/agrep_again/ExecutorGrepEngine.java:111-136 | a poll, a walk that added a prefix of its reference, then a second walk only when the first did not stop: since a cut-short walk ended on a poll that found the flag set, the pair adds a prefix of the joined reference within the joined poll count |
| ExecutorEngine.UpToClear | app/src/main/java/dev/kappa/agrep_again/ExecutorGrepEngine.java:197-200 | when none of the polls of a walk's uninterrupted run finds the flag set, the walk added all its matches and files |
| ExecutorEngine.ScanUpTo | app/src/main/java/dev/kappa/agrep_again/ExecutorGrepEngine.java:197-228 | the line loop of a counted file, stopped on a poll that found the flag set or read to the end, is a walk of the whole file within one poll per line |
| ExecutorEngine.UpToPolled | app/src/main/java/dev/kappa/agrep_again/ExecutorGrepEngine.java:107-116 | a poll that finds the flag clear before a walk counts as one more poll of the whole |
| CoroutineEngine.LineStep | src/jp/sblo/pandora/aGrep/CoroutineGrepEngine.kt:90-108 | one poll and one line; a match is counted and recorded, and the local batch is sent and cleared when it reaches ten, so it stays under ten |
| CoroutineEngine.ScanLines | src/jp/sblo/pandora/aGrep/CoroutineGrepEngine.kt:90-109 | the loop polls before every read and once at the end; it stops exactly on the first poll that finds the flag set, and no earlier poll saw it; otherwise it ends at the last line; every batch sent has exactly ten matches |
| CoroutineEngine.FinishFile | src/jp/sblo/pandora/aGrep/CoroutineGrepEngine.kt:110-114 | a leftover batch is sent as one event; with none, an empty heartbeat is sent exactly when the file had no match and the file count is a multiple of ten |
| CoroutineEngine.ReadLines | src/jp/sblo/pandora/aGrep/CoroutineGrepEngine.kt:75-126 | the read stops exactly when its last poll found the flag set, and polls at most once per line plus once; a file that is read to the end records every matching line in order, and a cancelled one a prefix of them; the events carry exactly those matches, or at most them when cancelled; a read error keeps the matches recorded and drops the end-of-file events |
| CoroutineEngine.QuietScan | src/jp/sblo/pandora/aGrep/CoroutineGrepEngine.kt:90-109 | reading a file without a matching line sends nothing and changes no counter |
| CoroutineEngine.GrepFile | src/jp/sblo/pandora/aGrep/CoroutineGrepEngine.kt:68-127 | the file count is untouched; the walk stops exactly when its last poll found the flag set, within the file's poll count; a name the filter rejects or an unopenable file contributes nothing; a file not cancelled records all its matches, a cancelled one a prefix of them |
| CoroutineEngine.FileEntry | src/jp/sblo/pandora/aGrep/CoroutineGrepEngine.kt:144-147 | every file entry is counted, filtered or not, before it is grepped, and, unless cancelled, followed by an empty progress event; it stops only on a poll that finds the flag set; it records all the file's matches unless cancelled, and a prefix of them otherwise |
| CoroutineEngine.Entry | src/jp/sblo/pandora/aGrep/CoroutineGrepEngine.kt:142-148 | a directory entry changes nothing and waits for the queue; a file entry is counted and grepped, adding its matches, or a prefix of them when a poll found the flag set |
| CoroutineEngine.Entries | src/jp/sblo/pandora/aGrep/CoroutineGrepEngine.kt:140-149 | the entries of a listing are handled in order with one poll before each, directories left for the queue; it stops only on a poll that finds the flag set; the file entries' matches are all recorded unless stopped, and a prefix of them otherwise; the events never report more than was recorded |
| CoroutineEngine.Subdirs | src/jp/sblo/pandora/aGrep/CoroutineGrepEngine.kt:142-143 | the queued entries are directories of the listing |
| CoroutineEngine.QueueShrinks | src/jp/sblo/pandora/aGrep/CoroutineGrepEngine.kt:136-150 | replacing a directory by its subdirectories at the back of the queue shrinks the queued trees, so the walk ends |
| CoroutineEngine.Drain | src/jp/sblo/pandora/aGrep/CoroutineGrepEngine.kt:134-150 | the queue, polled before each node, yields every match in breadth-first order and counts every file entry unless a poll found the flag set, which then ends it, and a prefix of the matches and at most the file entries otherwise |
| CoroutineEngine.WalksJoin | src/jp/sblo/pandora/aGrep/CoroutineGrepEngine.kt:136-149 | a poll, a walk that completed or stopped on a poll that found the flag set, then the rest of the loop, promise a prefix of the joined matches within the joined poll count, exactly them when nothing stopped |
| CoroutineEngine.GrepDirectory | src/jp/sblo/pandora/aGrep/CoroutineGrepEngine.kt:129-151 | a path that does not exist contributes nothing; otherwise its tree is searched breadth first, all of it unless a poll found the flag set and a prefix of it otherwise |
| CoroutineEngine.Roots | src/jp/sblo/pandora/aGrep/CoroutineGrepEngine.kt:153-162 | disabled entries are skipped; an enabled entry without a path fails the search, and a normal end means no such entry; a stop ends on a poll that found the flag set, and a flag set at the first poll stops at once; a normal end searched every enabled root in order, any other end a prefix of that |
| CoroutineEngine.SearchedJoin | src/jp/sblo/pandora/aGrep/CoroutineGrepEngine.kt:154-161 | a poll, one root's walk, then the rest of the root loop, promise what the loop over all the entries does within the joined poll count |
| CoroutineEngine.WalksClear | src/jp/sblo/pandora/aGrep/CoroutineGrepEngine.kt:91 | when none of the polls of a walk's uninterrupted run finds the flag set, the walk was not stopped and added all its matches and file entries |
| CoroutineEngine.SearchedClear | src/jp/sblo/pandora/aGrep/CoroutineGrepEngine.kt:153-162 | when none of the polls of the root loop's uninterrupted run finds the flag set, it was not cancelled and ended normally exactly when every enabled entry has a path |
| CoroutineEngine.Search | src/jp/sblo/pandora/aGrep/CoroutineGrepEngine.kt:28-170 | every event carries at most ten matches; a cancelled search has no summary; a finished one counts exactly its results, which are the events' matches and every match in breadth-first order; when no poll of the uninterrupted search finds the flag set it is not cancelled and finishes exactly when every enabled root has a path; a flag set before the first poll cancels it with no events; on trees that read without error, any outcome's events report a prefix of those matches |
| GrepTask.TaskStep | src/jp/sblo/pandora/aGrep/Search.java:583-608 | one line is read and tested; the flag is polled only after a match, and the loop stops exactly when that poll finds it set |
| GrepTask.ScanLines | src/jp/sblo/pandora/aGrep/Search.java:583-609 | the loop polls only after matches; it stops exactly on the first poll that finds the flag set, right after a match on the last line read, and no earlier poll saw it; otherwise it ends at the last line |
| GrepTask.ScanLinesAdvances | src/jp/sblo/pandora/aGrep/Search.java:583-609 | the loop records, batches and reports exactly the matches of the lines it read, with one poll per match |
| GrepTask.TaskReadFile | src/jp/sblo/pandora/aGrep/Search.java:567-623 | an opened file is counted once; without cancellation every matching line is recorded in order; the events carry exactly the recorded matches |
| GrepTask.GrepDocument | src/jp/sblo/pandora/aGrep/Search.java:519-628 | a null document stops the walk; a rejected name or unopenable file is passed over uncounted; without cancellation a file's matches are recorded |
| GrepTask.GrepDocumentTree | src/jp/sblo/pandora/aGrep/Search.java:491-516 | without cancellation a directory contributes its matches in depth-first order |
| GrepTask.GrepChild | src/jp/sblo/pandora/aGrep/Search.java:502-509 | a directory child is walked, any other child grepped as a document |
| GrepTask.GrepChildren | src/jp/sblo/pandora/aGrep/Search.java:496-515 | children are visited in order under `base/name`, and the walk stops when a child asks to |
| GrepTask.GrepRoot | src/jp/sblo/pandora/aGrep/Search.java:468-489 | without cancellation every enabled root with a value that resolves to a directory is walked, in entry order |
| GrepTask.SameMatchesAsExecutor | src/jp/sblo/pandora/aGrep/Search.java:468-489 | without cancellation the older task finds the same matches and counts the same files as the executor engine, and when no file fails while being read the rows it publishes are exactly the executor's result list |
| GrepTask.ReadErrorHidesRows | src/jp/sblo/pandora/aGrep/Search.java:598-623 | a file whose one match is the tenth of the search, and which fails after that line, adds a match that the task never publishes |
| GrepTask.NullDocumentStops | src/jp/sblo/pandora/aGrep/Search.java:524-526 | a null document stops the walk even when nothing is cancelled |
| Highlight.ZeroLengthNeverEnds | src/jp/sblo/pandora/aGrep/Search.java:671-684 | as written, an empty match where the search starts makes the loop mark the same empty span for ever |
| Highlight.AsWritten | src/jp/sblo/pandora/aGrep/Search.java:671-684 | the loop as written marks one span per round, and finishes only on a round where the matcher finds nothing more |
| Highlight.EmptyPatternExample | src/jp/sblo/pandora/aGrep/Search.java:671-684 | `a*` over `b` never finishes however many rounds it gets |
| Highlight.Next | src/jp/sblo/pandora/aGrep/Search.java:683 | the corrected next search position is past the match start and not before its end |
| Highlight.Spans | src/jp/sblo/pandora/aGrep/Search.java:671-684 | the corrected loop marks spans that are strictly increasing, disjoint and inside the text |
| Highlight.AgreeWithoutEmptyMatches | src/jp/sblo/pandora/aGrep/Search.java:671-684 | when no match is empty, the loop as written finishes with exactly the corrected spans |
| Prefs.BoolText | app/src/main/java/dev/kappa/agrep_again/Prefs.java:178 | the flag's text holds no separator and is `true` exactly for a set flag |
| Prefs.EncodeExtensions | app/src/main/java/dev/kappa/agrep_again/Prefs.java:176-185 | an empty list saves as the empty text; otherwise the saved text is flag and value fields joined by bars |
| Prefs.AppendedJoin | app/src/main/java/dev/kappa/agrep_again/Prefs.java:176-185 | the appended `flag\|value\|` text is the joined fields with one trailing bar, which the save deletes |
| Prefs.FieldsAt | app/src/main/java/dev/kappa/agrep_again/Prefs.java:177-182 | entry `k` is written as field `2k`, its flag, and field `2k+1`, its value |
| Prefs.Pairs | app/src/main/java/dev/kappa/agrep_again/Prefs.java:126-132 | an even field count reads as flag/value pairs, the flag set iff the field is `true`; an odd count fails |
| Prefs.PairsOfFields | app/src/main/java/dev/kappa/agrep_again/Prefs.java:126-132 | the fields of a list read back as each entry's flag and value |
| Prefs.SplitEncoding | app/src/main/java/dev/kappa/agrep_again/Prefs.java:126 | splitting a non-empty encoding at the bars gives back exactly its fields |
| Prefs.LoadExtensions | app/src/main/java/dev/kappa/agrep_again/Prefs.java:123-142 | an empty new key falls back to the old key, default `txt`, each field an enabled entry |
| Prefs.ExtensionsRoundTrip | app/src/main/java/dev/kappa/agrep_again/Prefs.java:123-185 | saving a non-empty list of non-empty, bar-free values and loading it gives the same list |
| Prefs.EmptyExtensionsLoadAsTxt | app/src/main/java/dev/kappa/agrep_again/Prefs.java:134-198 | an empty list saves as the empty text and, the old key removed, loads back as `[txt]` |
| Prefs.FromObject | app/src/main/java/dev/kappa/agrep_again/Prefs.java:82-86 | a stored object is checked by default, and its name defaults to its URI |
| Prefs.Legacy | app/src/main/java/dev/kappa/agrep_again/Prefs.java:104 | a legacy path is an entry with no value, shown under the path |
| Prefs.LoadDirectories | app/src/main/java/dev/kappa/agrep_again/Prefs.java:76-121 | a non-empty array wins and needs no migration; otherwise every legacy path becomes a valueless entry shown under the path; migration is due iff a legacy path was loaded, prompted unless already prompted |
| Prefs.SavedObjects | app/src/main/java/dev/kappa/agrep_again/Prefs.java:159-173 | only entries with a value are written, each with a URI and a name; none is written exactly when no entry has a value |
| Prefs.Valued | app/src/main/java/dev/kappa/agrep_again/Prefs.java:160-163 | the kept entries are exactly the entries with a value |
| Prefs.DirectoriesRoundTrip | app/src/main/java/dev/kappa/agrep_again/Prefs.java:76-173 | the saved directories read back as exactly the entries with a value, in order, each with the same flag, URI and display name |
| Prefs.FontSize | app/src/main/java/dev/kappa/agrep_again/Prefs.java:64-68 | a missing size is -1 and a size that is not a number is 16 |
| Prefs.FontSizeRoundTrip | app/src/main/java/dev/kappa/agrep_again/Prefs.java:64-68 | a size stored as the text of a 32-bit integer reads back as that integer |
| Prefs.Load | app/src/main/java/dev/kappa/agrep_again/Prefs.java:49-74 | loading succeeds exactly when both lists load; each scalar setting takes its stored value or its default, and the directory list, the extension list and the three migration fields are those the list loaders return |
| Prefs.Save | app/src/main/java/dev/kappa/agrep_again/Prefs.java:152-205 | every legacy key is removed; the array is written iff some entry has a value, and then the migration is settled and marked prompted |
| Prefs.SaveThenLoad | app/src/main/java/dev/kappa/agrep_again/Prefs.java:49-205 | after saving, loading gives the same flags, the entries with a value, no migration due, and the same extensions (or `[txt]` for none) |
| Prefs.MarkMigrationPrompted | app/src/main/java/dev/kappa/agrep_again/Prefs.java:144-150 | the prompt is recorded in the store and not shown again, and nothing else changes |
| Prefs.Ranked | app/src/main/java/dev/kappa/agrep_again/Prefs.java:223-224 | the recent entries are rearranged newest first, and entries with the same time stamp keep their stored order |
| Prefs.NewerFirstTiesTransitive | app/src/main/java/dev/kappa/agrep_again/Prefs.java:223-224 | the newest-first comparator ties exactly entries with equal time stamps, so ties form classes a stable sort can keep in order |
| Prefs.GetRecent | app/src/main/java/dev/kappa/agrep_again/Prefs.java:216-243 | at most 30 queries are returned, newest first, and every entry past the 30th is removed, from the last one back |
| Settings.AddUnique | src/jp/sblo/pandora/aGrep/Settings.java:190-201 | an empty text, or one equal ignoring case to an entry, changes nothing; otherwise one enabled entry is added and the list sorted by value ignoring case, entries equal ignoring case keeping their order with the new one last |
| Settings.AddUniqueIdempotent | src/jp/sblo/pandora/aGrep/Settings.java:190-201 | adding the same text twice is adding it once |
| Settings.NoExtensionAddedOnce | src/jp/sblo/pandora/aGrep/Settings.java:185 | the no-extension button adds `*` at most once |
| Settings.HandleDirectoryResult | src/jp/sblo/pandora/aGrep/Settings.java:150-169 | a result that is not OK or has no path changes nothing; a path is added as an extension is |
| Settings.UpdateItems | src/jp/sblo/pandora/aGrep/Settings.java:302-314 | the adapter holds a permutation of the list sorted by value ignoring case, entries with tied values in list order, or nothing for a null list |
| Settings.BindLabel | src/jp/sblo/pandora/aGrep/Settings.java:341-346 | `*` shows the no-extension label only in the extension list; every other row shows its value |
| Settings.AddExtensionByName | app/src/main/java/jp/sblo/pandora/aGrep/Settings.java:170-197 | a non-empty extension not equal ignoring case to an entry is added, enabled, and the list sorted for display, entries that tie keeping their order with the new one last; anything else changes nothing |
| Settings.DirectoryName | app/src/main/java/jp/sblo/pandora/aGrep/Settings.java:300-307 | a new directory is named by its document name, else its last path segment, else its URI |
| Settings.HandleDirectorySelection | app/src/main/java/jp/sblo/pandora/aGrep/Settings.java:280-312 | no URI, a refused permission, or a URI already held exactly changes nothing; otherwise an enabled entry is added under its name and the list sorted for display, entries that tie keeping their order with the new one last |
| Settings.SelectionIdempotent | app/src/main/java/jp/sblo/pandora/aGrep/Settings.java:293-298 | selecting the same directory again changes nothing |
| Settings.SortForDisplay | app/src/main/java/jp/sblo/pandora/aGrep/Settings.java:344-357 | the shown list is a permutation of the list, ordered by display name ignoring case, with entries whose names tie kept in list order |
| Settings.NamelessFirst | app/src/main/java/jp/sblo/pandora/aGrep/Settings.java:349-354 | in the shown list, entries without a display name come before every entry with one |
| Settings.ItemLabel | app/src/main/java/jp/sblo/pandora/aGrep/Settings.java:360-364 | `*` shows the no-extension label; anything else shows its display name |
| Settings.LabelsDifferForNamedValues | app/src/main/java/jp/sblo/pandora/aGrep/Settings.java:360-364 | a named entry is labelled by its name on the newer screen and by its value on the older one |
| FileSelector.Up | app/src/main/java/jp/sblo/pandora/aGrep/FileSelectorActivity.java:98-103 | `..` cuts the path at its last slash, keeping a slash that is at the start |
| FileSelector.Enter | app/src/main/java/jp/sblo/pandora/aGrep/FileSelectorActivity.java:105-112 | entering `name/` gives `/name` at the root and `dir/name` elsewhere |
| FileSelector.UpAfterEnter | app/src/main/java/jp/sblo/pandora/aGrep/FileSelectorActivity.java:98-112 | going up after entering a directory returns to where it was entered from |
| FileSelector.UpExamples | app/src/main/java/jp/sblo/pandora/aGrep/FileSelectorActivity.java:98-103 | `/sdcard` goes up to `/`, `/` stays `/`, and `/sdcard/Download` goes up to `/sdcard` |
| FileSelector.FileOrderAntisymmetric | app/src/main/java/jp/sblo/pandora/aGrep/FileSelectorActivity.java:131-146 | the listing comparator, directories first and then names ignoring case, is antisymmetric, so the sort that uses it is well defined |
| FileSelector.ShownDirectories | app/src/main/java/jp/sblo/pandora/aGrep/FileSelectorActivity.java:131-161 | the rows show each directory of the listing once, in name order ignoring case, with names equal ignoring case in listing order |
| FileSelector.Listing | app/src/main/java/jp/sblo/pandora/aGrep/FileSelectorActivity.java:151-161 | `..` comes first exactly away from the root, followed by one `name/` row per shown directory |
| FileSelector.ItemAt | app/src/main/java/jp/sblo/pandora/aGrep/FileSelectorActivity.java:116-121 | a row exists exactly when there is an adapter and the position is in range |
| FileSelector.Fill | app/src/main/java/jp/sblo/pandora/aGrep/FileSelectorActivity.java:124-168 | the path is always the new one, and the rows are kept when it cannot be listed |
| FileSelector.Click | app/src/main/java/jp/sblo/pandora/aGrep/FileSelectorActivity.java:92-114 | no row changes nothing, `..` goes up, and `name/` goes in |
| FileSelector.LongPress | app/src/main/java/jp/sblo/pandora/aGrep/FileSelectorActivity.java:46-69 | no row does nothing; `..` and only `..` goes up as a click does; any other row is chosen under its own name, and the path returned is the current path joined with it, ending in a slash |
| TextViewer.FileName | app/src/main/java/jp/sblo/pandora/aGrep/TextViewer.java:349 | the name is the last segment of the path without trailing slashes, and is empty exactly for a path of slashes |
| TextViewer.ShareBaseName | app/src/main/java/jp/sblo/pandora/aGrep/TextViewer.java:346-357 | the shared copy is named after the viewed path, else the source file for a `file` or scheme-less URI, else `shared.txt`, and never empty |
| TextViewer.ShareExtension | app/src/main/java/jp/sblo/pandora/aGrep/TextViewer.java:358-362 | the suffix is a dot and at least one dot-free character: from the last dot when a character follows it, else `.txt` |
| TextViewer.ShareExtensionOfName | app/src/main/java/jp/sblo/pandora/aGrep/TextViewer.java:358-362 | a name ending in a dot and a dot-free word gets that dot and word as its suffix |
| TextViewer.ShareNameExamples | app/src/main/java/jp/sblo/pandora/aGrep/TextViewer.java:355-362 | `shared.txt` and `notes.` give `.txt`, and `archive.tar.gz` gives `.gz` |
| TextViewer.JavaPatternText | app/src/main/java/jp/sblo/pandora/aGrep/TextViewer.java:131-135 | no query becomes the empty text; a query is kept in regex mode and otherwise escaped so it reads as its own characters |
| TextViewer.KotlinPatternText | src/jp/sblo/pandora/aGrep/TextViewer.kt:74-79 | the query is kept in regex mode and otherwise reads back as its own characters |
| TextViewer.SamePatternText | src/jp/sblo/pandora/aGrep/TextViewer.kt:74-79 | both viewers prepare the same pattern, a missing query read as empty |
| TextViewer.HighlightPattern | app/src/main/java/jp/sblo/pandora/aGrep/TextViewer.java:252-260 | there is a highlight pattern exactly when the pattern text is not empty |
| TextViewer.HighlightIffQuery | app/src/main/java/jp/sblo/pandora/aGrep/TextViewer.java:252-260 | the older viewer highlights exactly when it was given a non-empty query |
| TextViewer.ScrollTarget | app/src/main/java/jp/sblo/pandora/aGrep/TextViewer.java:266-268 | only a line above zero scrolls, to the row before it |
| TextViewer.OpenViewer | src/jp/sblo/pandora/aGrep/TextViewer.kt:65-79 | no extras or no path finishes; otherwise the path is loaded, the line defaults to 0, and the query (empty when missing) is prepared |
| TextViewer.ViewerUri | src/jp/sblo/pandora/aGrep/TextViewer.kt:165-173 | the URI is `file://` and the path, followed with line numbers on by `?line=` and text reading back as the one-based row |
| ViewerModel.Blank | src/jp/sblo/pandora/aGrep/TextViewerViewModel.kt:139-147 | a new viewer state has every field at its default |
| ViewerModel.Loading | src/jp/sblo/pandora/aGrep/TextViewerViewModel.kt:43 | a load starts with the path and the loading flag, all else default |
| ViewerModel.LoadText | src/jp/sblo/pandora/aGrep/TextViewerViewModel.kt:38-44 | an active load of the same path is left alone; anything else starts a fresh load |
| ViewerModel.LoadTextIdempotent | src/jp/sblo/pandora/aGrep/TextViewerViewModel.kt:38-41 | asking twice for the same path is asking once |
| ViewerModel.MilestonesMeaning | src/jp/sblo/pandora/aGrep/TextViewerViewModel.kt:102-106 | a status is posted at exactly the positive multiples of 200 up to the count, in increasing order |
| ViewerModel.ReadAllLines | src/jp/sblo/pandora/aGrep/TextViewerViewModel.kt:77-120 | a missing file fails at once; the count is the number of lines read, which are the file's first lines; the read is cancelled exactly when a poll sees it, and completes otherwise unless the reader fails |
| ViewerModel.LinesStatus | src/jp/sblo/pandora/aGrep/TextViewerViewModel.kt:52 | the status ends in ` lines`, and the text before it reads back as the count |
| ViewerModel.Posted | src/jp/sblo/pandora/aGrep/TextViewerViewModel.kt:102-106 | after the posts of a read, the status is the last milestone's, and nothing else changes |
| ViewerModel.Settle | src/jp/sblo/pandora/aGrep/TextViewerViewModel.kt:44-64 | loading ends; a completed read shows its lines and count with no error; a cancelled one is marked; a missing file or any other failure records its message |
| ViewerModel.CompletedStatusCountsLines | src/jp/sblo/pandora/aGrep/TextViewerViewModel.kt:46-54 | a completed load's status reads back as the number of lines shown |
| ViewerModel.ReloadAfterSettling | src/jp/sblo/pandora/aGrep/TextViewerViewModel.kt:38-43 | once a load has settled, asking for the same path loads it again |
| SearchModels.Blank | src/jp/sblo/pandora/aGrep/SearchViewModel.kt:92-102 | a new search state has every field at its default |
| SearchModels.StartSearch | src/jp/sblo/pandora/aGrep/SearchViewModel.kt:31-37 | a running search for the same query is left alone; anything else starts from a fresh state searching for the query |
| SearchModels.StartSearchIdempotent | src/jp/sblo/pandora/aGrep/SearchViewModel.kt:32-35 | starting the same search twice is starting it once |
| SearchModels.ProgressStatus | src/jp/sblo/pandora/aGrep/SearchViewModel.kt:89-90 | the status is exactly as long as the two counts written out plus the fixed ` files • ` and ` matches` words, the measure from which both counts are read back |
| SearchModels.ProgressStatusInjective | src/jp/sblo/pandora/aGrep/SearchViewModel.kt:89-90 | the status text determines both counters |
| SearchModels.OnProgress | src/jp/sblo/pandora/aGrep/SearchViewModel.kt:41-55 | the event's matches are appended, its counters copied, the status rebuilt from them, and nothing else changes |
| SearchModels.ProgressedAccumulates | src/jp/sblo/pandora/aGrep/SearchViewModel.kt:41-55 | after any run of events the results are the old ones followed by every event's matches, the counters are the last event's, and the flags are untouched |
| SearchModels.OnComplete | src/jp/sblo/pandora/aGrep/SearchViewModel.kt:58-67 | the results become the summary's, sorted by the row comparator with tied rows in the order found; searching ends, completed, with the status from the summary's counters |
| SearchModels.OnCancelled | src/jp/sblo/pandora/aGrep/SearchViewModel.kt:68-71 | searching ends, cancelled, with the results gathered so far kept |
| SearchModels.OnFailure | src/jp/sblo/pandora/aGrep/SearchViewModel.kt:72-75 | searching ends and the failure's message is recorded; nothing else changes |
| SearchModels.Settle | src/jp/sblo/pandora/aGrep/SearchViewModel.kt:31-77 | a whole search ends not searching; completed exactly when the engine finished, cancelled exactly when it was cancelled, and an error only when it crashed |
| SearchModels.CoroutineSearchShown | src/jp/sblo/pandora/aGrep/SearchViewModel.kt:40-67 | the screen ends with the matches it had gathered live, sorted; when no poll of the uninterrupted search finds the flag set and every enabled root has a path, it shows every match of the enabled roots |
| SearchModels.InitializeEngine | app/src/main/java/jp/sblo/pandora/aGrep/SearchViewModel.java:28-32 | an engine is created only when there is none |
| SearchModels.InitializeEngineOnce | app/src/main/java/jp/sblo/pandora/aGrep/SearchViewModel.java:28-32 | however often it is called, exactly one engine exists afterwards |
| SearchModels.StartJava | app/src/main/java/jp/sblo/pandora/aGrep/SearchViewModel.java:37-48 | without an engine the state is the `Engine not initialized` error; with one it is searching with the query at zero counts and no matches |
| SearchModels.Publish | app/src/main/java/jp/sblo/pandora/aGrep/SearchViewModel.java:50-65 | progress publishes a searching state, completion a completed one, an error an error state |
| SearchModels.Deliver | app/src/main/java/jp/sblo/pandora/aGrep/SearchViewModel.java:50-65 | after a run of callbacks the state is the last one's |
| SearchModels.Calls | app/src/main/java/dev/kappa/agrep_again/ExecutorGrepEngine.java:46-102 | the executor engine calls back once per progress event and then once with the summary |
| SearchModels.CancelSearch | app/src/main/java/jp/sblo/pandora/aGrep/SearchViewModel.java:71-76 | cancelling always leaves the idle state, with or without an engine |
| SearchModels.JavaSearchEnds | app/src/main/java/jp/sblo/pandora/aGrep/SearchViewModel.java:37-66 | with an engine a search ends completed with a summary that counts exactly its matches; without an engine it ends in the error state |
| Render.StatusLine | src/jp/sblo/pandora/aGrep/Search.kt:150-156 | an error wins; then while busy the status, or the spinner exactly when there is none; then cancelled; then once completed the status, or the finished text exactly when there is none; else the status or nothing |
| Render.HiddenShowsNothing | src/jp/sblo/pandora/aGrep/Search.kt:148-156 | a hidden status container would only have shown an empty line, and the progress bar shows only inside a shown container |
| Render.Toasts | src/jp/sblo/pandora/aGrep/Search.kt:159-170 | finished and cancelled toasts appear once, on the first completed or cancelled state; an error toast appears when the message differs from the last one; each is remembered |
| Render.ToastsSettle | src/jp/sblo/pandora/aGrep/Search.kt:159-170 | rendering the same state again shows no toast |
| Render.OneToastPerTransition | src/jp/sblo/pandora/aGrep/TextViewer.kt:104-117 | however many states are rendered, the finished and cancelled toasts each appear at most once, and not at all when already remembered |
| Render.RenderSearch | src/jp/sblo/pandora/aGrep/Search.kt:141-171 | the rows are the state's results; a completed non-empty list scrolls to the top; the progress bar shows exactly while searching |
| Render.RenderViewer | src/jp/sblo/pandora/aGrep/TextViewer.kt:92-136 | the adapter is built from the lines exactly on the first completed state, scrolling to the requested line above zero; toasts are error first |
| Render.AdapterBuiltOnce | src/jp/sblo/pandora/aGrep/TextViewer.kt:119-128 | however many states the viewer renders, it builds at most one adapter |
| Render.HandleIntent | src/jp/sblo/pandora/aGrep/Search.kt:81-130 | a non-search intent is ignored; an empty query or unmounted storage closes the screen; the same query running or completed is shown again with its toast memory; anything else starts afresh |
| Render.ReuseIsQuiet | src/jp/sblo/pandora/aGrep/Search.kt:107-115 | showing a reused state raises none of the toasts it had already raised |
| EngineExamples.ExtensionFilterTest | tests/src/test/java/jp/sblo/pandora/aGrep/CoroutineGrepEngineTest.kt:17-35 | with the filter `txt`, of `include.txt` and `exclude.log` only the first is searched: one result |
| EngineExamples.EmitsProgressTest | tests/src/test/java/jp/sblo/pandora/aGrep/CoroutineGrepEngineTest.kt:67-86 | two matching lines give two matches, and some progress event carries a match |
| EngineExamples.DepthFirstOrder | app/src/main/java/dev/kappa/agrep_again/ExecutorGrepEngine.java:111-136 | the executor engine reports the subdirectory's file before the root's own file |
| EngineExamples.BreadthFirstOrder | src/jp/sblo/pandora/aGrep/CoroutineGrepEngine.kt:134-150 | the coroutine engine reports the root's own file before the subdirectory's |

## Left out

- File and document access (`DocumentFile`, `ContentResolver`, streams, `mark`/`reset`, `readLine`) is the abstract tree: a file is unopenable, or readable lines with a possible read error after the last one.
- Character-set detection (`UniversalDetector`) is an external library. It decides only how bytes become lines, which the tree already gives.
- Regular-expression matching is a predicate on lines, and a find-from oracle in `highlightKeyword`. The compile flags and a `PatternSyntaxException` for an invalid regex-mode query are outside the model.
- Case folding folds ASCII letters only. Locale-sensitive and non-ASCII `toLowerCase`/`compareToIgnoreCase` are not modelled.
- Text.ParseInt: accepts ASCII digits only; `Integer.parseInt` also accepts the other Unicode decimal digits (`Character.digit`).
- Threads, `AtomicBoolean`, `Future.cancel`, coroutines and `postValue` coalescing are left out. So is the race in which a new search clears the shared cancellation flag. Cancellation is the deterministic `Cancel` oracle, polled at the documented check points.
- Clocks are parameters: the search duration and the time stamps `addRecent` writes. `addRecent` itself is a store write and is not modelled.
- SharedPreferences and `org.json` are a record of maps plus a list of directory objects. JSON text, `getInt`/`getBoolean` type errors and a malformed array are not modelled.
- Counter and line-number overflow is not modelled: counters are unbounded. `GrepData.Compare` uses the exact difference of line numbers, which agrees with Java's `l1 - l2` only when that does not overflow.
- The executor engine's `onError` path is unreachable in the model. It comes only from unexpected runtime exceptions.
- GrepTask: after a read error the pending batch of a file is lost, so the task then shows fewer rows than the executor engine's result list; `GrepTask.ReadErrorHidesRows` exhibits this, and the task's equality with the executor's rows is stated only for trees that read without error.
- CoroutineEngine: the coroutine engine's records use the file path as both the source and the display name, assuming what the `jp.sblo` constructor `GrepView.Data(File, int, String)` does; that class is not part of this model.
- Null children of a listing are not modelled. Both engines call `isDirectory()` on every child first.
- The metacharacter literal in `Search.kt` contains `${`, which Kotlin reads as a template. The model takes the set from the Java literal.
- Android UI glue is not modelled: dialogs, toast display, permissions, `isAllFilesMode`, `Uri` building, the temporary-file name and the cache-directory failure in `prepareSharedUri`, and a source URI without a path.
- Prefs.LoadDirectories: an odd field count under the newer legacy key makes `loadDirectories` read past the array and throw; the model returns None instead of modelling the exception.
- Prefs.LoadExtensions: an odd field count makes `loadExtensions` read past the array and throw; the model returns None instead of modelling the exception.
- ExtFilter.ExecutorMatchesExtension: the filters require every extension entry to have a value; the source dereferences the value and would throw on a null one.
- Highlight.AsWritten: the loop as written is run with a round bound, because a zero-length match makes it run for ever.
- ViewerModel.ReadAllLines: the exception message of a read failure is a parameter of `Settle`, not derived from the failure.
- CoroutineEngine.Search: a cancelled search has no summary, because the coroutine throws; the model returns the trace up to the cancellation.

## Findings

| source | as written | input that shows it | evidently intended | confidence | as-written member | corrected member |
|---|---|---|---|---|---|---|
| src/jp/sblo/pandora/aGrep/Search.java:671-684 | after each match the next search starts at its end, so an empty match is found again at the same place | pattern `a*` over the line `b`: the first match is empty at 0, and the loop never ends | move one position on after an empty match, so every line's highlighting finishes | not executed | Highlight.ZeroLengthNeverEnds | Highlight.Spans |

=== FILE: checked_string.dfy ===
/**
 * The checklist entry used for both extension filters and directory roots: an
 * enabled flag, a value (an extension, a tree URI or a path) and a display
 * name, any of which the source allows to be null.
 */
module Checked {
  import opened Optional

  datatype CheckedString = CheckedString(checked: bool, value: Option<string>, name: Option<string>) {

    /** The name when one is set, else the value; absent only when both are. */
    function DisplayName(): (r: Option<string>)
      ensures r.None? <==> name.None? && value.None?
      ensures name.Some? ==> r == name
      ensures name.None? ==> r == value
    {
      OrElse(name, value)
    }

    /** True iff the value is present and non-empty; blanks count as a value. */
    predicate HasValue()
    {
      value.Some? && |value.value| > 0
    }
  }

  /** Every entry has a value: code that dereferences the value unguarded needs this. */
  predicate AllValued(list: seq<CheckedString>) {
    forall i :: 0 <= i < |list| ==> list[i].value.Some?
  }

  /** The three-argument constructor: a missing name falls back to the value. */
  function Labelled(checked: bool, value: Option<string>, name: Option<string>): (c: CheckedString)
    ensures c.checked == checked && c.value == value
    ensures c.DisplayName() == OrElse(name, value)
    ensures name.None? ==> c.name == value
  {
    CheckedString(checked, value, if name.Some? then name else value)
  }

  /** The two-argument constructor: the name is the value. */
  function WithState(checked: bool, value: Option<string>): (c: CheckedString)
    ensures c.checked == checked && c.value == value
    ensures c.DisplayName() == value && c.name == value
  {
    Labelled(checked, value, value)
  }

  /** The one-argument constructor: checked, named after the value. */
  function Enabled(value: Option<string>): (c: CheckedString)
    ensures c.checked && c.value == value && c.name == value
    ensures c.DisplayName() == value
  {
    WithState(true, value)
  }

  /** `setDisplayName`: only the name changes; a null name shows the value again. */
  function SetDisplayName(c: CheckedString, name: Option<string>): (r: CheckedString)
    ensures r.checked == c.checked && r.value == c.value
    ensures r.DisplayName() == OrElse(name, c.value)
  {
    c.(name := name)
  }

  /** Observations the unit tests make about the constructors and `hasValue`. */
  lemma ConstructorExamples()
    ensures Enabled(Some("   ")).HasValue()
    ensures !Enabled(Some("")).HasValue()
    ensures !Labelled(true, None, Some("label")).HasValue()
    ensures Labelled(true, Some("value"), None).DisplayName() == Some("value")
    ensures SetDisplayName(Labelled(true, Some("value"), Some("label")), None).DisplayName() == Some("value")
    ensures SetDisplayName(Labelled(true, None, Some("label")), None).DisplayName() == None
  {
  }
}

=== FILE: coroutine_engine.dfy ===
/**
 * `CoroutineGrepEngine`: a breadth-first walk of each enabled root directory.
 * Every file entry is counted, filtered, read line by line with matches sent in
 * batches of ten, and followed by one progress event. Cancellation throws and
 * ends the search without a summary; a root entry without a path fails it.
 *
 * The tree behind a root path is the `resolve` parameter: `None` is a path
 * that does not exist. A file's path (`doc.uri`) is both its source and its
 * display name in the records.
 */
module CoroutineEngine {
  import opened Optional
  import opened Checked
  import opened GrepData
  import opened Records
  import opened FileTree
  import opened ExtFilter
  import opened Walk

  const BatchSize: nat := 10

  /** The records of a whole file's matching lines. */
  function AllHits(req: SearchRequest, doc: Doc, lines: seq<string>): seq<Data> {
    Hits(req.matches, doc.uri, doc.uri, lines, 0, |lines|)
  }

  // ---------------------------------------------------------------------------
  // grepFile

  /** The line loop's state: lines read, whether any matched, the local batch. */
  datatype Scan = Scan(run: Run, line: nat, found: bool, local: seq<Data>, stopped: bool)

  /** The events added between two runs each carry a full batch for file `fileNo`. */
  predicate FullBatches(a: Run, b: Run, fileNo: nat)
    requires a.events <= b.events
  {
    forall i :: |a.events| <= i < |b.events| ==>
      b.events[i].filesProcessed == fileNo && |b.events[i].newMatches| == BatchSize
  }

  /**
   * What the line loop does between two of its states: the lines in between
   * were read, each matching one counted and recorded once, in line order, and
   * either sent in a full batch or kept in the local batch; without a match
   * nothing was sent.
   */
  predicate Advances(req: SearchRequest, doc: Doc, lines: seq<string>, a: Scan, b: Scan) {
    a.line <= b.line <= |lines|
    && b.run.fileCount == a.run.fileCount
    && Grows(a.run, b.run)
    && b.run.all == a.run.all + Hits(req.matches, doc.uri, doc.uri, lines, a.line, b.line)
    && (b.found <==> a.found || Hits(req.matches, doc.uri, doc.uri, lines, a.line, b.line) != [])
    && Flatten(b.run.events) + b.local
       == Flatten(a.run.events) + a.local + Hits(req.matches, doc.uri, doc.uri, lines, a.line, b.line)
    && FullBatches(a.run, b.run, a.run.fileCount)
    && (Hits(req.matches, doc.uri, doc.uri, lines, a.line, b.line) == [] ==> b.run.events == a.run.events && b.local == a.local)
  }

  lemma AdvancesTransitive(req: SearchRequest, doc: Doc, lines: seq<string>, a: Scan, b: Scan, c: Scan)
    requires Advances(req, doc, lines, a, b) && Advances(req, doc, lines, b, c)
    ensures Advances(req, doc, lines, a, c)
  {
    var h1 := Hits(req.matches, doc.uri, doc.uri, lines, a.line, b.line);
    var h2 := Hits(req.matches, doc.uri, doc.uri, lines, b.line, c.line);
    HitsSplit(req.matches, doc.uri, doc.uri, lines, a.line, b.line, c.line);
    GrowsTransitive(a.run, b.run, c.run);
    Associative(a.run.all, h1, h2);
    Associative(Flatten(a.run.events) + a.local, h1, h2);
  }

  /**
   * One line read: number it and test it. A match is counted, recorded and
   * added to the local batch, which is sent and cleared once it holds ten.
   */
  function LineStep(req: SearchRequest, doc: Doc, lines: seq<string>, s: Scan): (n: Scan)
    requires s.line < |lines| && !s.stopped && |s.local| < BatchSize
    ensures n.line == s.line + 1 && !n.stopped && |n.local| < BatchSize
    ensures n.run.polls == s.run.polls + 1
    ensures n.found <==> s.found || req.matches(lines[s.line])
    ensures Advances(req, doc, lines, s, n)
  {
    var text := lines[s.line];
    var run := s.run.(polls := s.run.polls + 1);
    assert Hits(req.matches, doc.uri, doc.uri, lines, s.line + 1, s.line + 1) == [];
    if !req.matches(text) then s.(run := run, line := s.line + 1)
    else
      var d := Hit(doc.uri, doc.uri, lines, s.line);
      var run := run.(matchCount := run.matchCount + 1, all := run.all + [d]);
      var local := s.local + [d];
      if |local| >= BatchSize then
        var e := Progress(req.query, run.fileCount, run.matchCount, local);
        FlattenSnoc(run.events, e);
        Scan(run.(events := run.events + [e]), s.line + 1, true, [], false)
      else
        Scan(run, s.line + 1, true, local, false)
  }

  /**
   * The line loop: poll before each read (the flag set stops the search), and
   * end when the lines run out.
   */
  function ScanLines(req: SearchRequest, cancel: Cancel, doc: Doc, lines: seq<string>, s: Scan): (r: Scan)
    requires s.line <= |lines| && !s.stopped && |s.local| < BatchSize
    ensures |r.local| < BatchSize
    ensures !r.stopped ==> r.line == |lines|
    ensures Advances(req, doc, lines, s, r)
    ensures r.run.polls == s.run.polls + (r.line - s.line) + 1
    ensures SeenLast(cancel, s.run.polls, r.run.polls, r.stopped)
    decreases |lines| - s.line
  {
    assert Hits(req.matches, doc.uri, doc.uri, lines, s.line, s.line) == [];
    if IsCancelled(cancel, s.run.polls) then s.(run := s.run.(polls := s.run.polls + 1), stopped := true)
    else if s.line == |lines| then s.(run := s.run.(polls := s.run.polls + 1))
    else
      var n := LineStep(req, doc, lines, s);
      var r := ScanLines(req, cancel, doc, lines, n);
      AdvancesTransitive(req, doc, lines, s, n, r);
      SeenLastPolled(cancel, s.run.polls, r.run.polls, r.stopped);
      r
  }

  /** Every event from index `from` on was sent for file `fileNo` with at most ten matches. */
  predicate Sized(events: seq<Progress>, from: nat, fileNo: nat) {
    forall i :: from <= i < |events| ==>
      events[i].filesProcessed == fileNo && |events[i].newMatches| <= BatchSize
  }

  /**
   * The end of a file that was read to the end: send the leftover batch, or,
   * when there is none, an empty heartbeat if the file had no match and the
   * number of files counted is a multiple of ten. A read error skips both.
   */
  function FinishFile(query: string, s: Scan, readError: bool): (r: Run)
    requires |s.local| < BatchSize
    ensures Grows(s.run, r) && r.fileCount == s.run.fileCount && r.polls == s.run.polls && r.all == s.run.all
    ensures readError ==> r == s.run
    ensures !readError ==> Flatten(r.events) == Flatten(s.run.events) + s.local
    ensures Sized(r.events, |s.run.events|, s.run.fileCount)
    ensures !readError && s.local != [] ==> |r.events| == |s.run.events| + 1
    ensures !readError && s.local == [] ==>
      r.events == s.run.events
        + (if !s.found && s.run.fileCount % 10 == 0 then [Progress(query, r.fileCount, r.matchCount, [])] else [])
  {
    if readError then s.run
    else if s.local != [] then
      var e := Progress(query, s.run.fileCount, s.run.matchCount, s.local);
      FlattenSnoc(s.run.events, e);
      s.run.(events := s.run.events + [e])
    else if !s.found && s.run.fileCount % 10 == 0 then
      var e := Progress(query, s.run.fileCount, s.run.matchCount, []);
      FlattenSnoc(s.run.events, e);
      s.run.(events := s.run.events + [e])
    else s.run
  }

  /** Whether `grepFile` reads a file: the filter admits its name and it opens. */
  predicate Read(req: SearchRequest, doc: Doc, c: Content)
    requires AllValued(req.exts)
  {
    ShouldIncludeFile(SafeName(doc), Some(req.exts)) && c.Readable?
  }

  /** The matches a file contributes when nothing is cancelled. */
  function FileHits(req: SearchRequest, doc: Doc, c: Content): seq<Data>
    requires AllValued(req.exts)
  {
    if Read(req, doc, c) then AllHits(req, doc, c.lines) else []
  }

  /**
   * How often `grepFile` polls the flag when nothing stops it: once on entry,
   * then once before each line of a file it reads and once more at its end.
   */
  function FilePolls(req: SearchRequest, doc: Doc, c: Content): nat
    requires AllValued(req.exts)
  {
    1 + (if Read(req, doc, c) then |c.lines| + 1 else 0)
  }

  /** The line loop and the file's end together send exactly the file's matches. */
  lemma FlattenConserved(st: Run, s: Scan, r: Run, h: seq<Data>)
    requires s.run.all == st.all + h
    requires Flatten(s.run.events) + s.local == Flatten(st.events) + [] + h
    requires r.all == s.run.all && Flatten(r.events) == Flatten(s.run.events) + s.local
    requires Flatten(st.events) == st.all
    ensures Flatten(r.events) == r.all
  {
    assert Flatten(st.events) + [] == Flatten(st.events);
  }

  lemma SizedJoin(b: seq<Progress>, c: seq<Progress>, from: nat, fileNo: nat)
    requires from <= |b| && b <= c
    requires Sized(b, from, fileNo) && Sized(c, |b|, fileNo)
    ensures Sized(c, from, fileNo)
  {
    forall i | from <= i < |b|
      ensures c[i] == b[i]
    {
    }
  }

  /** A file read to the end without a match leaves the run as it was. */
  lemma QuietScan(req: SearchRequest, doc: Doc, lines: seq<string>, st: Run, s: Scan)
    requires Advances(req, doc, lines, Scan(st, 0, false, [], false), s) && s.line == |lines|
    ensures AllHits(req, doc, lines) == [] ==>
      s.run.events == st.events && s.local == [] && !s.found
      && s.run.matchCount == st.matchCount && s.run.fileCount == st.fileCount
  {
    assert st.all + [] == st.all;
  }

  /** A file read from line 0 with an empty local batch. */
  function ReadLines(req: SearchRequest, cancel: Cancel, doc: Doc, lines: seq<string>, failsAfter: bool, st: Run): (r: Step)
    ensures Grows(st, r.run) && r.run.fileCount == st.fileCount
    ensures st.polls < r.run.polls <= st.polls + |lines| + 1
    ensures Sized(r.run.events, |st.events|, st.fileCount)
    ensures !r.ok <==> IsCancelled(cancel, r.run.polls - 1)
    ensures cancel.Never? ==> r.ok
    ensures r.ok ==> r.run.all == st.all + AllHits(req, doc, lines)
    ensures r.run.all <= st.all + AllHits(req, doc, lines)
    ensures r.ok && !failsAfter && Consistent(st) ==> Consistent(r.run)
    ensures !failsAfter && Consistent(st) ==> Sent(r.run)
    ensures r.ok && !failsAfter && AllHits(req, doc, lines) == [] ==>
      r.run.events == st.events
        + (if st.fileCount % 10 == 0 then [Progress(req.query, st.fileCount, st.matchCount, [])] else [])
  {
    var s0 := Scan(st, 0, false, [], false);
    var s := ScanLines(req, cancel, doc, lines, s0);
    HitsSplit(req.matches, doc.uri, doc.uri, lines, 0, s.line, |lines|);
    Associative(st.all, Hits(req.matches, doc.uri, doc.uri, lines, 0, s.line), Hits(req.matches, doc.uri, doc.uri, lines, s.line, |lines|));
    if s.stopped then
      assert Flatten(st.events) + [] == Flatten(st.events);
      Step(false, s.run)
    else
      QuietScan(req, doc, lines, st, s);
      var r := FinishFile(req.query, s, failsAfter);
      SizedJoin(s.run.events, r.events, |st.events|, st.fileCount);
      if !failsAfter && Consistent(st) then
        FlattenConserved(st, s, r, Hits(req.matches, doc.uri, doc.uri, lines, 0, s.line));
        Step(true, r)
      else Step(true, r)
  }

  /**
   * `grepFile`: poll (the flag set stops the search); a name the filter
   * rejects and a file that cannot be opened contribute nothing.
   */
  function GrepFile(req: SearchRequest, cancel: Cancel, doc: Doc, c: Content, st: Run): (r: Step)
    requires AllValued(req.exts)
    ensures Grows(st, r.run) && r.run.fileCount == st.fileCount
    ensures st.polls < r.run.polls <= st.polls + FilePolls(req, doc, c)
    ensures Sized(r.run.events, |st.events|, st.fileCount)
    ensures !r.ok <==> IsCancelled(cancel, r.run.polls - 1)
    ensures cancel.Never? ==> r.ok
    ensures r.ok ==> r.run.all == st.all + FileHits(req, doc, c)
    ensures r.run.all <= st.all + FileHits(req, doc, c)
    ensures r.ok && Clean(File(doc, c)) && Consistent(st) ==> Consistent(r.run)
    ensures Clean(File(doc, c)) && Consistent(st) ==> Sent(r.run)
    ensures !Read(req, doc, c) && r.ok ==> r.run == st.(polls := st.polls + 1)
  {
    if IsCancelled(cancel, st.polls) then Step(false, st.(polls := st.polls + 1))
    else
      var st1 := st.(polls := st.polls + 1);
      if !Read(req, doc, c) then
        assert st.all + [] == st.all;
        Step(true, st1)
      else ReadLines(req, cancel, doc, c.lines, c.failsAfter, st1)
  }

  // ---------------------------------------------------------------------------
  // grepDirectory

  /** No event sends more than one batch's worth of matches. */
  predicate Capped(events: seq<Progress>) {
    forall i :: 0 <= i < |events| ==> |events[i].newMatches| <= BatchSize
  }

  /** Growth that keeps the batch cap and the order of `filesProcessed`. */
  predicate Keeps(a: Run, b: Run) {
    Grows(a, b)
    && (Capped(a.events) ==> Capped(b.events))
    && (Ordered(a.events, a.fileCount) ==> Ordered(b.events, b.fileCount))
  }

  lemma KeepsTransitive(a: Run, b: Run, c: Run)
    requires Keeps(a, b) && Keeps(b, c)
    ensures Keeps(a, c)
  {
  }

  /** Events sent for the newest file keep both trace rules. */
  lemma SizedKeeps(a: Run, b: Run)
    requires Grows(a, b) && Sized(b.events, |a.events|, b.fileCount)
    ensures Keeps(a, b)
  {
    forall i | 0 <= i < |a.events|
      ensures b.events[i] == a.events[i]
    {
    }
  }

  /**
   * What a walk over part of a tree promises, from `st` to `r`, when its full
   * walk polls the flag `polls` times and adds the matches `hits` and `files`
   * file entries, and the part reads without error when `clean`: it keeps the
   * trace rules and polls at most that often; it stops only on a poll that
   * finds the flag set, which is then its last; stopped or not it added a
   * prefix of those matches and at most that many files, and all of both when
   * it was not stopped; the trace never reports more than was recorded, and
   * exactly that when nothing stopped it.
   */
  predicate Walks(cancel: Cancel, st: Run, r: Step, hits: seq<Data>, files: nat, polls: nat, clean: bool) {
    Keeps(st, r.run) && r.run.polls <= st.polls + polls
    && (!r.ok ==> st.polls < r.run.polls && IsCancelled(cancel, r.run.polls - 1)) && (cancel.Never? ==> r.ok)
    && (r.ok ==> r.run.all == st.all + hits && r.run.fileCount == st.fileCount + files)
    && r.run.all <= st.all + hits && r.run.fileCount <= st.fileCount + files
    && (clean && Consistent(st) ==> Sent(r.run) && (r.ok ==> Consistent(r.run)))
  }

  /** When no poll of the uninterrupted walk finds the flag set, the walk ran in full. */
  lemma WalksClear(cancel: Cancel, st: Run, r: Step, hits: seq<Data>, files: nat, polls: nat, clean: bool)
    requires Walks(cancel, st, r, hits, files, polls, clean) && ClearBefore(cancel, st.polls + polls)
    ensures r.ok && r.run.all == st.all + hits && r.run.fileCount == st.fileCount + files
  {
  }

  /** A poll that finds the flag set stops the walk with nothing added. */
  lemma WalksStopped(cancel: Cancel, st: Run, hits: seq<Data>, files: nat, polls: nat, clean: bool)
    requires IsCancelled(cancel, st.polls) && polls >= 1
    ensures Walks(cancel, st, Step(false, st.(polls := st.polls + 1)), hits, files, polls, clean)
  {
  }

  /** A poll before a walk is one more poll of the whole. */
  lemma WalksPolled(cancel: Cancel, st: Run, r: Step, hits: seq<Data>, files: nat, polls: nat, clean: bool)
    requires Walks(cancel, st.(polls := st.polls + 1), r, hits, files, polls, clean)
    ensures Walks(cancel, st, r, hits, files, 1 + polls, clean)
  {
  }

  /** Counting a file before a walk adds that file to what the walk promises. */
  lemma WalksCounted(cancel: Cancel, st: Run, r: Step, hits: seq<Data>, polls: nat, clean: bool)
    requires Walks(cancel, st.(fileCount := st.fileCount + 1), r, hits, 0, polls, clean)
    ensures Walks(cancel, st, r, hits, 1, polls, clean)
  {
    assert Keeps(st, st.(fileCount := st.fileCount + 1));
    KeepsTransitive(st, st.(fileCount := st.fileCount + 1), r.run);
  }

  /** An empty event for the newest file after a walk that was not stopped keeps its promises. */
  lemma WalksBeat(cancel: Cancel, st: Run, r: Step, hits: seq<Data>, files: nat, polls: nat, clean: bool, e: Progress)
    requires Walks(cancel, st, r, hits, files, polls, clean) && r.ok
    requires e.newMatches == [] && e.filesProcessed == r.run.fileCount
    ensures Walks(cancel, st, Step(true, r.run.(events := r.run.events + [e])), hits, files, polls, clean)
  {
    var run := r.run.(events := r.run.events + [e]);
    FlattenSnoc(r.run.events, e);
    assert Flatten(r.run.events) + [] == Flatten(r.run.events);
    SizedKeeps(r.run, run);
    KeepsTransitive(st, r.run, run);
  }

  /**
   * A poll, one walk, then a second walk only when the first was not stopped:
   * together they promise what a walk over both parts does.
   */
  lemma WalksJoin(cancel: Cancel, st: Run, head: Step, r: Step,
                  x: seq<Data>, fx: nat, px: nat, cx: bool, y: seq<Data>, fy: nat, py: nat, cy: bool)
    requires Walks(cancel, st.(polls := st.polls + 1), head, x, fx, px, cx)
    requires head.ok ==> Walks(cancel, head.run, r, y, fy, py, cy)
    requires !head.ok ==> r == head
    ensures Walks(cancel, st, r, x + y, fx + fy, 1 + px + py, cx && cy)
  {
    var st1 := st.(polls := st.polls + 1);
    KeepsTransitive(st, st1, head.run);
    if head.ok {
      KeepsTransitive(st, head.run, r.run);
    }
    PrefixJoin(st.all, x, y, head.run.all, r.run.all);
    Associative(st.all, x, y);
  }

  /**
   * A file entry: count it before anything else, grep it, then send a progress
   * event with no new matches.
   */
  function FileEntry(req: SearchRequest, cancel: Cancel, doc: Doc, c: Content, st: Run): (r: Step)
    requires AllValued(req.exts)
    ensures r.run.fileCount == st.fileCount + 1
    ensures r.ok ==>
      |r.run.events| > 0 && r.run.events[|r.run.events| - 1] == Progress(req.query, r.run.fileCount, r.run.matchCount, [])
    ensures Walks(cancel, st, r, FileHits(req, doc, c), 1, FilePolls(req, doc, c), Clean(File(doc, c)))
  {
    var st1 := st.(fileCount := st.fileCount + 1);
    var g := GrepFile(req, cancel, doc, c, st1);
    SizedKeeps(st1, g.run);
    assert st1.all + FileHits(req, doc, c) == st.all + FileHits(req, doc, c);
    assert Walks(cancel, st1, g, FileHits(req, doc, c), 0, FilePolls(req, doc, c), Clean(File(doc, c)));
    WalksCounted(cancel, st, g, FileHits(req, doc, c), FilePolls(req, doc, c), Clean(File(doc, c)));
    if !g.ok then g
    else
      var e := Progress(req.query, g.run.fileCount, g.run.matchCount, []);
      WalksBeat(cancel, st, g, FileHits(req, doc, c), 1, FilePolls(req, doc, c), Clean(File(doc, c)), e);
      Step(true, g.run.(events := g.run.events + [e]))
  }

  /** The directories among `cs`, in order. */
  function Subdirs(cs: seq<Node>): (r: seq<Node>)
    ensures SizeAll(r) <= SizeAll(cs)
    ensures forall i :: 0 <= i < |r| ==> r[i].Dir? && r[i] in cs
  {
    if |cs| == 0 then []
    else
      var rest := Subdirs(cs[1..]);
      if cs[0].Dir? then
        assert SizeAll([cs[0]] + rest) == Size(cs[0]) + SizeAll(rest) by {
          assert ([cs[0]] + rest)[1..] == rest;
        }
        [cs[0]] + rest
      else rest
  }

  /** The matches a listing entry contributes: a file's, none for a directory. */
  function NodeHits(req: SearchRequest, n: Node): seq<Data>
    requires AllValued(req.exts)
  {
    match n
    case File(doc, c) => FileHits(req, doc, c)
    case Dir(_, _) => []
  }

  /** The matches of the file entries among `cs`, in order. */
  function EntryHits(req: SearchRequest, cs: seq<Node>): seq<Data>
    requires AllValued(req.exts)
  {
    if |cs| == 0 then [] else NodeHits(req, cs[0]) + EntryHits(req, cs[1..])
  }

  /** How often handling a listing entry polls the flag when nothing stops it. */
  function NodePolls(req: SearchRequest, n: Node): nat
    requires AllValued(req.exts)
  {
    match n
    case File(doc, c) => FilePolls(req, doc, c)
    case Dir(_, _) => 0
  }

  /** How often the entry loop over `cs` polls the flag when nothing stops it. */
  function EntryPolls(req: SearchRequest, cs: seq<Node>): nat
    requires AllValued(req.exts)
  {
    if |cs| == 0 then 0 else 1 + NodePolls(req, cs[0]) + EntryPolls(req, cs[1..])
  }

  /** One entry of a listing: a directory waits in the queue, a file is handled at once. */
  function Entry(req: SearchRequest, cancel: Cancel, n: Node, st: Run): (r: Step)
    requires AllValued(req.exts)
    ensures n.Dir? ==> r == Step(true, st)
    ensures Walks(cancel, st, r, NodeHits(req, n), if n.File? then 1 else 0, NodePolls(req, n), Clean(n))
  {
    match n
    case Dir(_, _) =>
      assert st.all + [] == st.all;
      Step(true, st)
    case File(doc, c) => FileEntry(req, cancel, doc, c, st)
  }

  /** The number of file entries among `cs`, whatever the filter says. */
  function FileEntries(cs: seq<Node>): nat {
    if |cs| == 0 then 0 else (if cs[0].File? then 1 else 0) + FileEntries(cs[1..])
  }

  /**
   * The entry loop over one directory listing: poll before each entry (the
   * flag set stops the search); a directory entry waits in the queue, a file
   * entry is handled at once.
   */
  function Entries(req: SearchRequest, cancel: Cancel, cs: seq<Node>, st: Run): (r: Step)
    requires AllValued(req.exts)
    ensures Walks(cancel, st, r, EntryHits(req, cs), FileEntries(cs), EntryPolls(req, cs), CleanAll(cs))
  {
    if |cs| == 0 then
      assert st.all + [] == st.all;
      Step(true, st)
    else if IsCancelled(cancel, st.polls) then
      WalksStopped(cancel, st, EntryHits(req, cs), FileEntries(cs), EntryPolls(req, cs), CleanAll(cs));
      Step(false, st.(polls := st.polls + 1))
    else
      var head := Entry(req, cancel, cs[0], st.(polls := st.polls + 1));
      var r := if !head.ok then head else Entries(req, cancel, cs[1..], head.run);
      WalksJoin(cancel, st, head, r, NodeHits(req, cs[0]), (if cs[0].File? then 1 else 0), NodePolls(req, cs[0]), Clean(cs[0]),
                EntryHits(req, cs[1..]), FileEntries(cs[1..]), EntryPolls(req, cs[1..]), CleanAll(cs[1..]));
      CleanAllCons(cs);
      r
  }

  lemma CleanAllCons(cs: seq<Node>)
    requires |cs| > 0
    ensures CleanAll(cs) == (Clean(cs[0]) && CleanAll(cs[1..]))
  {
    if Clean(cs[0]) && CleanAll(cs[1..]) {
      forall i | 0 <= i < |cs|
        ensures Clean(cs[i])
      {
        if i > 0 { assert cs[i] == cs[1..][i - 1]; }
      }
    }
  }

  /** Taking the first node off a queue and appending the subdirectories of a directory. */
  lemma QueueShrinks(queue: seq<Node>)
    requires |queue| > 0 && queue[0].Dir?
    ensures SizeAll(queue[1..] + Subdirs(queue[0].children)) < SizeAll(queue)
  {
    SizeAllAppend(queue[1..], Subdirs(queue[0].children));
  }

  /** The matches of the queued trees in breadth-first order. */
  function BfsHits(req: SearchRequest, queue: seq<Node>): seq<Data>
    requires AllValued(req.exts)
    decreases SizeAll(queue)
  {
    if |queue| == 0 then []
    else if queue[0].File? then BfsHits(req, queue[1..])
    else
      QueueShrinks(queue);
      EntryHits(req, queue[0].children) + BfsHits(req, queue[1..] + Subdirs(queue[0].children))
  }

  /** The number of file entries in the queued trees. */
  function BfsFiles(queue: seq<Node>): nat
    decreases SizeAll(queue)
  {
    if |queue| == 0 then 0
    else if queue[0].File? then BfsFiles(queue[1..])
    else
      QueueShrinks(queue);
      FileEntries(queue[0].children) + BfsFiles(queue[1..] + Subdirs(queue[0].children))
  }

  /** How often the queue loop polls the flag when nothing stops it: once per node, then its entries'. */
  function BfsPolls(req: SearchRequest, queue: seq<Node>): nat
    requires AllValued(req.exts)
    decreases SizeAll(queue)
  {
    if |queue| == 0 then 0
    else if queue[0].File? then 1 + BfsPolls(req, queue[1..])
    else
      QueueShrinks(queue);
      1 + EntryPolls(req, queue[0].children) + BfsPolls(req, queue[1..] + Subdirs(queue[0].children))
  }

  lemma CleanQueue(queue: seq<Node>)
    requires |queue| > 0 && queue[0].Dir? && CleanAll(queue)
    ensures CleanAll(queue[0].children)
    ensures CleanAll(queue[1..] + Subdirs(queue[0].children))
  {
    assert Clean(queue[0]);
    var subs := Subdirs(queue[0].children);
    forall i | 0 <= i < |queue[1..] + subs|
      ensures Clean((queue[1..] + subs)[i])
    {
      if i < |queue| - 1 {
        assert (queue[1..] + subs)[i] == queue[i + 1];
      } else {
        assert (queue[1..] + subs)[i] == subs[i - |queue| + 1];
      }
    }
  }

  /**
   * The queue loop of `grepDirectory`: poll, take the first node; a node that
   * cannot be listed is passed over; otherwise its entries are handled and its
   * subdirectories queued behind the rest.
   */
  function Drain(req: SearchRequest, cancel: Cancel, queue: seq<Node>, st: Run): (r: Step)
    requires AllValued(req.exts)
    ensures Walks(cancel, st, r, BfsHits(req, queue), BfsFiles(queue), BfsPolls(req, queue), CleanAll(queue))
    decreases SizeAll(queue)
  {
    if |queue| == 0 then
      assert st.all + [] == st.all;
      Step(true, st)
    else if IsCancelled(cancel, st.polls) then
      WalksStopped(cancel, st, BfsHits(req, queue), BfsFiles(queue), BfsPolls(req, queue), CleanAll(queue));
      Step(false, st.(polls := st.polls + 1))
    else
      var st1 := st.(polls := st.polls + 1);
      if queue[0].File? then
        var r := Drain(req, cancel, queue[1..], st1);
        WalksPolled(cancel, st, r, BfsHits(req, queue[1..]), BfsFiles(queue[1..]), BfsPolls(req, queue[1..]), CleanAll(queue[1..]));
        assert CleanAll(queue) ==> CleanAll(queue[1..]);
        r
      else
        var cs := queue[0].children;
        var head := Entries(req, cancel, cs, st1);
        QueueShrinks(queue);
        var rest := queue[1..] + Subdirs(cs);
        var r := if !head.ok then head else Drain(req, cancel, rest, head.run);
        WalksJoin(cancel, st, head, r, EntryHits(req, cs), FileEntries(cs), EntryPolls(req, cs), CleanAll(cs),
                  BfsHits(req, rest), BfsFiles(rest), BfsPolls(req, rest), CleanAll(rest));
        if CleanAll(queue) then
          CleanQueue(queue);
          r
        else r
  }

  /** `grepDirectory`: poll; a path that does not exist contributes nothing. */
  function GrepDirectory(req: SearchRequest, cancel: Cancel, resolve: string -> Option<Node>, path: string, st: Run): (r: Step)
    requires AllValued(req.exts)
    ensures Walks(cancel, st, r, RootHits(req, resolve, path), RootFiles(resolve, path), RootPolls(req, resolve, path),
                  AllClean(resolve))
  {
    if IsCancelled(cancel, st.polls) then
      WalksStopped(cancel, st, RootHits(req, resolve, path), RootFiles(resolve, path), RootPolls(req, resolve, path),
                   AllClean(resolve));
      Step(false, st.(polls := st.polls + 1))
    else
      var st1 := st.(polls := st.polls + 1);
      match resolve(path)
      case None =>
        assert st.all + [] == st.all;
        Step(true, st1)
      case Some(root) =>
        assert CleanAll([root]) <== Clean(root);
        var r := Drain(req, cancel, [root], st1);
        WalksPolled(cancel, st, r, BfsHits(req, [root]), BfsFiles([root]), BfsPolls(req, [root]), CleanAll([root]));
        r
  }

  function RootHits(req: SearchRequest, resolve: string -> Option<Node>, path: string): seq<Data>
    requires AllValued(req.exts)
  {
    match resolve(path)
    case None => []
    case Some(root) => BfsHits(req, [root])
  }

  function RootFiles(resolve: string -> Option<Node>, path: string): nat {
    match resolve(path)
    case None => 0
    case Some(root) => BfsFiles([root])
  }

  function RootPolls(req: SearchRequest, resolve: string -> Option<Node>, path: string): nat
    requires AllValued(req.exts)
  {
    1 + match resolve(path)
        case None => 0
        case Some(root) => BfsPolls(req, [root])
  }

  // ---------------------------------------------------------------------------
  // search

  /** How the root loop ended: normally, cancelled, or on a root entry without a path. */
  datatype Exit = Normal | Stop | NullPath

  datatype Walked = Walked(exit: Exit, run: Run)

  /** Every enabled root entry has a path. */
  predicate NullFree(dirs: seq<CheckedString>) {
    forall i :: 0 <= i < |dirs| ==> dirs[i].checked ==> dirs[i].value.Some?
  }

  lemma NullFreeCons(dirs: seq<CheckedString>)
    requires |dirs| > 0
    ensures NullFree(dirs) <==> (dirs[0].checked ==> dirs[0].value.Some?) && NullFree(dirs[1..])
  {
    if NullFree(dirs[1..]) && (dirs[0].checked ==> dirs[0].value.Some?) {
      forall i | 0 <= i < |dirs| && dirs[i].checked
        ensures dirs[i].value.Some?
      {
        if i > 0 { assert dirs[i] == dirs[1..][i - 1]; }
      }
    }
  }

  /** The matches of every enabled root, in entry order. */
  function RootsHits(req: SearchRequest, resolve: string -> Option<Node>, dirs: seq<CheckedString>): seq<Data>
    requires AllValued(req.exts)
  {
    if |dirs| == 0 then []
    else
      (if dirs[0].checked && dirs[0].value.Some? then RootHits(req, resolve, dirs[0].value.value) else [])
      + RootsHits(req, resolve, dirs[1..])
  }

  function RootsFiles(resolve: string -> Option<Node>, dirs: seq<CheckedString>): nat {
    if |dirs| == 0 then 0
    else
      (if dirs[0].checked && dirs[0].value.Some? then RootFiles(resolve, dirs[0].value.value) else 0)
      + RootsFiles(resolve, dirs[1..])
  }

  /**
   * How often the root loop polls the flag when nothing stops it: once per
   * entry, then the walk of an enabled one; an enabled entry without a path
   * ends the loop.
   */
  function RootsPolls(req: SearchRequest, resolve: string -> Option<Node>, dirs: seq<CheckedString>): nat
    requires AllValued(req.exts)
  {
    if |dirs| == 0 then 0
    else if !dirs[0].checked then 1 + RootsPolls(req, resolve, dirs[1..])
    else if dirs[0].value.None? then 1
    else 1 + RootPolls(req, resolve, dirs[0].value.value) + RootsPolls(req, resolve, dirs[1..])
  }

  /**
   * What the root loop promises from `st`, over entries whose full search
   * polls the flag `polls` times and adds the matches `hits` and `files` file
   * entries, every enabled one with a path when `nullFree`, on trees that read
   * without error when `clean`: it keeps the trace rules and polls at most that
   * often; it stops only on a poll that finds the flag set, which is then its
   * last; a missing path fails it, and it ends normally only when none is
   * missing; it ends normally having added all of both, and otherwise a prefix
   * of the matches and at most that many files; the trace never reports more
   * than was recorded, and exactly that after a normal end.
   */
  predicate Searched(cancel: Cancel, st: Run, w: Walked, hits: seq<Data>, files: nat, polls: nat, nullFree: bool, clean: bool) {
    Keeps(st, w.run) && w.run.polls <= st.polls + polls
    && (w.exit.Stop? ==> st.polls < w.run.polls && IsCancelled(cancel, w.run.polls - 1))
    && (w.exit.NullPath? ==> !nullFree) && (w.exit.Normal? ==> nullFree)
    && (w.exit.Normal? ==> w.run.all == st.all + hits && w.run.fileCount == st.fileCount + files)
    && w.run.all <= st.all + hits && w.run.fileCount <= st.fileCount + files
    && (clean && Consistent(st) ==> Sent(w.run) && (w.exit.Normal? ==> Consistent(w.run)))
  }

  /**
   * When no poll of the uninterrupted loop finds the flag set, the loop was not
   * cancelled, and it ended normally exactly when no enabled entry lacks a path.
   */
  lemma SearchedClear(cancel: Cancel, st: Run, w: Walked, hits: seq<Data>, files: nat, polls: nat, nullFree: bool, clean: bool)
    requires Searched(cancel, st, w, hits, files, polls, nullFree, clean) && ClearBefore(cancel, st.polls + polls)
    ensures !w.exit.Stop? && (w.exit.Normal? <==> nullFree)
  {
  }

  /** A poll that finds the flag set ends the root loop with nothing added. */
  lemma SearchedStopped(cancel: Cancel, st: Run, hits: seq<Data>, files: nat, polls: nat, nullFree: bool, clean: bool)
    requires IsCancelled(cancel, st.polls) && polls >= 1
    ensures Searched(cancel, st, Walked(Stop, st.(polls := st.polls + 1)), hits, files, polls, nullFree, clean)
  {
  }

  /** A poll and a skipped entry change nothing the rest of the loop promises. */
  lemma SearchedPolled(cancel: Cancel, st: Run, w: Walked, hits: seq<Data>, files: nat, polls: nat, nullFree: bool, clean: bool)
    requires Searched(cancel, st.(polls := st.polls + 1), w, hits, files, polls, nullFree, clean)
    ensures Searched(cancel, st, w, [] + hits, 0 + files, 1 + polls, nullFree, clean)
  {
    assert [] + hits == hits;
  }

  /**
   * A poll, one root's walk, then the rest of the loop only when the walk was
   * not stopped: together they promise what the loop over all of it does.
   */
  lemma SearchedJoin(cancel: Cancel, st: Run, g: Step, w: Walked,
                     x: seq<Data>, fx: nat, px: nat, y: seq<Data>, fy: nat, py: nat, nullFree: bool, clean: bool)
    requires Walks(cancel, st.(polls := st.polls + 1), g, x, fx, px, clean)
    requires g.ok ==> Searched(cancel, g.run, w, y, fy, py, nullFree, clean)
    requires !g.ok ==> w == Walked(Stop, g.run)
    ensures Searched(cancel, st, w, x + y, fx + fy, 1 + px + py, nullFree, clean)
  {
    var st1 := st.(polls := st.polls + 1);
    KeepsTransitive(st, st1, g.run);
    if g.ok {
      KeepsTransitive(st, g.run, w.run);
    }
    PrefixJoin(st.all, x, y, g.run.all, w.run.all);
    Associative(st.all, x, y);
  }

  /**
   * The root loop: poll before each entry (the flag set stops the search),
   * skip a disabled entry, fail on an enabled one without a path, and search
   * the rest.
   */
  function Roots(req: SearchRequest, cancel: Cancel, resolve: string -> Option<Node>,
                 dirs: seq<CheckedString>, st: Run): (w: Walked)
    requires AllValued(req.exts)
    ensures Searched(cancel, st, w, RootsHits(req, resolve, dirs), RootsFiles(resolve, dirs), RootsPolls(req, resolve, dirs),
                     NullFree(dirs), AllClean(resolve))
    ensures |dirs| == 0 ==> w == Walked(Normal, st)
    ensures |dirs| > 0 && IsCancelled(cancel, st.polls) ==> w == Walked(Stop, st.(polls := st.polls + 1))
  {
    if |dirs| == 0 then
      assert st.all + [] == st.all;
      Walked(Normal, st)
    else if IsCancelled(cancel, st.polls) then
      SearchedStopped(cancel, st, RootsHits(req, resolve, dirs), RootsFiles(resolve, dirs), RootsPolls(req, resolve, dirs),
                      NullFree(dirs), AllClean(resolve));
      Walked(Stop, st.(polls := st.polls + 1))
    else
      var st1 := st.(polls := st.polls + 1);
      var d := dirs[0];
      NullFreeCons(dirs);
      if !d.checked then
        var w := Roots(req, cancel, resolve, dirs[1..], st1);
        SearchedPolled(cancel, st, w, RootsHits(req, resolve, dirs[1..]), RootsFiles(resolve, dirs[1..]),
                       RootsPolls(req, resolve, dirs[1..]), NullFree(dirs[1..]), AllClean(resolve));
        w
      else if d.value.None? then
        assert st.all <= st.all + RootsHits(req, resolve, dirs);
        Walked(NullPath, st1)
      else
        var g := GrepDirectory(req, cancel, resolve, d.value.value, st1);
        var w := if !g.ok then Walked(Stop, g.run) else Roots(req, cancel, resolve, dirs[1..], g.run);
        SearchedJoin(cancel, st, g, w, RootHits(req, resolve, d.value.value), RootFiles(resolve, d.value.value),
                     RootPolls(req, resolve, d.value.value), RootsHits(req, resolve, dirs[1..]), RootsFiles(resolve, dirs[1..]),
                     RootsPolls(req, resolve, dirs[1..]), NullFree(dirs[1..]), AllClean(resolve));
        w
  }

  /** The Kotlin `SearchSummary`: the query, the two counters and every match. */
  datatype CoSummary = CoSummary(query: string, filesProcessed: int, matchesFound: int, results: seq<Data>)

  /**
   * How a search ends: with a summary, by cancellation (an exception, no
   * summary), or by the failure of a root entry without a path. Each carries
   * the events sent before the end.
   */
  datatype Outcome =
    | Finished(events: seq<Progress>, summary: CoSummary)
    | Cancelled(events: seq<Progress>)
    | Crashed(events: seq<Progress>)

  /** `search`: the root loop from zero, then the summary. */
  function Search(req: SearchRequest, cancel: Cancel, resolve: string -> Option<Node>): (r: Outcome)
    requires AllValued(req.exts)
    ensures Capped(r.events)
    ensures r.Cancelled? ==> cancel.AfterPolls?
    ensures r.Crashed? ==> !NullFree(req.dirs)
    ensures cancel.Never? ==> (r.Finished? <==> NullFree(req.dirs))
    ensures ClearBefore(cancel, RootsPolls(req, resolve, req.dirs)) ==> !r.Cancelled? && (r.Finished? <==> NullFree(req.dirs))
    ensures IsCancelled(cancel, 0) ==>
      r == if req.dirs == [] then Finished([], CoSummary(req.query, 0, 0, [])) else Cancelled([])
    ensures r.Finished? ==>
      r.summary.query == req.query && r.summary.matchesFound == |r.summary.results|
      && r.summary.filesProcessed >= 0 && Ordered(r.events, r.summary.filesProcessed)
    ensures r.Finished? ==>
      r.summary.results == RootsHits(req, resolve, req.dirs)
      && r.summary.filesProcessed == RootsFiles(resolve, req.dirs)
    ensures r.Finished? && AllClean(resolve) ==> Flatten(r.events) == r.summary.results
    ensures AllClean(resolve) ==> Flatten(r.events) <= RootsHits(req, resolve, req.dirs)
  {
    assert [] + RootsHits(req, resolve, req.dirs) == RootsHits(req, resolve, req.dirs);
    var w := Roots(req, cancel, resolve, req.dirs, Run(0, 0, [], [], 0));
    match w.exit
    case Normal => Finished(w.run.events, CoSummary(req.query, w.run.fileCount, w.run.matchCount, w.run.all))
    case Stop => Cancelled(w.run.events)
    case NullPath => Crashed(w.run.events)
  }
}

=== FILE: engine_examples.dfy ===
/**
 * The two engines on small concrete trees: the coroutine engine's unit tests
 * (an extension filter, a file with two matching lines), and the order in
 * which each engine reports the files of a tree with a subdirectory.
 */
module EngineExamples {
  import opened Optional
  import opened Checked
  import opened GrepData
  import opened Records
  import opened FileTree
  import opened Walk
  import ExtFilter
  import Text
  import Executor = ExecutorEngine
  import Coroutine = CoroutineEngine

  /** Some event of a trace whose matches are not empty carries a match. */
  lemma {:induction false} FlattenNonEmpty(events: seq<Progress>)
    requires Flatten(events) != []
    ensures exists i :: 0 <= i < |events| && events[i].newMatches != []
    decreases |events|
  {
    var last := events[|events| - 1];
    if last.newMatches == [] {
      assert Flatten(events[..|events| - 1]) != [];
      FlattenNonEmpty(events[..|events| - 1]);
      var i :| 0 <= i < |events| - 1 && events[..|events| - 1][i].newMatches != [];
      assert events[i] == events[..|events| - 1][i];
    }
  }

  function TextFile(uri: string, name: string, lines: seq<string>): Node {
    File(Doc(uri, Some(name), Some(name)), Readable(lines, false))
  }

  function OneRoot(path: string, tree: Node): string -> Option<Node> {
    u => if u == path then Some(tree) else None
  }

  lemma OneRootClean(path: string, tree: Node)
    requires Clean(tree)
    ensures AllClean(OneRoot(path, tree))
  {
  }

  /** The `txt` filter over the root `/tmp`. */
  function TxtRequest(m: string -> bool): SearchRequest {
    SearchRequest("needle", m, [WithState(true, Some("/tmp"))], [WithState(true, Some("txt"))])
  }

  /** `/tmp` holding `include.txt` and `exclude.log`, each one line `needle`. */
  function FilterTree(): Node {
    Dir(Doc("/tmp", Some("tmp"), Some("tmp")),
        [TextFile("/tmp/include.txt", "include.txt", ["needle"]),
         TextFile("/tmp/exclude.log", "exclude.log", ["needle"])])
  }

  lemma FilterTreeHits(m: string -> bool)
    requires m("needle")
    ensures Coroutine.BfsHits(TxtRequest(m), [FilterTree()]) == [Hit("/tmp/include.txt", "/tmp/include.txt", ["needle"], 0)]
  {
    var inc := TextFile("/tmp/include.txt", "include.txt", ["needle"]);
    var exc := TextFile("/tmp/exclude.log", "exclude.log", ["needle"]);
    var req := TxtRequest(m);
    ExtFilter.TxtFilterExample();
    assert Coroutine.FileHits(req, inc.doc, inc.content) == [Hit("/tmp/include.txt", "/tmp/include.txt", ["needle"], 0)];
    assert Coroutine.FileHits(req, exc.doc, exc.content) == [];
    assert Coroutine.EntryHits(req, [exc]) == [];
    assert [inc, exc][1..] == [exc];
    assert Coroutine.EntryHits(req, [inc, exc]) == [Hit("/tmp/include.txt", "/tmp/include.txt", ["needle"], 0)];
    assert Coroutine.Subdirs([inc, exc]) == [];
    assert [FilterTree()][1..] + [] == [];
  }

  /**
   * `searchHonorsExtensionFilter`: with the filter `txt`, of `include.txt` and
   * `exclude.log`, both holding a matching line, only the first is searched.
   */
  lemma ExtensionFilterTest(m: string -> bool)
    requires m("needle")
    ensures
      var r := Coroutine.Search(TxtRequest(m), Never, OneRoot("/tmp", FilterTree()));
      r.Finished? && |r.summary.results| == 1 && r.summary.results[0].source == Some("/tmp/include.txt")
  {
    FilterTreeHits(m);
    assert Coroutine.NullFree(TxtRequest(m).dirs);
  }

  /** `/tmp` holding `progress.txt`, whose first and third lines are `needle`. */
  function ProgressTree(): Node {
    Dir(Doc("/tmp", Some("tmp"), Some("tmp")),
        [TextFile("/tmp/progress.txt", "progress.txt", ["needle", "nope", "needle"])])
  }

  lemma ProgressTreeHits(m: string -> bool)
    requires m("needle") && !m("nope")
    ensures |Coroutine.BfsHits(TxtRequest(m), [ProgressTree()])| == 2
  {
    var lines := ["needle", "nope", "needle"];
    var f := TextFile("/tmp/progress.txt", "progress.txt", lines);
    var req := TxtRequest(m);
    assert ExtFilter.ShouldIncludeFile("progress.txt", Some(req.exts)) by {
      assert Text.Lower("progress.txt")[8..] == ".txt";
      assert ExtFilter.EntryAdmits(req.exts[0], Text.Lower("progress.txt"));
    }
    var h := Hits(m, f.doc.uri, f.doc.uri, lines, 0, 3);
    assert |h| == 2 by {
      assert Hits(m, f.doc.uri, f.doc.uri, lines, 2, 3) == [Hit(f.doc.uri, f.doc.uri, lines, 2)];
      assert Hits(m, f.doc.uri, f.doc.uri, lines, 1, 3) == [Hit(f.doc.uri, f.doc.uri, lines, 2)];
    }
    assert Coroutine.FileHits(req, f.doc, f.content) == h;
    assert Coroutine.EntryHits(req, [f]) == h;
    assert [ProgressTree()][1..] + [] == [];
  }

  /**
   * `searchEmitsProgress`: a file whose first and third lines match gives two
   * matches, and some progress event carries a match.
   */
  lemma EmitsProgressTest(m: string -> bool)
    requires m("needle") && !m("nope")
    ensures
      var r := Coroutine.Search(TxtRequest(m), Never, OneRoot("/tmp", ProgressTree()));
      r.Finished? && r.summary.matchesFound == 2
      && exists i :: 0 <= i < |r.events| && r.events[i].newMatches != []
  {
    ProgressTreeHits(m);
    assert Coroutine.NullFree(TxtRequest(m).dirs);
    OneRootClean("/tmp", ProgressTree());
    var r := Coroutine.Search(TxtRequest(m), Never, OneRoot("/tmp", ProgressTree()));
    FlattenNonEmpty(r.events);
  }

  /** A root holding a subdirectory (with `b.txt`) and then `a.txt`, each one matching line. */
  function Nested(): Node {
    Dir(Doc("/t", Some("t"), Some("t")), [SubDir(), TextFile("/t/a.txt", "a.txt", ["x"])])
  }

  function SubDir(): Node {
    Dir(Doc("/t/sub", Some("sub"), Some("sub")), [TextFile("/t/sub/b.txt", "b.txt", ["x"])])
  }

  function NestedRequest(m: string -> bool): SearchRequest {
    SearchRequest("x", m, [WithState(true, Some("/t"))], [])
  }

  /** The depth-first executor engine reports `b.txt` first. */
  lemma DepthFirstOrder(m: string -> bool)
    requires m("x")
    ensures
      var e := Executor.Search(NestedRequest(m), Never, OneRoot("/t", Nested()), 0);
      |e.summary.allMatches| == 2 && e.summary.allMatches[0].source == Some("/t/sub/b.txt")
  {
    NestedTreeHits(m);
    var req := NestedRequest(m);
    assert Executor.RootsHits(req, OneRoot("/t", Nested()), req.dirs) ==
      [Hit("/t/sub/b.txt", "/t/sub/b.txt", ["x"], 0), Hit("/t/a.txt", "/t/a.txt", ["x"], 0)];
  }

  /** The executor engine's depth-first order on the nested tree: the subdirectory's file first. */
  lemma NestedTreeHits(m: string -> bool)
    requires m("x")
    ensures Executor.ChildrenHits(NestedRequest(m), Nested().children, "/t") ==
      [Hit("/t/sub/b.txt", "/t/sub/b.txt", ["x"], 0), Hit("/t/a.txt", "/t/a.txt", ["x"], 0)]
  {
    var req := NestedRequest(m);
    var b := TextFile("/t/sub/b.txt", "b.txt", ["x"]);
    var a := TextFile("/t/a.txt", "a.txt", ["x"]);
    var sub := SubDir();
    var hb := Hit("/t/sub/b.txt", "/t/sub/b.txt", ["x"], 0);
    var ha := Hit("/t/a.txt", "/t/a.txt", ["x"], 0);
    assert ChildPath("/t/sub", "b.txt") == "/t/sub/b.txt";
    assert ChildPath("/t", "a.txt") == "/t/a.txt";
    assert ChildPath("/t", "sub") == "/t/sub";
    assert Executor.TreeHits(req, b, "/t/sub/b.txt") == [hb];
    assert Executor.TreeHits(req, a, "/t/a.txt") == [ha];
    assert Executor.ChildrenHits(req, [b], "/t/sub") == [hb] by {
      assert [b][1..] == [];
    }
    assert Executor.TreeHits(req, sub, "/t/sub") == [hb];
    assert Executor.ChildrenHits(req, [a], "/t") == [ha] by {
      assert [a][1..] == [];
    }
    assert [sub, a][1..] == [a];
  }

  lemma SubBfsHits(m: string -> bool)
    requires m("x")
    ensures Coroutine.BfsHits(NestedRequest(m), [SubDir()]) == [Hit("/t/sub/b.txt", "/t/sub/b.txt", ["x"], 0)]
  {
    var req := NestedRequest(m);
    var b := TextFile("/t/sub/b.txt", "b.txt", ["x"]);
    assert Coroutine.EntryHits(req, [b]) == [Hit("/t/sub/b.txt", "/t/sub/b.txt", ["x"], 0)];
    assert Coroutine.Subdirs([b]) == [];
    assert [SubDir()][1..] + [] == [];
  }

  /** The coroutine engine's breadth-first order on the nested tree: the root's file before the subdirectory's. */
  lemma NestedBfsHits(m: string -> bool)
    requires m("x")
    ensures Coroutine.BfsHits(NestedRequest(m), [Nested()]) ==
      [Hit("/t/a.txt", "/t/a.txt", ["x"], 0), Hit("/t/sub/b.txt", "/t/sub/b.txt", ["x"], 0)]
  {
    var req := NestedRequest(m);
    var a := TextFile("/t/a.txt", "a.txt", ["x"]);
    var sub := SubDir();
    var ha := Hit("/t/a.txt", "/t/a.txt", ["x"], 0);
    assert Coroutine.EntryHits(req, [a]) == [ha] by {
      assert [a][1..] == [];
    }
    assert [sub, a][1..] == [a];
    assert Coroutine.EntryHits(req, [sub, a]) == [ha];
    assert Coroutine.Subdirs([sub, a]) == [sub];
    SubBfsHits(m);
    assert [Nested()][1..] + [sub] == [sub];
  }

  /** The breadth-first coroutine engine reports `a.txt` first. */
  lemma BreadthFirstOrder(m: string -> bool)
    requires m("x")
    ensures
      var c := Coroutine.Search(NestedRequest(m), Never, OneRoot("/t", Nested()));
      c.Finished? && |c.summary.results| == 2 && c.summary.results[0].source == Some("/t/a.txt")
  {
    NestedBfsHits(m);
    assert Coroutine.NullFree(NestedRequest(m).dirs);
  }
}

=== FILE: executor_engine.dfy ===
/**
 * `ExecutorGrepEngine`: a depth-first walk of each enabled root, reading every
 * admitted file line by line, reporting matches as progress events and ending,
 * however it stops, with one summary.
 *
 * A run is a fold: `Run` threads the shared counters, the list of every match,
 * the events reported so far and how many times the cancellation flag was
 * polled. The compiled pattern is the request's line predicate; the document
 * tree behind a root URI is the `resolve` parameter.
 */
module ExecutorEngine {
  import opened Optional
  import opened Text
  import opened Checked
  import opened GrepData
  import opened Records
  import opened FileTree
  import opened ExtFilter
  import opened Walk

  // ---------------------------------------------------------------------------
  // processDocument

  /** The line loop's state: lines read so far, whether any matched, the pending batch. */
  datatype Scan = Scan(run: Run, line: nat, found: bool, batch: seq<Data>, stopped: bool)

  /** A batch is only left pending once the file matched and ten matches were counted. */
  predicate PendingOnlyAfterTen(s: Scan) {
    s.batch != [] ==> s.run.matchCount >= 10 && s.found
  }

  /**
   * The events added between two runs were each reported for file `fileNo`,
   * while fewer than ten matches were counted, with one match apiece.
   */
  predicate ReportedAlone(a: Run, b: Run, fileNo: nat)
    requires a.events <= b.events
  {
    forall i :: |a.events| <= i < |b.events| ==>
      b.events[i].filesProcessed == fileNo && b.events[i].matchesFound < 10
      && |b.events[i].newMatches| == 1
  }

  /**
   * What the line loop does between two of its states `a` and `b`: the lines
   * in between were read; each matching one was counted, recorded once, in
   * line order, and either reported or left in the batch; events reported
   * meanwhile carry one match each; without a match nothing was reported.
   */
  predicate Advances(req: SearchRequest, uri: string, path: string, lines: seq<string>, fileNo: nat, a: Scan, b: Scan) {
    a.line <= b.line <= |lines|
    && b.run.fileCount == a.run.fileCount
    && Grows(a.run, b.run)
    && b.run.all == a.run.all + Hits(req.matches, uri, path, lines, a.line, b.line)
    && (b.found <==> a.found || Hits(req.matches, uri, path, lines, a.line, b.line) != [])
    && Flatten(b.run.events) + b.batch == Flatten(a.run.events) + a.batch + Hits(req.matches, uri, path, lines, a.line, b.line)
    && ReportedAlone(a.run, b.run, fileNo)
    && (Hits(req.matches, uri, path, lines, a.line, b.line) == [] ==> b.run.events == a.run.events && b.batch == a.batch)
  }

  lemma AdvancesTransitive(req: SearchRequest, uri: string, path: string, lines: seq<string>, fileNo: nat, a: Scan, b: Scan, c: Scan)
    requires Advances(req, uri, path, lines, fileNo, a, b) && Advances(req, uri, path, lines, fileNo, b, c)
    ensures Advances(req, uri, path, lines, fileNo, a, c)
  {
    var h1 := Hits(req.matches, uri, path, lines, a.line, b.line);
    var h2 := Hits(req.matches, uri, path, lines, b.line, c.line);
    HitsSplit(req.matches, uri, path, lines, a.line, b.line, c.line);
    GrowsTransitive(a.run, b.run, c.run);
    Associative(a.run.all, h1, h2);
    Associative(Flatten(a.run.events) + a.batch, h1, h2);
  }

  /**
   * One line read: number it and test it. A match is counted and recorded;
   * while the running count is below ten it is reported at once, alone; later
   * ones wait in the batch.
   */
  function LineStep(req: SearchRequest, uri: string, path: string, lines: seq<string>, fileNo: nat, s: Scan): (n: Scan)
    requires s.line < |lines| && !s.stopped && PendingOnlyAfterTen(s)
    ensures n.line == s.line + 1 && !n.stopped && PendingOnlyAfterTen(n)
    ensures n.run.polls == s.run.polls
    ensures n.found <==> s.found || req.matches(lines[s.line])
    ensures Advances(req, uri, path, lines, fileNo, s, n)
  {
    var text := lines[s.line];
    assert Hits(req.matches, uri, path, lines, s.line + 1, s.line + 1) == [];
    if !req.matches(text) then s.(line := s.line + 1)
    else
      var d := Hit(uri, path, lines, s.line);
      var count := s.run.matchCount + 1;
      var batch := s.batch + [d];
      var run := s.run.(matchCount := count, all := s.run.all + [d]);
      if count < 10 then
        var e := Progress(req.query, fileNo, count, batch);
        FlattenSnoc(run.events, e);
        Scan(run.(events := run.events + [e]), s.line + 1, true, [], false)
      else
        Scan(run, s.line + 1, true, batch, false)
  }

  /** One more poll of the flag changes nothing else. */
  function Poll(s: Scan): (p: Scan)
    ensures p.run.polls == s.run.polls + 1 && p.line == s.line && p.found == s.found
    ensures p.batch == s.batch && p.stopped == s.stopped
    ensures p.run == s.run.(polls := s.run.polls + 1)
  {
    s.(run := s.run.(polls := s.run.polls + 1))
  }

  lemma PollAdvances(req: SearchRequest, uri: string, path: string, lines: seq<string>, fileNo: nat, a: Scan, b: Scan)
    requires Advances(req, uri, path, lines, fileNo, a, b)
    ensures Advances(req, uri, path, lines, fileNo, a, Poll(b))
  {
  }

  /**
   * The line loop: read a line, poll the flag and stop when it is set,
   * otherwise handle the line with `LineStep`; the end of the lines ends it.
   */
  function ScanLines(req: SearchRequest, cancel: Cancel, uri: string, path: string,
                     lines: seq<string>, fileNo: nat, s: Scan): (r: Scan)
    requires s.line <= |lines| && !s.stopped && PendingOnlyAfterTen(s)
    ensures PendingOnlyAfterTen(r)
    ensures Advances(req, uri, path, lines, fileNo, s, r)
    ensures r.run.polls == s.run.polls + (r.line - s.line) + (if r.stopped then 1 else 0)
    ensures !r.stopped ==> r.line == |lines|
    ensures r.stopped ==> r.line < |lines| && IsCancelled(cancel, r.run.polls - 1)
    ensures SeenLast(cancel, s.run.polls, r.run.polls, r.stopped)
    decreases |lines| - s.line
  {
    if s.line == |lines| then
      assert Hits(req.matches, uri, path, lines, s.line, s.line) == [];
      s
    else if IsCancelled(cancel, s.run.polls) then
      assert Hits(req.matches, uri, path, lines, s.line, s.line) == [];
      Poll(s).(stopped := true)
    else
      var n := LineStep(req, uri, path, lines, fileNo, s);
      PollAdvances(req, uri, path, lines, fileNo, s, n);
      var r := ScanLines(req, cancel, uri, path, lines, fileNo, Poll(n));
      AdvancesTransitive(req, uri, path, lines, fileNo, s, Poll(n), r);
      SeenLastPolled(cancel, s.run.polls, r.run.polls, r.stopped);
      r
  }

  /** A flag that no poll up to the last line's finds set lets the loop read every line. */
  lemma ScanLinesClear(req: SearchRequest, cancel: Cancel, uri: string, path: string,
                       lines: seq<string>, fileNo: nat, s: Scan)
    requires s.line <= |lines| && !s.stopped && PendingOnlyAfterTen(s)
    requires ClearBefore(cancel, s.run.polls + (|lines| - s.line))
    ensures !ScanLines(req, cancel, uri, path, lines, fileNo, s).stopped
  {
  }

  /** No event after the first `from` carries a match. */
  predicate AllEmptyAfter(events: seq<Progress>, from: nat) {
    forall i :: from <= i < |events| ==> events[i].newMatches == []
  }

  /** Every event after the first `from` carries a match. */
  predicate NoneEmptyAfter(events: seq<Progress>, from: nat) {
    forall i :: from <= i < |events| ==> events[i].newMatches != []
  }

  /** Reports the pending batch, if any. */
  function Flush(query: string, fileNo: nat, s: Scan): (r: Run)
    ensures s.batch == [] ==> r == s.run
    ensures s.batch != [] ==> r == s.run.(events := s.run.events + [Progress(query, fileNo, s.run.matchCount, s.batch)])
    ensures Flatten(r.events) == Flatten(s.run.events) + s.batch
  {
    if s.batch == [] then s.run
    else
      FlattenSnoc(s.run.events, Progress(query, fileNo, s.run.matchCount, s.batch));
      s.run.(events := s.run.events + [Progress(query, fileNo, s.run.matchCount, s.batch)])
  }

  /**
   * The end of a file's line loop: unless a read error ended it, report the
   * leftover batch, then an empty heartbeat when the file had no match and its
   * number is a multiple of ten.
   */
  function FinishFile(query: string, fileNo: nat, s: Scan, readError: bool): (r: Run)
    requires PendingOnlyAfterTen(s)
    ensures Grows(s.run, r) && r.fileCount == s.run.fileCount && r.polls == s.run.polls
    ensures r.all == s.run.all
    ensures readError ==> r == s.run
    ensures !readError ==> Flatten(r.events) == Flatten(s.run.events) + s.batch
    ensures Tail(r.events, |s.run.events|, fileNo)
    ensures !readError && !s.found && s.batch == [] ==>
      r.events == s.run.events + (if fileNo % 10 == 0 then [Progress(query, fileNo, s.run.matchCount, [])] else [])
    ensures s.found ==> NoneEmptyAfter(r.events, |s.run.events|)
  {
    if readError then s.run
    else
      var flushed := Flush(query, fileNo, s);
      if !s.found && fileNo % 10 == 0 then
        FlattenSnoc(flushed.events, Progress(query, fileNo, s.run.matchCount, []));
        flushed.(events := flushed.events + [Progress(query, fileNo, s.run.matchCount, [])])
      else flushed
  }

  /**
   * The events from index `from` on were all reported for file `fileNo`, and
   * those reporting fewer than ten matches so far carry at most one.
   */
  predicate Tail(events: seq<Progress>, from: nat, fileNo: nat) {
    forall i :: from <= i < |events| ==>
      events[i].filesProcessed == fileNo && (events[i].matchesFound < 10 ==> |events[i].newMatches| <= 1)
  }

  lemma ReportedAloneTail(a: Run, b: Run, fileNo: nat)
    requires a.events <= b.events && ReportedAlone(a, b, fileNo)
    ensures Tail(b.events, |a.events|, fileNo)
  {
  }

  lemma TailJoin(b: seq<Progress>, c: seq<Progress>, from: nat, fileNo: nat)
    requires from <= |b| && b <= c
    requires Tail(b, from, fileNo) && Tail(c, |b|, fileNo)
    ensures Tail(c, from, fileNo)
  {
    forall i | from <= i < |b|
      ensures c[i] == b[i]
    {
    }
  }

  /** A trace that was batched stays batched when its new events keep the rule. */
  lemma BatchedTail(a: seq<Progress>, b: seq<Progress>, fileNo: nat)
    requires Batched(a) && a <= b && Tail(b, |a|, fileNo)
    ensures Batched(b)
  {
    forall i | 0 <= i < |a|
      ensures b[i] == a[i]
    {
    }
  }

  /** The line loop and the file's end together report exactly the file's matches. */
  lemma FlattenConserved(st: Run, s: Scan, r: Run, h: seq<Data>)
    requires s.run.all == st.all + h
    requires Flatten(s.run.events) + s.batch == Flatten(st.events) + [] + h
    requires r.all == s.run.all && Flatten(r.events) == Flatten(s.run.events) + s.batch
    requires Flatten(st.events) == st.all
    ensures Flatten(r.events) == r.all
  {
    assert Flatten(st.events) + [] == Flatten(st.events);
  }

  /**
   * A walk from `a` to `b` whose uninterrupted run polls the flag `polls` times
   * and adds the matches `hits` and `files` files: it polled at most that often
   * and added a prefix of those matches and at most that many files; it added
   * all of both unless its last poll found the flag set.
   */
  predicate UpTo(cancel: Cancel, a: Run, b: Run, hits: seq<Data>, files: nat, polls: nat) {
    b.all <= a.all + hits && b.fileCount <= a.fileCount + files
    && a.polls <= b.polls <= a.polls + polls
    && ((b.all == a.all + hits && b.fileCount == a.fileCount + files)
        || (a.polls < b.polls && IsCancelled(cancel, b.polls - 1)))
  }

  /**
   * The line loop of a file counted from `st`, having added the matches `h1`
   * of the lines it read, as a walk of the whole file.
   */
  lemma ScanUpTo(cancel: Cancel, st: Run, r: Run, h1: seq<Data>, h2: seq<Data>, line: nat, n: nat, stopped: bool)
    requires r.all == st.all + h1 && r.fileCount == st.fileCount + 1
    requires r.polls == st.polls + line + (if stopped then 1 else 0)
    requires stopped ==> line < n && IsCancelled(cancel, r.polls - 1)
    requires !stopped ==> line == n && h2 == []
    ensures UpTo(cancel, st, r, h1 + h2, 1, n)
  {
    Associative(st.all, h1, h2);
    if !stopped {
      assert h1 + h2 == h1;
    }
  }

  /** When no poll of the uninterrupted run finds the flag set, the walk added all of it. */
  lemma UpToClear(cancel: Cancel, a: Run, b: Run, hits: seq<Data>, files: nat, polls: nat)
    requires UpTo(cancel, a, b, hits, files, polls) && ClearBefore(cancel, a.polls + polls)
    ensures b.all == a.all + hits && b.fileCount == a.fileCount + files
  {
  }

  /** A poll that finds the flag clear, before a walk, is one more poll of the whole. */
  lemma UpToPolled(cancel: Cancel, st: Run, r: Run, hits: seq<Data>, files: nat, polls: nat)
    requires UpTo(cancel, st.(polls := st.polls + 1), r, hits, files, polls)
    ensures UpTo(cancel, st, r, hits, files, 1 + polls)
  {
  }

  /**
   * A poll, one walk, then a second walk only when the first did not ask to
   * stop: a walk that stopped or was cut short ended on a poll that found the
   * flag set, after which the second added nothing, so the pair added a prefix
   * of both references.
   */
  lemma UpToJoin(cancel: Cancel, st: Run, head: Step, r: Step,
                 x: seq<Data>, fx: nat, px: nat, y: seq<Data>, fy: nat, py: nat)
    requires UpTo(cancel, st.(polls := st.polls + 1), head.run, x, fx, px)
    requires !head.ok ==> r == head && st.polls + 1 < head.run.polls && IsCancelled(cancel, head.run.polls - 1)
    requires head.ok ==> UpTo(cancel, head.run, r.run, y, fy, py)
    requires head.ok && IsCancelled(cancel, head.run.polls) ==>
      r.run.all == head.run.all && r.run.fileCount == head.run.fileCount
    ensures UpTo(cancel, st, r.run, x + y, fx + fy, 1 + px + py)
  {
    PrefixJoin(st.all, x, y, head.run.all, r.run.all);
    Associative(st.all, x, y);
  }

  /**
   * A file that opened: count it, run the line loop from line 0 with an empty
   * batch, and finish; `failsAfter` is a read error after the last line.
   */
  function ReadDocument(req: SearchRequest, cancel: Cancel, uri: string, path: string,
                        lines: seq<string>, failsAfter: bool, st: Run): (r: Run)
    ensures r.fileCount == st.fileCount + 1 && Grows(st, r) && r.polls >= st.polls
    ensures Tail(r.events, |st.events|, r.fileCount)
    ensures cancel.Never? ==> r.all == st.all + Hits(req.matches, uri, path, lines, 0, |lines|)
    ensures UpTo(cancel, st, r, Hits(req.matches, uri, path, lines, 0, |lines|), 1, |lines|)
    ensures Flatten(st.events) == st.all && !failsAfter ==> Flatten(r.events) == r.all
    ensures cancel.Never? && !failsAfter && Hits(req.matches, uri, path, lines, 0, |lines|) == [] ==>
      r.events == st.events + (if r.fileCount % 10 == 0 then [Progress(req.query, r.fileCount, r.matchCount, [])] else [])
    ensures cancel.Never? && Hits(req.matches, uri, path, lines, 0, |lines|) != [] ==>
      NoneEmptyAfter(r.events, |st.events|)
  {
    var fileNo := st.fileCount + 1;
    var s0 := Scan(st.(fileCount := fileNo), 0, false, [], false);
    var s := ScanLines(req, cancel, uri, path, lines, fileNo, s0);
    var r := FinishFile(req.query, fileNo, s, failsAfter && !s.stopped);
    ReportedAloneTail(s0.run, s.run, fileNo);
    TailJoin(s.run.events, r.events, |st.events|, fileNo);
    HitsSplit(req.matches, uri, path, lines, 0, s.line, |lines|);
    Associative(st.all, Hits(req.matches, uri, path, lines, 0, s.line), Hits(req.matches, uri, path, lines, s.line, |lines|));
    ScanUpTo(cancel, st, r, Hits(req.matches, uri, path, lines, 0, s.line), Hits(req.matches, uri, path, lines, s.line, |lines|),
             s.line, |lines|, s.stopped);
    if Flatten(st.events) == st.all && !failsAfter then
      FlattenConserved(st, s, r, Hits(req.matches, uri, path, lines, 0, s.line));
      r
    else r
  }

  /**
   * `processDocument`: poll (stop when set); skip a name the filter rejects and
   * a file that cannot be opened, uncounted; otherwise read the file. Only
   * cancellation stops the walk.
   */
  function ProcessDocument(req: SearchRequest, cancel: Cancel, doc: Doc, content: Content,
                           path: string, st: Run): (r: Step)
    requires AllValued(req.exts)
    ensures r.ok <==> !IsCancelled(cancel, st.polls)
    ensures Grows(st, r.run) && r.run.polls > st.polls
    ensures r.run.fileCount == st.fileCount +
      (if r.ok && Admits(req.exts, SafeName(doc)) && content.Readable? then 1 else 0)
    ensures !r.ok || !Admits(req.exts, SafeName(doc)) || content.Unopenable? ==> r.run == st.(polls := st.polls + 1)
    ensures Tail(r.run.events, |st.events|, r.run.fileCount)
    ensures Keeps(st, r.run)
    ensures cancel.Never? && content.Readable? && Admits(req.exts, SafeName(doc)) ==>
      r.run.all == st.all + Hits(req.matches, doc.uri, path, content.lines, 0, |content.lines|)
    ensures UpTo(cancel, st, r.run, TreeHits(req, File(doc, content), path), TreeFiles(req, File(doc, content)),
                 TreePolls(req, File(doc, content)))
    ensures !r.ok ==> st.polls < r.run.polls && IsCancelled(cancel, r.run.polls - 1)
    ensures Flatten(st.events) == st.all && !(content.Readable? && content.failsAfter) ==>
      Flatten(r.run.events) == r.run.all
  {
    var r :=
      if IsCancelled(cancel, st.polls) then Step(false, st.(polls := st.polls + 1))
      else
        var st := st.(polls := st.polls + 1);
        if !Admits(req.exts, SafeName(doc)) || content.Unopenable? then Step(true, st)
        else Step(true, ReadDocument(req, cancel, doc.uri, path, content.lines, content.failsAfter, st));
    TailKeeps(st, r.run);
    r
  }

  // ---------------------------------------------------------------------------
  // Properties a whole run keeps

  /** Growth that keeps the batching rule and the order of `filesProcessed`. */
  predicate Keeps(a: Run, b: Run) {
    Grows(a, b)
    && (Batched(a.events) ==> Batched(b.events))
    && (Ordered(a.events, a.fileCount) ==> Ordered(b.events, b.fileCount))
  }

  lemma KeepsTransitive(a: Run, b: Run, c: Run)
    requires Keeps(a, b) && Keeps(b, c)
    ensures Keeps(a, c)
  {
  }

  lemma OrderedTail(a: seq<Progress>, fa: nat, b: seq<Progress>, fb: nat)
    requires Ordered(a, fa) && a <= b && fa <= fb && Tail(b, |a|, fb)
    ensures Ordered(b, fb)
  {
    forall i | 0 <= i < |a|
      ensures b[i] == a[i]
    {
    }
  }

  /** Events added for one file keep both trace rules. */
  lemma TailKeeps(a: Run, b: Run)
    requires Grows(a, b) && Tail(b.events, |a.events|, b.fileCount)
    ensures Keeps(a, b)
  {
    if Batched(a.events) {
      BatchedTail(a.events, b.events, b.fileCount);
    }
    if Ordered(a.events, a.fileCount) {
      OrderedTail(a.events, a.fileCount, b.events, b.fileCount);
    }
  }

  // ---------------------------------------------------------------------------
  // Reference: the depth-first order of a tree's matches

  /** Whether the walk opens and reads a file, given the filter. */
  predicate Read(req: SearchRequest, doc: Doc, c: Content)
    requires AllValued(req.exts)
  {
    Admits(req.exts, SafeName(doc)) && c.Readable?
  }

  /** The matches of a node shown under `path`, in depth-first order. */
  function TreeHits(req: SearchRequest, n: Node, path: string): seq<Data>
    requires AllValued(req.exts)
    decreases Size(n), 0
  {
    match n
    case File(doc, c) =>
      if Read(req, doc, c) then Hits(req.matches, doc.uri, path, c.lines, 0, |c.lines|) else []
    case Dir(_, cs) => ChildrenHits(req, cs, path)
  }

  function ChildrenHits(req: SearchRequest, cs: seq<Node>, base: string): seq<Data>
    requires AllValued(req.exts)
    decreases SizeAll(cs), 1
  {
    if |cs| == 0 then []
    else TreeHits(req, cs[0], ChildPath(base, SafeName(cs[0].doc))) + ChildrenHits(req, cs[1..], base)
  }

  /** The number of files of a node the walk reads. */
  function TreeFiles(req: SearchRequest, n: Node): nat
    requires AllValued(req.exts)
    decreases Size(n), 0
  {
    match n
    case File(doc, c) => if Read(req, doc, c) then 1 else 0
    case Dir(_, cs) => ChildrenFiles(req, cs)
  }

  function ChildrenFiles(req: SearchRequest, cs: seq<Node>): nat
    requires AllValued(req.exts)
    decreases SizeAll(cs), 1
  {
    if |cs| == 0 then 0 else TreeFiles(req, cs[0]) + ChildrenFiles(req, cs[1..])
  }

  /**
   * How often the walk of a node polls the flag when nothing stops it: once on
   * entry, then once per line of a file it reads, or once per child before
   * walking it.
   */
  function TreePolls(req: SearchRequest, n: Node): nat
    requires AllValued(req.exts)
    decreases Size(n), 0
  {
    match n
    case File(doc, c) => 1 + (if Read(req, doc, c) then |c.lines| else 0)
    case Dir(_, cs) => 1 + ChildrenPolls(req, cs)
  }

  function ChildrenPolls(req: SearchRequest, cs: seq<Node>): nat
    requires AllValued(req.exts)
    decreases SizeAll(cs), 1
  {
    if |cs| == 0 then 0 else 1 + TreePolls(req, cs[0]) + ChildrenPolls(req, cs[1..])
  }

  // ---------------------------------------------------------------------------
  // processDocumentTree

  /**
   * `processDocumentTree`: poll (stop when set), then walk the children. A
   * listing that fails is an empty child list.
   */
  function ProcessDir(req: SearchRequest, cancel: Cancel, n: Node, base: string, st: Run): (r: Step)
    requires AllValued(req.exts) && n.Dir?
    ensures Keeps(st, r.run)
    ensures Consistent(st) && Clean(n) ==> Consistent(r.run)
    ensures cancel.Never? ==> r.ok
    ensures UpTo(cancel, st, r.run, TreeHits(req, n, base), TreeFiles(req, n), TreePolls(req, n))
    ensures !r.ok ==> st.polls < r.run.polls && IsCancelled(cancel, r.run.polls - 1)
    ensures IsCancelled(cancel, st.polls) ==> r.run.all == st.all && r.run.fileCount == st.fileCount
    decreases Size(n), 1
  {
    if IsCancelled(cancel, st.polls) then Step(false, st.(polls := st.polls + 1))
    else
      var r := ProcessChildren(req, cancel, n.children, base, st.(polls := st.polls + 1));
      UpToPolled(cancel, st, r.run, ChildrenHits(req, n.children, base), ChildrenFiles(req, n.children),
                 ChildrenPolls(req, n.children));
      r
  }

  /** One child: a directory is walked, anything else is processed as a document. */
  function ProcessChild(req: SearchRequest, cancel: Cancel, n: Node, path: string, st: Run): (r: Step)
    requires AllValued(req.exts)
    ensures Keeps(st, r.run)
    ensures Consistent(st) && Clean(n) ==> Consistent(r.run)
    ensures cancel.Never? ==> r.ok
    ensures UpTo(cancel, st, r.run, TreeHits(req, n, path), TreeFiles(req, n), TreePolls(req, n))
    ensures !r.ok ==> st.polls < r.run.polls && IsCancelled(cancel, r.run.polls - 1)
    ensures IsCancelled(cancel, st.polls) ==> r.run.all == st.all && r.run.fileCount == st.fileCount
    decreases Size(n), 2
  {
    match n
    case Dir(_, _) => ProcessDir(req, cancel, n, path, st)
    case File(doc, c) =>
      var r := ProcessDocument(req, cancel, doc, c, path, st);
      if cancel.Never? && !Read(req, doc, c) then
        assert st.all + [] == st.all;
        r
      else r
  }

  /**
   * The child loop: poll before each child (stop when set), join the child's
   * name to the base path, and stop as soon as a child asks to.
   */
  function ProcessChildren(req: SearchRequest, cancel: Cancel, cs: seq<Node>, base: string, st: Run): (r: Step)
    requires AllValued(req.exts)
    ensures Keeps(st, r.run)
    ensures Consistent(st) && CleanAll(cs) ==> Consistent(r.run)
    ensures cancel.Never? ==> r.ok
    ensures UpTo(cancel, st, r.run, ChildrenHits(req, cs, base), ChildrenFiles(req, cs), ChildrenPolls(req, cs))
    ensures !r.ok ==> st.polls < r.run.polls && IsCancelled(cancel, r.run.polls - 1)
    ensures IsCancelled(cancel, st.polls) ==> r.run.all == st.all && r.run.fileCount == st.fileCount
    decreases SizeAll(cs), 3
  {
    if |cs| == 0 then
      assert st.all + [] == st.all;
      Step(true, st)
    else if IsCancelled(cancel, st.polls) then Step(false, st.(polls := st.polls + 1))
    else
      var st1 := st.(polls := st.polls + 1);
      var path := ChildPath(base, SafeName(cs[0].doc));
      var head := ProcessChild(req, cancel, cs[0], path, st1);
      var r := if !head.ok then head else ProcessChildren(req, cancel, cs[1..], base, head.run);
      KeepsTransitive(st1, head.run, r.run);
      UpToJoin(cancel, st, head, r, TreeHits(req, cs[0], path), TreeFiles(req, cs[0]), TreePolls(req, cs[0]),
               ChildrenHits(req, cs[1..], base), ChildrenFiles(req, cs[1..]), ChildrenPolls(req, cs[1..]));
      r
  }

  // ---------------------------------------------------------------------------
  // search

  /** A root entry the search walks: enabled, with a non-empty tree URI. */
  predicate Selected(d: CheckedString) {
    d.checked && d.HasValue()
  }

  /** The directory a selected entry resolves to, if it resolves to one. */
  function RootOf(resolve: string -> Option<Node>, d: CheckedString): (r: Option<Node>)
    ensures r.Some? ==> Selected(d) && r.value.Dir? && resolve(d.value.value) == r
    ensures Selected(d) && resolve(d.value.value).Some? && resolve(d.value.value).value.Dir? ==> r.Some?
  {
    if Selected(d) && resolve(d.value.value).Some? && resolve(d.value.value).value.Dir? then resolve(d.value.value)
    else None
  }

  /** The path shown for a root: the entry's display name, else the tree's own name. */
  function RootBase(d: CheckedString, root: Node): (r: string)
    ensures d.name.Some? ==> r == d.name.value
    ensures d.name.None? && d.value.Some? ==> r == d.value.value
    ensures d.name.None? && d.value.None? ==> r == SafeName(root.doc)
  {
    d.DisplayName().GetOr(SafeName(root.doc))
  }

  /** The matches of every walked root, in entry order. */
  function RootsHits(req: SearchRequest, resolve: string -> Option<Node>, dirs: seq<CheckedString>): seq<Data>
    requires AllValued(req.exts)
  {
    if |dirs| == 0 then []
    else
      var root := RootOf(resolve, dirs[0]);
      (if root.Some? then TreeHits(req, root.value, RootBase(dirs[0], root.value)) else [])
      + RootsHits(req, resolve, dirs[1..])
  }

  function RootsFiles(req: SearchRequest, resolve: string -> Option<Node>, dirs: seq<CheckedString>): nat
    requires AllValued(req.exts)
  {
    if |dirs| == 0 then 0
    else
      var root := RootOf(resolve, dirs[0]);
      (if root.Some? then TreeFiles(req, root.value) else 0) + RootsFiles(req, resolve, dirs[1..])
  }

  /** How often the root loop polls the flag when nothing stops it. */
  function RootsPolls(req: SearchRequest, resolve: string -> Option<Node>, dirs: seq<CheckedString>): nat
    requires AllValued(req.exts)
  {
    if |dirs| == 0 then 0
    else
      var root := RootOf(resolve, dirs[0]);
      1 + (if root.Some? then TreePolls(req, root.value) else 0) + RootsPolls(req, resolve, dirs[1..])
  }

  /**
   * The root loop of `search`: poll before each entry (stop when set); walk an
   * entry only when it is selected and resolves to a directory; stop when a
   * walk was cancelled.
   */
  function SearchRoots(req: SearchRequest, cancel: Cancel, resolve: string -> Option<Node>,
                       dirs: seq<CheckedString>, st: Run): (r: Step)
    requires AllValued(req.exts)
    ensures Keeps(st, r.run)
    ensures Consistent(st) && AllClean(resolve) ==> Consistent(r.run)
    ensures cancel.Never? ==> r.ok
    ensures UpTo(cancel, st, r.run, RootsHits(req, resolve, dirs), RootsFiles(req, resolve, dirs), RootsPolls(req, resolve, dirs))
    ensures !r.ok ==> st.polls < r.run.polls && IsCancelled(cancel, r.run.polls - 1)
    ensures IsCancelled(cancel, st.polls) ==>
      r.run.all == st.all && r.run.fileCount == st.fileCount && r.run.events == st.events
  {
    if |dirs| == 0 then
      assert st.all + [] == st.all;
      Step(true, st)
    else if IsCancelled(cancel, st.polls) then Step(false, st.(polls := st.polls + 1))
    else
      var st1 := st.(polls := st.polls + 1);
      var root := RootOf(resolve, dirs[0]);
      if root.None? then
        var r := SearchRoots(req, cancel, resolve, dirs[1..], st1);
        assert [] + RootsHits(req, resolve, dirs[1..]) == RootsHits(req, resolve, dirs[1..]);
        UpToPolled(cancel, st, r.run, RootsHits(req, resolve, dirs[1..]), RootsFiles(req, resolve, dirs[1..]),
                   RootsPolls(req, resolve, dirs[1..]));
        r
      else
        var base := RootBase(dirs[0], root.value);
        var head := ProcessDir(req, cancel, root.value, base, st1);
        var r := if !head.ok then head else SearchRoots(req, cancel, resolve, dirs[1..], head.run);
        KeepsTransitive(st1, head.run, r.run);
        UpToJoin(cancel, st, head, r, TreeHits(req, root.value, base), TreeFiles(req, root.value), TreePolls(req, root.value),
                 RootsHits(req, resolve, dirs[1..]), RootsFiles(req, resolve, dirs[1..]), RootsPolls(req, resolve, dirs[1..]));
        r
  }

  /** What the engine reports through its callback: the progress events, then the summary. */
  datatype Report = Report(events: seq<Progress>, summary: Summary)

  /**
   * `search`: start from zero, walk the roots, and report one summary however
   * the walk ended, with the counters and the matches in discovery order. The
   * elapsed time is a parameter.
   */
  function Search(req: SearchRequest, cancel: Cancel, resolve: string -> Option<Node>, duration: int): (r: Report)
    requires AllValued(req.exts)
    ensures r.summary.query == req.query && r.summary.durationMillis == duration
    ensures r.summary.totalMatches == |r.summary.allMatches|
    ensures r.summary.totalFiles >= 0 && Batched(r.events) && Ordered(r.events, r.summary.totalFiles)
    ensures AllClean(resolve) ==> Flatten(r.events) == r.summary.allMatches
    ensures cancel.Never? ==>
      r.summary.allMatches == RootsHits(req, resolve, req.dirs)
      && r.summary.totalFiles == RootsFiles(req, resolve, req.dirs)
    ensures r.summary.allMatches <= RootsHits(req, resolve, req.dirs)
      && r.summary.totalFiles <= RootsFiles(req, resolve, req.dirs)
    ensures ClearBefore(cancel, RootsPolls(req, resolve, req.dirs)) ==>
      r.summary.allMatches == RootsHits(req, resolve, req.dirs)
      && r.summary.totalFiles == RootsFiles(req, resolve, req.dirs)
    ensures IsCancelled(cancel, 0) ==> r.events == [] && r.summary.allMatches == [] && r.summary.totalFiles == 0
  {
    var start := Run(0, 0, [], [], 0);
    assert start.all + RootsHits(req, resolve, req.dirs) == RootsHits(req, resolve, req.dirs);
    var walked := SearchRoots(req, cancel, resolve, req.dirs, start).run;
    Report(walked.events, NewSummary(req.query, walked.fileCount, walked.matchCount, Some(walked.all), duration))
  }
}

=== FILE: ext_filter.dfy ===
/**
 * The extension filter that decides which files a search opens, in the three
 * variants the engines use, and the media permissions the filter implies.
 *
 * An entry admits a name when it is `*` and the name has no dot, or when the
 * lower-cased name ends with `.` and the lower-cased entry.
 */
module ExtFilter {
  import opened Optional
  import opened Text
  import opened Checked

  /** The rule one entry applies to a lower-cased file name. */
  predicate EntryAdmits(e: CheckedString, lower: string)
    requires e.value.Some?
  {
    if e.value.value == "*" then '.' !in lower
    else EndsWith(lower, "." + Lower(e.value.value))
  }

  /** Some entry is enabled. */
  predicate SomeChecked(exts: seq<CheckedString>) {
    exists i :: 0 <= i < |exts| && exts[i].checked
  }

  /** Some enabled entry admits the lower-cased name. */
  predicate SomeAdmits(exts: seq<CheckedString>, lower: string)
    requires AllValued(exts)
  {
    exists i :: 0 <= i < |exts| && exts[i].checked && EntryAdmits(exts[i], lower)
  }

  /**
   * The filter both older engines state: with no enabled entry every name
   * passes; otherwise some enabled entry must admit it.
   */
  predicate Admits(exts: seq<CheckedString>, name: string)
    requires AllValued(exts)
  {
    !SomeChecked(exts) || SomeAdmits(exts, Lower(name))
  }

  /** Folding case keeps dots where they were. */
  lemma LowerKeepsDots(s: string)
    ensures '.' in Lower(s) <==> '.' in s
  {
    if '.' in s {
      var i :| 0 <= i < |s| && s[i] == '.';
      assert Lower(s)[i] == '.';
    }
  }

  /**
   * `matchesExtension` of the executor engine: a null name is rejected; the
   * entries are scanned in order, noting whether any is enabled and stopping
   * at the first enabled entry that admits the name.
   */
  method ExecutorMatchesExtension(name: Option<string>, exts: seq<CheckedString>) returns (r: bool)
    requires AllValued(exts)
    ensures name.None? ==> !r
    ensures name.Some? ==> (r <==> Admits(exts, name.value))
  {
    if name.None? {
      return false;
    }
    var lower := Lower(name.value);
    var allow := false;
    var hasEnabled := false;
    var i := 0;
    while i < |exts|
      invariant 0 <= i <= |exts|
      invariant hasEnabled <==> SomeChecked(exts[..i])
      invariant !SomeAdmits(exts[..i], lower)
      invariant !allow
    {
      if exts[i].checked {
        hasEnabled := true;
        if exts[i].value.value == "*" {
          if '.' !in lower {
            allow := true;
            assert EntryAdmits(exts[i], lower);
            break;
          }
        } else if EndsWith(lower, "." + Lower(exts[i].value.value)) {
          allow := true;
          assert EntryAdmits(exts[i], lower);
          break;
        }
      }
      assert exts[..i + 1] == exts[..i] + [exts[i]];
      i := i + 1;
    }
    if !allow {
      assert exts[..i] == exts;
    }
    r := !hasEnabled || allow;
  }

  /**
   * `GrepTask.matchesExtension` of the older activity: the same scan, written
   * here as a recursion over the remaining entries with the enabled flag seen
   * so far.
   */
  function TaskScan(exts: seq<CheckedString>, lower: string, hasEnabled: bool): (r: bool)
    requires AllValued(exts)
    ensures r <==> (!hasEnabled && !SomeChecked(exts)) || SomeAdmits(exts, lower)
  {
    if |exts| == 0 then !hasEnabled
    else if exts[0].checked && EntryAdmits(exts[0], lower) then true
    else
      var rest := TaskScan(exts[1..], lower, hasEnabled || exts[0].checked);
      assert SomeChecked(exts) <==> exts[0].checked || SomeChecked(exts[1..]) by {
        if SomeChecked(exts) {
          var i :| 0 <= i < |exts| && exts[i].checked;
          if i > 0 { assert exts[1..][i - 1] == exts[i]; }
        }
      }
      assert SomeAdmits(exts, lower) <==> SomeAdmits(exts[1..], lower) by {
        if SomeAdmits(exts, lower) {
          var i :| 0 <= i < |exts| && exts[i].checked && EntryAdmits(exts[i], lower);
          assert i > 0;
          assert exts[1..][i - 1] == exts[i];
        }
        if SomeAdmits(exts[1..], lower) {
          var i :| 0 <= i < |exts[1..]| && exts[1..][i].checked && EntryAdmits(exts[1..][i], lower);
          assert exts[i + 1] == exts[1..][i];
        }
      }
      rest
  }

  function TaskMatchesExtension(name: Option<string>, exts: seq<CheckedString>): (r: bool)
    requires AllValued(exts)
    ensures name.None? ==> !r
    ensures name.Some? ==> (r <==> Admits(exts, name.value))
  {
    name.Some? && TaskScan(exts, Lower(name.value), false)
  }

  /** The coroutine engine's scan: enabled entries only, the first that admits wins. */
  function CoroutineScan(exts: seq<CheckedString>, name: string): (r: bool)
    requires AllValued(exts)
    ensures r <==> SomeAdmits(exts, Lower(name))
  {
    if |exts| == 0 then false
    else
      var e := exts[0];
      var here := e.checked &&
        if e.value.value == "*" then '.' !in name
        else EndsWith(Lower(name), "." + Lower(e.value.value));
      LowerKeepsDots(name);
      assert here <==> e.checked && EntryAdmits(e, Lower(name));
      var rest := CoroutineScan(exts[1..], name);
      assert SomeAdmits(exts, Lower(name)) <==> here || SomeAdmits(exts[1..], Lower(name)) by {
        if SomeAdmits(exts, Lower(name)) {
          var i :| 0 <= i < |exts| && exts[i].checked && EntryAdmits(exts[i], Lower(name));
          if i > 0 { assert exts[1..][i - 1] == exts[i]; }
        }
        if SomeAdmits(exts[1..], Lower(name)) {
          var i :| 0 <= i < |exts[1..]| && exts[1..][i].checked && EntryAdmits(exts[1..][i], Lower(name));
          assert exts[i + 1] == exts[1..][i];
        }
      }
      here || rest
  }

  /**
   * `shouldIncludeFile` of the coroutine engine: a missing or empty list admits
   * everything; otherwise only an enabled entry that admits the name does.
   */
  function ShouldIncludeFile(name: string, exts: Option<seq<CheckedString>>): (r: bool)
    requires exts.Some? ==> AllValued(exts.value)
    ensures exts.None? || exts.value == [] ==> r
    ensures exts.Some? && exts.value != [] ==> (r <==> SomeAdmits(exts.value, Lower(name)))
  {
    exts.None? || |exts.value| == 0 || CoroutineScan(exts.value, name)
  }

  /**
   * Where the engines disagree: a non-empty list with every entry disabled lets
   * every file through the executor and task filters and none through the
   * coroutine filter.
   */
  lemma AllDisabledDisagree(exts: seq<CheckedString>, name: string)
    requires AllValued(exts) && exts != []
    requires forall i :: 0 <= i < |exts| ==> !exts[i].checked
    ensures Admits(exts, name)
    ensures TaskMatchesExtension(Some(name), exts)
    ensures !ShouldIncludeFile(name, Some(exts))
  {
  }

  /** When some entry is enabled, the executor and coroutine filters agree. */
  lemma FiltersAgreeWhenEnabled(exts: seq<CheckedString>, name: string)
    requires AllValued(exts) && SomeChecked(exts)
    ensures Admits(exts, name) <==> ShouldIncludeFile(name, Some(exts))
  {
  }

  /** The engine test: a `txt` filter admits `include.txt` and not `exclude.log`. */
  lemma TxtFilterExample()
    ensures ShouldIncludeFile("include.txt", Some([Enabled(Some("txt"))]))
    ensures !ShouldIncludeFile("exclude.log", Some([Enabled(Some("txt"))]))
    ensures Admits([Enabled(Some("txt"))], "include.txt")
  {
    assert EndsWith(Lower("include.txt"), ".txt") by {
      assert Lower("include.txt")[7..] == ".txt";
    }
    assert !EndsWith(Lower("exclude.log"), ".txt") by {
      assert Lower("exclude.log")[8] == 'l';
    }
  }

  // ---------------------------------------------------------------------------
  // Media permissions implied by the filter

  const ImageExtensions: set<string> := {"jpg", "jpeg", "png", "gif", "bmp", "webp", "heic", "heif"}
  const VideoExtensions: set<string> := {"mp4", "mkv", "avi", "mov", "wmv", "webm", "3gp"}
  const AudioExtensions: set<string> := {"mp3", "wav", "flac", "aac", "ogg", "m4a", "wma"}

  /** Which media read permissions a search needs. */
  datatype MediaNeeds = MediaNeeds(image: bool, video: bool, audio: bool)

  /** The lower-cased value of an enabled entry that has one. */
  predicate Considered(e: CheckedString) {
    e.checked && e.value.Some?
  }

  /** Some considered entry, lower-cased, lies in `kinds`. */
  predicate SomeIn(exts: seq<CheckedString>, kinds: set<string>) {
    exists i :: 0 <= i < |exts| && Considered(exts[i]) && Lower(exts[i].value.value) in kinds
  }

  /**
   * The need flags of `collectMediaPermissions`: disabled and null entries are
   * skipped; a `*` entry needs everything and ends the scan; otherwise each
   * lower-cased entry adds the kinds whose fixed list contains it.
   */
  function CollectMediaNeeds(exts: seq<CheckedString>): (r: MediaNeeds)
    ensures SomeIn(exts, {"*"}) ==> r == MediaNeeds(true, true, true)
    ensures !SomeIn(exts, {"*"}) ==>
      r == MediaNeeds(SomeIn(exts, ImageExtensions), SomeIn(exts, VideoExtensions), SomeIn(exts, AudioExtensions))
  {
    if |exts| == 0 then MediaNeeds(false, false, false)
    else
      var e := exts[0];
      var rest := CollectMediaNeeds(exts[1..]);
      SomeInCons(exts, {"*"});
      SomeInCons(exts, ImageExtensions);
      SomeInCons(exts, VideoExtensions);
      SomeInCons(exts, AudioExtensions);
      if !Considered(e) then rest
      else
        var lower := Lower(e.value.value);
        if lower == "*" then MediaNeeds(true, true, true)
        else
          MediaNeeds(rest.image || lower in ImageExtensions,
                     rest.video || lower in VideoExtensions,
                     rest.audio || lower in AudioExtensions)
  }

  lemma SomeInCons(exts: seq<CheckedString>, kinds: set<string>)
    requires exts != []
    ensures SomeIn(exts, kinds) <==>
      (Considered(exts[0]) && Lower(exts[0].value.value) in kinds) || SomeIn(exts[1..], kinds)
  {
    if SomeIn(exts, kinds) {
      var i :| 0 <= i < |exts| && Considered(exts[i]) && Lower(exts[i].value.value) in kinds;
      if i > 0 { assert exts[1..][i - 1] == exts[i]; }
    }
    if SomeIn(exts[1..], kinds) {
      var i :| 0 <= i < |exts[1..]| && Considered(exts[1..][i]) && Lower(exts[1..][i].value.value) in kinds;
      assert exts[i + 1] == exts[1..][i];
    }
  }

  /** An upper-case `JPG` entry needs the image permission only. */
  lemma MediaNeedsExample()
    ensures CollectMediaNeeds([Enabled(Some("JPG")), WithState(false, Some("mp3"))]) == MediaNeeds(true, false, false)
  {
    var exts := [Enabled(Some("JPG")), WithState(false, Some("mp3"))];
    assert Lower("JPG") == "jpg";
    assert "jpg" !in AudioExtensions && "jpg" !in VideoExtensions;
    SomeInCons(exts[1..], {"*"});
    SomeInCons(exts[1..], ImageExtensions);
    SomeInCons(exts[1..], VideoExtensions);
    SomeInCons(exts[1..], AudioExtensions);
    assert exts[1..][1..] == [];
  }
}

=== FILE: file_selector.dfy ===
/**
 * `FileSelectorActivity`: browsing directories by path. The list shows `..`
 * (except at `/`) and then the subdirectories, each as `name/`. A click on
 * `..` moves up a level, and a click on `name/` moves into that directory.
 * A long press on a directory returns its path.
 *
 * Listing a directory is the oracle `listing`: the entries of a path, or None
 * when it cannot be listed. In that case the screen keeps its old rows, but the
 * path has already changed.
 */
module FileSelector {
  import opened Optional
  import opened Text
  import Sorting

  const Parent := ".."

  datatype FileEntry = FileEntry(name: string, isDirectory: bool)

  /** The path shown, and the rows of the adapter (None before the first listing). */
  datatype Selector = Selector(dir: string, items: Option<seq<string>>)

  // ---------------------------------------------------------------------------
  // Paths

  /**
   * `..`: cut the path at its last `/`; a last `/` at the start (or none) is
   * kept, so `/sdcard` goes to `/` and `/` stays `/`.
   */
  function Up(dir: string): (r: string)
    ensures |r| <= |dir| && r == dir[..|r|]
    ensures '/' in dir && LastIndexOf(dir, '/') > 0 ==> r == dir[..LastIndexOf(dir, '/')]
    ensures '/' in dir && LastIndexOf(dir, '/') == 0 ==> r == "/"
    ensures '/' !in dir ==> r == ""
  {
    var k := LastIndexOf(dir, '/');
    if k <= 0 then dir[..k + 1] else dir[..k]
  }

  /** Entering the row `name/`: the name joined to the path, without the trailing `/`. */
  function Enter(dir: string, item: string): (r: string)
    requires |item| > 0 && item[|item| - 1] == '/'
    ensures dir == "/" ==> r == "/" + item[..|item| - 1]
    ensures dir != "/" ==> r == dir + "/" + item[..|item| - 1]
  {
    var joined := if dir == "/" then dir + item else dir + "/" + item;
    joined[..|joined| - 1]
  }

  /** Going up after entering a directory returns to the path it was entered from. */
  lemma UpAfterEnter(dir: string, name: string)
    requires dir != "" && '/' !in name
    ensures Up(Enter(dir, name + "/")) == dir
  {
    var e := Enter(dir, name + "/");
    assert (name + "/")[..|name|] == name;
    if dir == "/" {
      LastIndexOfAt(e, '/', 0);
    } else {
      assert e == dir + "/" + name;
      LastIndexOfAt(e, '/', |dir|);
      assert e[..|dir|] == dir;
    }
  }

  lemma UpExamples()
    ensures Up("/sdcard") == "/" && Up("/") == "/" && Up("/sdcard/Download") == "/sdcard"
  {
    LastIndexOfAt("/sdcard", '/', 0);
    LastIndexOfAt("/", '/', 0);
    LastIndexOfAt("/sdcard/Download", '/', 7);
  }

  // ---------------------------------------------------------------------------
  // Listing

  /** The `fillList` comparator: directories first, then names ignoring case. */
  function FileOrder(a: FileEntry, b: FileEntry): int {
    if a.isDirectory != b.isDirectory then (if a.isDirectory then -1 else 1)
    else CompareIgnoreCase(a.name, b.name)
  }

  lemma FileOrderAntisymmetric()
    ensures Sorting.Antisymmetric(FileOrder)
  {
    forall a: FileEntry, b: FileEntry ensures FileOrder(a, b) == -FileOrder(b, a) {
      CompareIgnoreCaseAntisymmetric(a.name, b.name);
    }
  }

  /** The names of the directories among `files`. */
  function DirectorySet(files: seq<FileEntry>): set<string> {
    set f | f in files && f.isDirectory :: f.name
  }

  /** The names of the directories among `files`, in their order. */
  function DirectoryNames(files: seq<FileEntry>): (r: seq<string>)
    ensures forall x :: x in r <==> x in DirectorySet(files)
  {
    if |files| == 0 then []
    else
      var rest := DirectoryNames(files[1..]);
      assert files == [files[0]] + files[1..];
      assert DirectorySet(files) == (if files[0].isDirectory then {files[0].name} else {}) + DirectorySet(files[1..]);
      if files[0].isDirectory then [files[0].name] + rest else rest
  }

  /** Past the first file of a sorted listing there are no directories. */
  lemma {:induction false} NoDirectoryAfterFile(s: seq<FileEntry>)
    requires Sorting.SortedBy(FileOrder, s) && |s| > 0 && !s[0].isDirectory
    ensures DirectoryNames(s) == []
    decreases |s|
  {
    if |s| > 1 {
      assert FileOrder(s[0], s[1]) <= 0;
      NoDirectoryAfterFile(s[1..]);
    }
  }

  /** In a sorted listing the directory names are in order, ignoring case. */
  lemma {:induction false} DirectoryNamesSorted(s: seq<FileEntry>)
    requires Sorting.SortedBy(FileOrder, s)
    ensures Sorting.SortedBy(CompareIgnoreCase, DirectoryNames(s))
    decreases |s|
  {
    if |s| > 0 {
      DirectoryNamesSorted(s[1..]);
      var rest := DirectoryNames(s[1..]);
      if s[0].isDirectory && |rest| > 0 {
        if !s[1].isDirectory {
          NoDirectoryAfterFile(s[1..]);
        } else {
          assert rest[0] == s[1].name;
          assert FileOrder(s[0], s[1]) <= 0;
        }
      }
    }
  }

  /** Entries tie exactly when both are directories or both files, with names equal ignoring case. */
  lemma FileOrderTiesTransitive()
    ensures Sorting.TiesTransitive(FileOrder)
  {
    forall a: FileEntry, b: FileEntry, c: FileEntry | FileOrder(a, b) == 0 && FileOrder(a, c) == 0
      ensures FileOrder(b, c) == 0
    {
      CompareIgnoreCaseTies(a.name, b.name, c.name);
    }
  }

  lemma NameOrderAntisymmetric()
    ensures Sorting.Antisymmetric(CompareIgnoreCase)
  {
    forall a: string, b: string ensures CompareIgnoreCase(a, b) == -CompareIgnoreCase(b, a) {
      CompareIgnoreCaseAntisymmetric(a, b);
    }
  }

  /**
   * The directories tied in `FileOrder` with a directory named `x` are the
   * directories whose names equal `x` ignoring case, in listing order.
   */
  lemma {:induction false} DirectoryNamesTies(x: string, s: seq<FileEntry>)
    ensures DirectoryNames(Sorting.Ties(FileOrder, FileEntry(x, true), s)) == Sorting.Ties(CompareIgnoreCase, x, DirectoryNames(s))
    decreases |s|
  {
    if |s| > 0 {
      var e := FileEntry(x, true);
      DirectoryNamesTies(x, s[1..]);
      var tied := Sorting.Ties(FileOrder, e, s[1..]);
      var names := DirectoryNames(s[1..]);
      assert DirectoryNames(s) == (if s[0].isDirectory then [s[0].name] else []) + names;
      Sorting.TiesCons(CompareIgnoreCase, x, s[0].name, names);
      assert s == [s[0]] + s[1..];
      Sorting.TiesCons(FileOrder, e, s[0], s[1..]);
      assert s[0].isDirectory ==> FileOrder(e, s[0]) == CompareIgnoreCase(x, s[0].name);
      if FileOrder(e, s[0]) == 0 {
        assert s[0].isDirectory && CompareIgnoreCase(x, s[0].name) == 0;
        assert Sorting.Ties(FileOrder, e, s) == [s[0]] + tied;
        assert ([s[0]] + tied)[1..] == tied;
        assert DirectoryNames([s[0]] + tied) == [s[0].name] + DirectoryNames(tied);
        assert Sorting.Ties(CompareIgnoreCase, x, DirectoryNames(s)) == [s[0].name] + Sorting.Ties(CompareIgnoreCase, x, names);
      } else {
        assert Sorting.Ties(FileOrder, e, s) == tied;
        if s[0].isDirectory {
          assert CompareIgnoreCase(x, s[0].name) != 0;
          assert Sorting.Ties(CompareIgnoreCase, x, DirectoryNames(s)) == Sorting.Ties(CompareIgnoreCase, x, names);
        } else {
          assert DirectoryNames(s) == names;
        }
      }
    }
  }

  /**
   * The directories `fillList` shows, in the order it shows them: one row per
   * directory among `files`, by name ignoring case, and directories whose
   * names are equal ignoring case in listing order, as `Arrays.sort` is stable.
   */
  function ShownDirectories(files: seq<FileEntry>): (r: seq<string>)
    ensures forall x :: x in r <==> x in DirectorySet(files)
    ensures multiset(r) == multiset(DirectoryNames(files))
    ensures Sorting.SortedBy(CompareIgnoreCase, r)
    ensures Sorting.Stable(CompareIgnoreCase, DirectoryNames(files), r)
  {
    FileOrderAntisymmetric();
    FileOrderTiesTransitive();
    var sorted := Sorting.SortBy(FileOrder, files);
    DirectoryNamesSorted(sorted);
    assert forall f :: f in sorted <==> f in files by {
      forall f ensures f in sorted <==> f in files {
        assert f in sorted <==> f in multiset(sorted);
      }
    }
    assert DirectorySet(sorted) == DirectorySet(files);
    ShownStable(files, sorted);
    DirectoryNames(sorted)
  }

  /** Sorting the listing stably keeps each class of same-named directories in listing order. */
  lemma ShownStable(files: seq<FileEntry>, sorted: seq<FileEntry>)
    requires Sorting.Stable(FileOrder, files, sorted)
    ensures Sorting.Stable(CompareIgnoreCase, DirectoryNames(files), DirectoryNames(sorted))
    ensures multiset(DirectoryNames(sorted)) == multiset(DirectoryNames(files))
  {
    forall x ensures Sorting.Ties(CompareIgnoreCase, x, DirectoryNames(sorted)) == Sorting.Ties(CompareIgnoreCase, x, DirectoryNames(files)) {
      DirectoryNamesTies(x, sorted);
      DirectoryNamesTies(x, files);
      assert Sorting.Ties(FileOrder, FileEntry(x, true), sorted) == Sorting.Ties(FileOrder, FileEntry(x, true), files);
    }
    NameOrderAntisymmetric();
    Sorting.StablePermutation(CompareIgnoreCase, DirectoryNames(files), DirectoryNames(sorted));
  }

  /** Every row of a listing is `..` or a name ending in `/`. */
  predicate Rows(items: seq<string>) {
    forall i :: 0 <= i < |items| ==> items[i] == Parent || (|items[i]| > 0 && items[i][|items[i]| - 1] == '/')
  }

  /** Each name followed by `/`. */
  function Slashed(names: seq<string>): (r: seq<string>)
    ensures |r| == |names|
    ensures forall i :: 0 <= i < |r| ==> r[i] == names[i] + "/"
  {
    seq(|names|, i requires 0 <= i < |names| => names[i] + "/")
  }

  lemma SlashedRows(names: seq<string>)
    ensures Rows(Slashed(names))
    ensures Parent !in Slashed(names)
  {
    var r := Slashed(names);
    forall i | 0 <= i < |r| ensures |r[i]| > 0 && r[i][|r[i]| - 1] == '/' && r[i] != Parent {
      assert r[i] == names[i] + "/";
      assert Parent[|Parent| - 1] == '.';
    }
  }

  /**
   * `fillList`: `..` unless at `/`, then a `name/` row per shown directory;
   * files are not shown.
   */
  function Listing(dir: string, files: seq<FileEntry>): (r: seq<string>)
    ensures Rows(r)
    ensures (|r| > 0 && r[0] == Parent) <==> dir != "/"
    ensures r == (if dir != "/" then [Parent] else []) + Slashed(ShownDirectories(files))
  {
    var rows := Slashed(ShownDirectories(files));
    SlashedRows(ShownDirectories(files));
    (if dir != "/" then [Parent] else []) + rows
  }

  // ---------------------------------------------------------------------------
  // Clicks

  /** `getItemAt`: the row at `position`, None without an adapter or out of range. */
  function ItemAt(items: Option<seq<string>>, position: int): (r: Option<string>)
    ensures r.Some? <==> items.Some? && 0 <= position < |items.value|
    ensures r.Some? ==> r.value == items.value[position]
  {
    if items.None? || position < 0 || position >= |items.value| then None else Some(items.value[position])
  }

  /** `fillList` at the new path: new rows, or the old ones when the path cannot be listed. */
  function Fill(dir: string, shown: Option<seq<string>>, listing: string -> Option<seq<FileEntry>>): (s: Selector)
    ensures s.dir == dir
    ensures listing(dir).None? ==> s.items == shown
    ensures listing(dir).Some? ==> s.items == Some(Listing(dir, listing(dir).value))
  {
    match listing(dir)
    case None => Selector(dir, shown)
    case Some(files) => Selector(dir, Some(Listing(dir, files)))
  }

  predicate Valid(s: Selector) {
    s.items.Some? ==> Rows(s.items.value)
  }

  /**
   * `handleItemClick`: no row does nothing; `..` goes up; `name/` goes in; the
   * new path is then listed.
   */
  function Click(s: Selector, position: int, listing: string -> Option<seq<FileEntry>>): (r: Selector)
    requires Valid(s)
    ensures Valid(r)
    ensures ItemAt(s.items, position).None? ==> r == s
    ensures ItemAt(s.items, position) == Some(Parent) ==> r.dir == Up(s.dir)
    ensures ItemAt(s.items, position).Some? && ItemAt(s.items, position) != Some(Parent) ==>
      r.dir == Enter(s.dir, ItemAt(s.items, position).value)
  {
    match ItemAt(s.items, position)
    case None => s
    case Some(item) =>
      if item == Parent then Fill(Up(s.dir), s.items, listing)
      else Fill(Enter(s.dir, item), s.items, listing)
  }

  /** What a long press did: moved up, or chose a directory and closed. */
  datatype Press = Ignored | Moved(s: Selector) | Chosen(name: string, path: string)

  /**
   * The long-click handler: `..` goes up as a click does; any other row is
   * chosen, and the path returned is the row joined to the current path, so it
   * keeps the row's trailing `/`.
   */
  function LongPress(s: Selector, position: int, listing: string -> Option<seq<FileEntry>>): (r: Press)
    requires Valid(s)
    ensures r.Ignored? <==> ItemAt(s.items, position).None?
    ensures r.Moved? <==> ItemAt(s.items, position) == Some(Parent)
    ensures r.Moved? ==> r.s == Click(s, position, listing) && r.s.dir == Up(s.dir)
    ensures r.Chosen? ==> r.name == ItemAt(s.items, position).value
    ensures r.Chosen? ==> r.path == s.dir + "/" + r.name && r.path[|r.path| - 1] == '/'
  {
    match ItemAt(s.items, position)
    case None => Ignored
    case Some(item) =>
      if item == Parent then Moved(Fill(Up(s.dir), s.items, listing))
      else Chosen(item, s.dir + "/" + item)
  }
}

=== FILE: file_tree.dfy ===
/**
 * The storage an engine walks, and the cancellation flag it polls.
 *
 * A document has a URI, a name and a last path segment (either may be
 * missing). A file is either unopenable (opening or encoding detection fails)
 * or a sequence of lines, possibly followed by a read error. A directory whose
 * listing fails is the same as an empty one to every engine.
 */
module FileTree {
  import opened Optional

  datatype Doc = Doc(uri: string, name: Option<string>, lastSegment: Option<string>)

  datatype Content =
    | Unopenable
    | Readable(lines: seq<string>, failsAfter: bool)

  datatype Node =
    | Dir(doc: Doc, children: seq<Node>)
    | File(doc: Doc, content: Content)

  /** `safeName`: the document name, else the URI's last path segment, else "". */
  function SafeName(d: Doc): (r: string)
    ensures d.name.Some? ==> r == d.name.value
    ensures d.name.None? && d.lastSegment.Some? ==> r == d.lastSegment.value
    ensures d.name.None? && d.lastSegment.None? ==> r == ""
  {
    d.name.GetOr(d.lastSegment.GetOr(""))
  }

  /** The path shown for a child: `base/name`, or just the name under an empty base. */
  function ChildPath(base: string, name: string): (r: string)
    ensures |base| > 0 ==> r == base + "/" + name
    ensures |base| == 0 ==> r == name
  {
    if |base| > 0 then base + "/" + name else name
  }

  /** The number of nodes in a tree. */
  function Size(n: Node): (r: nat)
    ensures r >= 1
  {
    match n
    case File(_, _) => 1
    case Dir(_, cs) => 1 + SizeAll(cs)
  }

  function SizeAll(ns: seq<Node>): nat {
    if |ns| == 0 then 0 else Size(ns[0]) + SizeAll(ns[1..])
  }

  lemma SizeAllAppend(a: seq<Node>, b: seq<Node>)
    ensures SizeAll(a + b) == SizeAll(a) + SizeAll(b)
  {
    if |a| > 0 {
      assert (a + b)[1..] == a[1..] + b;
      SizeAllAppend(a[1..], b);
    } else {
      assert a + b == b;
    }
  }

  /**
   * The cancellation flag as an oracle: never set, or set after the given
   * number of polls. Once set it stays set, as the source's flags do.
   */
  datatype Cancel = Never | AfterPolls(n: nat)

  predicate IsCancelled(c: Cancel, polls: nat) {
    c.AfterPolls? && polls >= c.n
  }

  /** Every poll made before the count reached `p` found the flag clear. */
  predicate ClearBefore(c: Cancel, p: nat) {
    p == 0 || !IsCancelled(c, p - 1)
  }

  /**
   * Of the polls numbered from `from` up to `to` (exclusive), all but the last
   * found the flag clear, and the last found it set exactly when the loop
   * `stopped`.
   */
  predicate SeenLast(c: Cancel, from: nat, to: nat, stopped: bool) {
    (to > from ==> (stopped <==> IsCancelled(c, to - 1)))
    && (to > from + 1 ==> !IsCancelled(c, to - 2))
  }

  /** A poll that found the flag clear, before polls that keep the rule, keeps it. */
  lemma SeenLastPolled(c: Cancel, from: nat, to: nat, stopped: bool)
    requires !IsCancelled(c, from) && from < to && SeenLast(c, from + 1, to, stopped)
    requires to == from + 1 ==> !stopped
    ensures SeenLast(c, from, to, stopped)
  {
  }

  lemma CancelIsSticky(c: Cancel, polls: nat, later: nat)
    requires polls <= later && IsCancelled(c, polls)
    ensures IsCancelled(c, later)
  {
  }
}

=== FILE: grep_data.dfy ===
/**
 * One result row of a search (`GrepView.Data`): the file it came from, the
 * display path, the 1-based line number and the line's text; and the
 * comparator that orders the final result list.
 */
module GrepData {
  import opened Optional
  import opened Text
  import Sorting

  /** A matching line. Every field may be null in the source. */
  datatype Data = Data(source: Option<string>, displayName: Option<string>, line: int, text: Option<string>)

  /** The no-argument constructor, used only as a comparator instance. */
  function Blank(): (d: Data)
    ensures d.source.None? && d.displayName.None? && d.text.None?
    ensures d.line == 0
  {
    Data(None, None, 0, None)
  }

  /** The display name with null read as "". */
  function NameOrEmpty(d: Data): string {
    d.displayName.GetOr("")
  }

  /**
   * `Data.compare`: display names compared ignoring case (null as ""), then
   * line numbers by difference.
   */
  function Compare(a: Data, b: Data): int {
    var byName := CompareIgnoreCase(NameOrEmpty(a), NameOrEmpty(b));
    if byName != 0 then byName else a.line - b.line
  }

  /** Swapping the operands negates the comparison, so it is a valid sort key. */
  lemma CompareAntisymmetric(a: Data, b: Data)
    ensures Compare(b, a) == -Compare(a, b)
  {
    CompareIgnoreCaseAntisymmetric(NameOrEmpty(a), NameOrEmpty(b));
  }

  lemma CompareIsAntisymmetric()
    ensures Sorting.Antisymmetric(Compare)
  {
    forall a: Data, b: Data
      ensures Compare(a, b) == -Compare(b, a)
    {
      CompareAntisymmetric(b, a);
    }
  }

  /** Every row compares equal to itself. */
  lemma CompareReflexive(a: Data)
    ensures Compare(a, a) == 0
  {
    CompareAntisymmetric(a, a);
  }

  /**
   * The order is: names ignoring case first; among equal names, line numbers.
   */
  lemma CompareMeaning(a: Data, b: Data)
    ensures Compare(a, b) < 0 <==>
      CompareIgnoreCase(NameOrEmpty(a), NameOrEmpty(b)) < 0
      || (EqualsIgnoreCase(NameOrEmpty(a), NameOrEmpty(b)) && a.line < b.line)
  {
    CompareIgnoreCaseZero(NameOrEmpty(a), NameOrEmpty(b));
  }

  /** The comparator is transitive, so sorted order is a total preorder. */
  lemma CompareTransitive(a: Data, b: Data, c: Data)
    requires Compare(a, b) <= 0 && Compare(b, c) <= 0
    ensures Compare(a, c) <= 0
  {
    var na, nb, nc := NameOrEmpty(a), NameOrEmpty(b), NameOrEmpty(c);
    CompareIgnoreCaseTransitive(na, nb, nc);
    CompareIgnoreCaseZero(na, nb);
    CompareIgnoreCaseZero(nb, nc);
    CompareIgnoreCaseZero(na, nc);
    CompareIgnoreCaseAntisymmetric(na, nb);
    CompareIgnoreCaseAntisymmetric(nb, nc);
    if CompareIgnoreCase(na, nc) == 0 {
      // a ~ c by name: then a ~ b ~ c by name, since b lies between them.
      CompareIgnoreCaseAntisymmetric(na, nc);
      CompareIgnoreCaseTransitive(nb, nc, na);
      CompareIgnoreCaseTransitive(nc, na, nb);
    }
  }

  /** Rows tie exactly when their names are equal ignoring case and their lines are equal, an equivalence. */
  lemma CompareTiesTransitive()
    ensures Sorting.TiesTransitive(Compare)
  {
    forall a: Data, b: Data, c: Data | Compare(a, b) == 0 && Compare(a, c) == 0
      ensures Compare(b, c) == 0
    {
      CompareIgnoreCaseTies(NameOrEmpty(a), NameOrEmpty(b), NameOrEmpty(c));
    }
  }

  /**
   * `Collections.sort(list, new GrepView.Data())`: the rows in comparator
   * order, rows that tie (same name ignoring case, same line) kept in the
   * order they were found.
   */
  function SortResults(rows: seq<Data>): (r: seq<Data>)
    ensures multiset(r) == multiset(rows)
    ensures Sorting.SortedBy(Compare, r)
    ensures Sorting.Stable(Compare, rows, r)
  {
    CompareIsAntisymmetric();
    CompareTiesTransitive();
    Sorting.SortBy(Compare, rows)
  }

  /**
   * The label of a result row: the display name (null shown as ""), then the
   * line number in parentheses, which reads back as the row's line.
   */
  function RowLabel(d: Data): (r: string)
    ensures |r| >= |NameOrEmpty(d)| + 3
    ensures r[..|NameOrEmpty(d)|] == NameOrEmpty(d)
    ensures r[|NameOrEmpty(d)|] == '(' && r[|r| - 1] == ')'
    ensures IntMin <= d.line <= IntMax ==> ParseInt(r[|NameOrEmpty(d)| + 1..|r| - 1]) == Some(d.line)
  {
    var name, digits := NameOrEmpty(d), IntToString(d.line);
    var r := name + "(" + digits + ")";
    assert r[|name| + 1..|r| - 1] == digits;
    if IntMin <= d.line <= IntMax then ParseIntOfIntToString(d.line); r else r
  }


  lemma RowLabelExamples()
    ensures RowLabel(Data(None, Some("docs/a.txt"), 12, Some("x"))) == "docs/a.txt(12)"
    ensures RowLabel(Data(None, None, 3, None)) == "(3)"
  {
    assert IntToString(12) == "12" by {
      assert NatToString(12) == NatToString(1) + [DigitChar(2)];
    }
  }
}

=== FILE: grep_task.dfy ===
/**
 * `GrepTask` of the older search activity: the same depth-first walk, filter,
 * display paths, batching rule and heartbeat as the executor engine, with two
 * differences. Inside a file the cancellation flag is consulted only right
 * after a matching line (and a file left that way is still finished), and a
 * null document ends the whole walk.
 *
 * What the task publishes is modelled with the executor's events: each carries
 * the records published together, and the counters the progress message shows
 * at that moment.
 */
module GrepTask {
  import opened Optional
  import opened Checked
  import opened GrepData
  import opened Records
  import opened FileTree
  import opened ExtFilter
  import opened Walk
  import opened ExecutorEngine

  /**
   * One line of `grepDocument`: read and test it; after a match, poll the flag
   * and stop when it is set. A line without a match never looks at the flag.
   */
  function TaskStep(req: SearchRequest, cancel: Cancel, uri: string, path: string,
                    lines: seq<string>, fileNo: nat, s: Scan): (n: Scan)
    requires s.line < |lines| && !s.stopped && PendingOnlyAfterTen(s)
    ensures Advances(req, uri, path, lines, fileNo, s, n)
    ensures n.line == s.line + 1 && PendingOnlyAfterTen(n)
    ensures n.stopped <==> req.matches(lines[s.line]) && IsCancelled(cancel, s.run.polls)
    ensures n.run.polls == s.run.polls + (if req.matches(lines[s.line]) then 1 else 0)
    ensures n.run.polls == s.run.polls + |Hits(req.matches, uri, path, lines, s.line, n.line)|
  {
    var n := LineStep(req, uri, path, lines, fileNo, s);
    assert Hits(req.matches, uri, path, lines, s.line + 1, s.line + 1) == [];
    if !req.matches(lines[s.line]) then n
    else
      PollAdvances(req, uri, path, lines, fileNo, s, n);
      if IsCancelled(cancel, n.run.polls) then Poll(n).(stopped := true) else Poll(n)
  }

  /** The line loop of `grepDocument`: `TaskStep` until the lines run out or it stops. */
  function ScanLines(req: SearchRequest, cancel: Cancel, uri: string, path: string,
                     lines: seq<string>, fileNo: nat, s: Scan): (r: Scan)
    requires s.line <= |lines| && !s.stopped && PendingOnlyAfterTen(s)
    ensures PendingOnlyAfterTen(r) && s.line <= r.line <= |lines|
    ensures !r.stopped ==> r.line == |lines|
    ensures r.stopped ==> s.line < r.line && req.matches(lines[r.line - 1])
    ensures s.run.polls <= r.run.polls && (r.stopped ==> s.run.polls < r.run.polls)
    ensures SeenLast(cancel, s.run.polls, r.run.polls, r.stopped)
    decreases |lines| - s.line
  {
    if s.line == |lines| then s
    else
      var n := TaskStep(req, cancel, uri, path, lines, fileNo, s);
      if n.stopped then n
      else
        var r := ScanLines(req, cancel, uri, path, lines, fileNo, n);
        if n.run.polls == s.run.polls then r
        else
          SeenLastPolled(cancel, s.run.polls, r.run.polls, r.stopped);
          r
  }

  /**
   * The line loop records, batches and reports exactly the matches of the
   * lines it read, and polls once per match.
   */
  lemma {:induction false} ScanLinesAdvances(req: SearchRequest, cancel: Cancel, uri: string, path: string,
                                             lines: seq<string>, fileNo: nat, s: Scan)
    requires s.line <= |lines| && !s.stopped && PendingOnlyAfterTen(s)
    ensures var r := ScanLines(req, cancel, uri, path, lines, fileNo, s);
      Advances(req, uri, path, lines, fileNo, s, r)
      && r.run.polls == s.run.polls + |Hits(req.matches, uri, path, lines, s.line, r.line)|
    decreases |lines| - s.line
  {
    if s.line == |lines| {
      assert Hits(req.matches, uri, path, lines, s.line, s.line) == [];
    } else {
      var n := TaskStep(req, cancel, uri, path, lines, fileNo, s);
      if !n.stopped {
        ScanLinesAdvances(req, cancel, uri, path, lines, fileNo, n);
        ScanJoin(req, uri, path, lines, fileNo, s, n, ScanLines(req, cancel, uri, path, lines, fileNo, n));
      }
    }
  }

  /** Two stretches of the line loop make one, polling once per match of either. */
  lemma ScanJoin(req: SearchRequest, uri: string, path: string, lines: seq<string>, fileNo: nat, s: Scan, n: Scan, r: Scan)
    requires Advances(req, uri, path, lines, fileNo, s, n) && Advances(req, uri, path, lines, fileNo, n, r)
    requires n.run.polls == s.run.polls + |Hits(req.matches, uri, path, lines, s.line, n.line)|
    requires r.run.polls == n.run.polls + |Hits(req.matches, uri, path, lines, n.line, r.line)|
    ensures Advances(req, uri, path, lines, fileNo, s, r)
    ensures r.run.polls == s.run.polls + |Hits(req.matches, uri, path, lines, s.line, r.line)|
  {
    AdvancesTransitive(req, uri, path, lines, fileNo, s, n, r);
    HitsSplit(req.matches, uri, path, lines, s.line, n.line, r.line);
  }

  /**
   * A file that opened: count it, run the line loop from line 0 with an empty
   * batch, and finish; `failsAfter` is a read error after the last line.
   */
  function TaskReadFile(req: SearchRequest, cancel: Cancel, uri: string, path: string,
                        lines: seq<string>, failsAfter: bool, st: Run): (r: Run)
    ensures r.fileCount == st.fileCount + 1 && Grows(st, r) && r.polls >= st.polls
    ensures Tail(r.events, |st.events|, r.fileCount)
    ensures cancel.Never? ==> r.all == st.all + Hits(req.matches, uri, path, lines, 0, |lines|)
    ensures Consistent(st) && !failsAfter ==> Consistent(r)
  {
    var fileNo := st.fileCount + 1;
    var s0 := Scan(st.(fileCount := fileNo), 0, false, [], false);
    var s := ScanLines(req, cancel, uri, path, lines, fileNo, s0);
    ScanLinesAdvances(req, cancel, uri, path, lines, fileNo, s0);
    var r := FinishFile(req.query, fileNo, s, failsAfter && !s.stopped);
    ReportedAloneTail(s0.run, s.run, fileNo);
    TailJoin(s.run.events, r.events, |st.events|, fileNo);
    if Consistent(st) && !failsAfter then
      FlattenConserved(st, s, r, Hits(req.matches, uri, path, lines, 0, s.line));
      r
    else r
  }

  /**
   * `grepDocument`: poll (stop when set); a null document stops the walk; a
   * name the filter rejects and a file that cannot be opened are passed over
   * uncounted; otherwise the file is counted, its lines scanned, and the
   * leftover batch and heartbeat sent unless a read error ended the lines.
   */
  function GrepDocument(req: SearchRequest, cancel: Cancel, doc: Option<Doc>, content: Content,
                        path: string, st: Run): (r: Step)
    requires AllValued(req.exts)
    ensures r.ok <==> !IsCancelled(cancel, st.polls) && doc.Some?
    ensures Keeps(st, r.run) && r.run.polls > st.polls
    ensures r.run.fileCount == st.fileCount +
      (if r.ok && Read(req, doc.value, content) then 1 else 0)
    ensures !r.ok || !Read(req, doc.value, content) ==> r.run == st.(polls := st.polls + 1)
    ensures Tail(r.run.events, |st.events|, r.run.fileCount)
    ensures cancel.Never? && doc.Some? ==>
      r.run.all == st.all + TreeHits(req, File(doc.value, content), path)
    ensures Consistent(st) && r.ok && Clean(File(doc.value, content)) ==> Consistent(r.run)
  {
    if IsCancelled(cancel, st.polls) then Step(false, st.(polls := st.polls + 1))
    else if doc.None? then Step(false, st.(polls := st.polls + 1))
    else
      var st1 := st.(polls := st.polls + 1);
      if !TaskMatchesExtension(Some(SafeName(doc.value)), req.exts) || content.Unopenable? then
        assert st.all + [] == st.all;
        Step(true, st1)
      else
        var r := TaskReadFile(req, cancel, doc.value.uri, path, content.lines, content.failsAfter, st1);
        TailKeeps(st, r);
        Step(true, r)
  }

  /** `grepDocumentTree`: poll (stop when set), then walk the children. */
  function GrepDocumentTree(req: SearchRequest, cancel: Cancel, n: Node, base: string, st: Run): (r: Step)
    requires AllValued(req.exts) && n.Dir?
    ensures Keeps(st, r.run)
    ensures Consistent(st) && Clean(n) ==> Consistent(r.run)
    ensures cancel.Never? ==>
      r.ok && r.run.all == st.all + TreeHits(req, n, base)
      && r.run.fileCount == st.fileCount + TreeFiles(req, n)
    ensures !r.ok ==> cancel.AfterPolls?
    decreases Size(n), 1
  {
    if IsCancelled(cancel, st.polls) then Step(false, st.(polls := st.polls + 1))
    else GrepChildren(req, cancel, n.children, base, st.(polls := st.polls + 1))
  }

  /** One child: a directory is walked, anything else is grepped as a document. */
  function GrepChild(req: SearchRequest, cancel: Cancel, n: Node, path: string, st: Run): (r: Step)
    requires AllValued(req.exts)
    ensures Keeps(st, r.run)
    ensures Consistent(st) && Clean(n) ==> Consistent(r.run)
    ensures cancel.Never? ==>
      r.ok && r.run.all == st.all + TreeHits(req, n, path)
      && r.run.fileCount == st.fileCount + TreeFiles(req, n)
    ensures !r.ok ==> cancel.AfterPolls?
    decreases Size(n), 2
  {
    match n
    case Dir(_, _) => GrepDocumentTree(req, cancel, n, path, st)
    case File(doc, c) => GrepDocument(req, cancel, Some(doc), c, path, st)
  }

  /** The child loop: poll before each child, join its name to the base, stop when asked. */
  function GrepChildren(req: SearchRequest, cancel: Cancel, cs: seq<Node>, base: string, st: Run): (r: Step)
    requires AllValued(req.exts)
    ensures Keeps(st, r.run)
    ensures Consistent(st) && CleanAll(cs) ==> Consistent(r.run)
    ensures cancel.Never? ==>
      r.ok && r.run.all == st.all + ChildrenHits(req, cs, base)
      && r.run.fileCount == st.fileCount + ChildrenFiles(req, cs)
    ensures !r.ok ==> cancel.AfterPolls?
    decreases SizeAll(cs), 3
  {
    if |cs| == 0 then
      assert st.all + [] == st.all;
      Step(true, st)
    else if IsCancelled(cancel, st.polls) then Step(false, st.(polls := st.polls + 1))
    else
      var st1 := st.(polls := st.polls + 1);
      var head := GrepChild(req, cancel, cs[0], ChildPath(base, SafeName(cs[0].doc)), st1);
      if !head.ok then head
      else
        var r := GrepChildren(req, cancel, cs[1..], base, head.run);
        KeepsTransitive(st1, head.run, r.run);
        if cancel.Never? then
          Associative(st.all, TreeHits(req, cs[0], ChildPath(base, SafeName(cs[0].doc))), ChildrenHits(req, cs[1..], base));
          r
        else r
  }

  /**
   * `grepRoot`: poll before each entry (stop when set); walk an entry that is
   * selected and resolves to a directory, under its display name; stop when a
   * walk stopped.
   */
  function GrepRoot(req: SearchRequest, cancel: Cancel, resolve: string -> Option<Node>,
                    dirs: seq<CheckedString>, st: Run): (r: Step)
    requires AllValued(req.exts)
    ensures Keeps(st, r.run)
    ensures Consistent(st) && AllClean(resolve) ==> Consistent(r.run)
    ensures cancel.Never? ==>
      r.ok && r.run.all == st.all + RootsHits(req, resolve, dirs)
      && r.run.fileCount == st.fileCount + RootsFiles(req, resolve, dirs)
    ensures !r.ok ==> cancel.AfterPolls?
  {
    if |dirs| == 0 then
      assert st.all + [] == st.all;
      Step(true, st)
    else if IsCancelled(cancel, st.polls) then Step(false, st.(polls := st.polls + 1))
    else
      var st1 := st.(polls := st.polls + 1);
      var root := RootOf(resolve, dirs[0]);
      if root.None? then
        var r := GrepRoot(req, cancel, resolve, dirs[1..], st1);
        assert [] + RootsHits(req, resolve, dirs[1..]) == RootsHits(req, resolve, dirs[1..]);
        r
      else
        var head := GrepDocumentTree(req, cancel, root.value, RootBase(dirs[0], root.value), st1);
        if !head.ok then head
        else
          var r := GrepRoot(req, cancel, resolve, dirs[1..], head.run);
          KeepsTransitive(st1, head.run, r.run);
          if cancel.Never? then
            Associative(st.all, TreeHits(req, root.value, RootBase(dirs[0], root.value)), RootsHits(req, resolve, dirs[1..]));
            r
          else r
  }

  /**
   * Without cancellation the task walks the same files and finds the same
   * matches as the executor engine; when no file fails while being read, the
   * rows it publishes are exactly the executor's result list.
   */
  lemma SameMatchesAsExecutor(req: SearchRequest, resolve: string -> Option<Node>, duration: int)
    requires AllValued(req.exts)
    ensures
      var r := GrepRoot(req, Never, resolve, req.dirs, Run(0, 0, [], [], 0));
      var e := Search(req, Never, resolve, duration);
      r.ok && r.run.all == e.summary.allMatches && r.run.fileCount == e.summary.totalFiles
      && (AllClean(resolve) ==> Flatten(r.run.events) == e.summary.allMatches)
  {
    assert [] + RootsHits(req, resolve, req.dirs) == RootsHits(req, resolve, req.dirs);
    assert Consistent(Run(0, 0, [], [], 0));
  }

  /**
   * A read error loses the task's pending batch: a file whose one matching
   * line is the tenth match of the search, and which fails after that line,
   * adds a match the task never publishes.
   */
  lemma ReadErrorHidesRows()
    ensures
      var req := SearchRequest("hit", (line: string) => true, [], []);
      var r := GrepDocument(req, Never, Some(Doc("u", Some("a.txt"), None)), Readable(["hit"], true), "a.txt",
                            Run(0, 9, [], [], 0));
      r.ok && |r.run.all| == 1 && Flatten(r.run.events) == []
  {
  }

  /** A null document stops the walk even when the flag is clear. */
  lemma NullDocumentStops(req: SearchRequest, content: Content, path: string, st: Run)
    requires AllValued(req.exts)
    ensures !GrepDocument(req, Never, None, content, path, st).ok
    ensures GrepDocument(req, Never, None, content, path, st).run == st.(polls := st.polls + 1)
  {
  }
}

=== FILE: highlight.dfy ===
/**
 * `highlightKeyword`: the spans of a line that get the highlight colours.
 *
 * The regex engine is the oracle `find`: `find(from)` is the first match that
 * starts at or after `from`, as a `[start, end)` pair inside the text, or
 * `None`. The loop searches again from the end of every match it marks, so a
 * match of length zero is found again at the same place, for ever. The
 * corrected loop searches one position further after an empty match.
 */
module Highlight {
  import opened Optional

  datatype Span = Span(start: nat, end: nat)

  /** What a find-from oracle over a text of length `len` may answer. */
  ghost predicate WellFormed(find: nat -> Option<(nat, nat)>, len: nat) {
    forall from: nat :: find(from).Some? ==> from <= find(from).value.0 <= find(from).value.1 <= len
  }

  /** Every match the oracle reports has at least one character. */
  ghost predicate NonEmptyMatches(find: nat -> Option<(nat, nat)>) {
    forall from: nat :: find(from).Some? ==> find(from).value.0 < find(from).value.1
  }

  /** Spans strictly increasing and pairwise disjoint, each inside `[lo, len]`. */
  predicate Increasing(spans: seq<Span>, lo: nat, len: nat) {
    (forall i :: 0 <= i < |spans| ==> lo <= spans[i].start <= spans[i].end <= len)
    && (forall i, j :: 0 <= i < j < |spans| ==> spans[i].end <= spans[j].start && spans[i].start < spans[j].start)
  }

  /** The loop as written, run for at most `fuel` rounds; `done` when the oracle found nothing more. */
  datatype Loop = Loop(spans: seq<Span>, done: bool)

  function AsWritten(find: nat -> Option<(nat, nat)>, len: nat, start: nat, fuel: nat): (r: Loop)
    requires WellFormed(find, len)
    ensures |r.spans| <= fuel
    ensures r.done ==> |r.spans| < fuel
    decreases fuel
  {
    if fuel == 0 then Loop([], false)
    else
      match find(start)
      case None => Loop([], true)
      case Some(m) =>
        var rest := AsWritten(find, len, m.1, fuel - 1);
        Loop([Span(m.0, m.1)] + rest.spans, rest.done)
  }

  /**
   * An empty match where the search starts: however many rounds the loop is
   * given, it never finishes, and marks the same empty span every round.
   */
  lemma {:induction false} ZeroLengthNeverEnds(find: nat -> Option<(nat, nat)>, len: nat, p: nat, fuel: nat)
    requires WellFormed(find, len) && find(p) == Some((p, p))
    ensures !AsWritten(find, len, p, fuel).done
    ensures AsWritten(find, len, p, fuel).spans == seq(fuel, _ => Span(p, p))
    decreases fuel
  {
    if fuel > 0 {
      ZeroLengthNeverEnds(find, len, p, fuel - 1);
      assert [Span(p, p)] + seq(fuel - 1, _ => Span(p, p)) == seq(fuel, _ => Span(p, p));
    }
  }

  /** The pattern `a*` over the text `b`: its first match is empty, at 0. */
  lemma EmptyPatternExample()
    ensures var find := (from: nat) => if from <= 1 then Some((from, from)) else None;
      WellFormed(find, 1) && !AsWritten(find, 1, 0, 100).done
  {
    var find := (from: nat) => if from <= 1 then Some((from, from)) else None;
    ZeroLengthNeverEnds(find, 1, 0, 100);
  }

  /** Where the corrected loop searches next: past the match, or one further after an empty one. */
  function Next(m: (nat, nat)): (r: nat)
    requires m.0 <= m.1
    ensures r > m.0 && r >= m.1
  {
    if m.1 == m.0 then m.1 + 1 else m.1
  }

  /** The corrected loop: every match marked, in order, and the search always moves on. */
  function Spans(find: nat -> Option<(nat, nat)>, len: nat, start: nat): (r: seq<Span>)
    requires WellFormed(find, len)
    ensures Increasing(r, start, len)
    decreases len + 1 - start
  {
    match find(start)
    case None => []
    case Some(m) =>
      var next := Next(m);
      if next > len then [Span(m.0, m.1)]
      else
        var rest := Spans(find, len, next);
        assert forall i :: 0 <= i < |rest| ==> m.1 <= next <= rest[i].start;
        [Span(m.0, m.1)] + rest
  }

  /**
   * When no match is empty, the loop as written finishes, given more rounds
   * than there are characters left, with exactly the corrected spans.
   */
  lemma {:induction false} AgreeWithoutEmptyMatches(find: nat -> Option<(nat, nat)>, len: nat, start: nat, fuel: nat)
    requires WellFormed(find, len) && NonEmptyMatches(find) && start <= len && fuel > len - start
    ensures AsWritten(find, len, start, fuel) == Loop(Spans(find, len, start), true)
    decreases fuel
  {
    match find(start)
    case None =>
    case Some(m) =>
      AgreeWithoutEmptyMatches(find, len, m.1, fuel - 1);
  }
}

=== FILE: optional.dfy ===
/** Nullable references of the source (Java `null`, Kotlin `T?`) are modelled as Option. */
module Optional {

  datatype Option<+T> = None | Some(value: T) {

    /** The value if present, else `default` (Kotlin's `?:`). */
    function GetOr(default: T): T {
      match this
      case Some(v) => v
      case None => default
    }
  }

  /** `a ?: b` where both sides may be absent. */
  function OrElse<T>(a: Option<T>, b: Option<T>): Option<T> {
    if a.Some? then a else b
  }
}

=== FILE: pattern.dfy ===
/**
 * Query preparation: a literal-mode query has its regular-expression
 * metacharacters escaped, and its spaces turned into an alternation, before it
 * is compiled. The compiled pattern itself is outside the model; its atoms are
 * read back by `ReadAtoms` to state what the prepared text denotes.
 */
module Pattern {
  import opened Optional
  import opened Text

  /** The fourteen characters `escapeMetaChar` protects. */
  const MetaChars: string := ".^${}[]*+?|()\\"

  /** Membership in `MetaChars`, spelled out (see `IsMetaMeansListed`). */
  predicate IsMeta(c: char) {
    c == '.' || c == '^' || c == '$' || c == '{' || c == '}' || c == '[' || c == ']'
    || c == '*' || c == '+' || c == '?' || c == '|' || c == '(' || c == ')' || c == '\\'
  }

  lemma IsMetaMeansListed(c: char)
    ensures IsMeta(c) <==> c in MetaChars
  {
    if c in MetaChars {
      var i :| 0 <= i < |MetaChars| && MetaChars[i] == c;
      assert i < 14;
    }
  }

  /** How many metacharacters `s` holds. */
  function CountMeta(s: string): nat {
    if |s| == 0 then 0 else (if IsMeta(s[0]) then 1 else 0) + CountMeta(s[1..])
  }

  /** The escaped form of one character. */
  function EscapeChar(c: char): (r: string)
    ensures 1 <= |r| <= 2 && r[|r| - 1] == c
    ensures |r| == 2 <==> IsMeta(c)
  {
    if IsMeta(c) then ['\\', c] else [c]
  }

  /**
   * `escapeMetaChar`: a backslash before every metacharacter, every other
   * character passed through, in order.
   */
  function Escape(s: string): (r: string)
    ensures |r| == |s| + CountMeta(s)
    ensures CountMeta(s) == 0 ==> r == s
  {
    if |s| == 0 then ""
    else
      assert s == [s[0]] + s[1..];
      EscapeChar(s[0]) + Escape(s[1..])
  }

  /** `convertOrPattern`: spaces become bars inside one group; no space, no change. */
  function ConvertOrPattern(p: string): (r: string)
    ensures ' ' !in p ==> r == p
    ensures ' ' in p ==> |r| == |p| + 2 && r[0] == '(' && r[|r| - 1] == ')' && ' ' !in r
    ensures ' ' in p ==> forall i :: 0 <= i < |p| ==> r[i + 1] == (if p[i] == ' ' then '|' else p[i])
  {
    if ' ' in p then "(" + ReplaceChar(p, ' ', '|') + ")" else p
  }

  /** `createPatternText`: the text as typed in regex mode, else escaped and or-converted. */
  function CreatePatternText(regex: bool, text: string): (r: string)
    ensures regex ==> r == text
    ensures !regex && ' ' !in text && CountMeta(text) == 0 ==> r == text
  {
    if regex then text else ConvertOrPattern(Escape(text))
  }

  // ---------------------------------------------------------------------------
  // Reading a prepared pattern back as regex atoms

  /**
   * One atom of a regular expression as far as prepared patterns need it: a
   * literal character, an alternation bar, a group bracket, or any other
   * operator character.
   */
  datatype Atom = Lit(c: char) | Bar | Open | Close | Operator(op: char)

  /** The atom an unescaped character stands for. */
  function Unescaped(c: char): Atom {
    if c == '|' then Bar
    else if c == '(' then Open
    else if c == ')' then Close
    else if IsMeta(c) then Operator(c)
    else Lit(c)
  }

  /** `a` in front of the atoms read so far, if the rest was readable. */
  function Prepend(a: Atom, rest: Option<seq<Atom>>): Option<seq<Atom>> {
    match rest
    case None => None
    case Some(t) => Some([a] + t)
  }

  /**
   * The atoms of `p`: a backslash followed by a metacharacter is that character
   * taken literally; `|`, `(` and `)` are structure; the other metacharacters
   * are operators; everything else is a literal. A dangling backslash, or one
   * before a character outside the metacharacters, is not read (None).
   */
  function ReadAtoms(p: string): Option<seq<Atom>>
    decreases |p|
  {
    if |p| == 0 then Some([])
    else if p[0] != '\\' then Prepend(Unescaped(p[0]), ReadAtoms(p[1..]))
    else if |p| < 2 || !IsMeta(p[1]) then None
    else Prepend(Lit(p[1]), ReadAtoms(p[2..]))
  }

  /** Reading one unescaped character in front of `t`. */
  lemma ReadUnescaped(c: char, t: string)
    requires c != '\\'
    ensures ReadAtoms([c] + t) == Prepend(Unescaped(c), ReadAtoms(t))
  {
    assert ([c] + t)[1..] == t;
  }

  /** Reading an escaped metacharacter in front of `t`. */
  lemma ReadEscaped(c: char, t: string)
    requires IsMeta(c)
    ensures ReadAtoms(['\\', c] + t) == Prepend(Lit(c), ReadAtoms(t))
  {
    assert (['\\', c] + t)[2..] == t;
  }

  /** Every character of `s` as a literal atom. */
  function Literals(s: string): (r: seq<Atom>)
    ensures |r| == |s|
    ensures forall i :: 0 <= i < |s| ==> r[i] == Lit(s[i])
  {
    seq(|s|, i requires 0 <= i < |s| => Lit(s[i]))
  }

  /** The words of `s` as literals, each space an alternation bar. */
  function Alternatives(s: string): (r: seq<Atom>)
    ensures |r| == |s|
    ensures forall i :: 0 <= i < |s| ==> r[i] == (if s[i] == ' ' then Bar else Lit(s[i]))
  {
    seq(|s|, i requires 0 <= i < |s| => if s[i] == ' ' then Bar else Lit(s[i]))
  }

  /** Both readings joined, when both succeeded. */
  function Concat(x: Option<seq<Atom>>, y: Option<seq<Atom>>): (r: Option<seq<Atom>>)
    ensures r.Some? <==> x.Some? && y.Some?
    ensures r.Some? ==> r.value == x.value + y.value
  {
    if x.Some? && y.Some? then Some(x.value + y.value) else None
  }

  lemma PrependConcat(h: Atom, x: Option<seq<Atom>>, y: Option<seq<Atom>>)
    ensures Concat(Prepend(h, x), y) == Prepend(h, Concat(x, y))
  {
    if x.Some? && y.Some? {
      assert [h] + x.value + y.value == [h] + (x.value + y.value);
    }
  }

  /** The first atom of a readable pattern and the text after it. */
  lemma ReadFirst(a: string, b: string) returns (head: Atom, rest: string)
    requires |a| > 0 && ReadAtoms(a).Some?
    ensures ReadAtoms(a) == Prepend(head, ReadAtoms(rest))
    ensures ReadAtoms(a + b) == Prepend(head, ReadAtoms(rest + b))
    ensures |rest| < |a|
  {
    if a[0] == '\\' {
      head, rest := Lit(a[1]), a[2..];
      assert a == ['\\', a[1]] + rest;
      assert a + b == ['\\', a[1]] + (rest + b);
      ReadEscaped(a[1], rest);
      ReadEscaped(a[1], rest + b);
    } else {
      head, rest := Unescaped(a[0]), a[1..];
      assert a == [a[0]] + rest;
      assert a + b == [a[0]] + (rest + b);
      ReadUnescaped(a[0], rest);
      ReadUnescaped(a[0], rest + b);
    }
  }

  /**
   * A pattern that reads completely can be followed by anything: the whole
   * reads exactly when the follower does, as the atoms of both in order.
   */
  lemma {:induction false} ReadAtomsAppend(a: string, b: string)
    requires ReadAtoms(a).Some?
    ensures ReadAtoms(a + b) == Concat(ReadAtoms(a), ReadAtoms(b))
    decreases |a|
  {
    if |a| == 0 {
      assert a + b == b;
      assert ReadAtoms(a).value == [];
      if ReadAtoms(b).Some? {
        assert [] + ReadAtoms(b).value == ReadAtoms(b).value;
      }
    } else {
      var head, rest := ReadFirst(a, b);
      ReadAtomsAppend(rest, b);
      PrependConcat(head, ReadAtoms(rest), ReadAtoms(b));
    }
  }

  /**
   * The escaped text reads back as exactly the input characters, each a
   * literal: no operator, bar or group survives escaping, and every backslash
   * it adds is consumed by the character it protects.
   */
  lemma {:induction false} EscapeReadsLiterally(s: string)
    ensures ReadAtoms(Escape(s)) == Some(Literals(s))
  {
    if |s| > 0 {
      var tail := Escape(s[1..]);
      EscapeReadsLiterally(s[1..]);
      if IsMeta(s[0]) {
        ReadEscaped(s[0], tail);
      } else {
        ReadUnescaped(s[0], tail);
      }
      assert Literals(s) == [Lit(s[0])] + Literals(s[1..]);
    }
  }

  /** Escaping followed by the space-to-bar step, character by character. */
  function EscapeOr(s: string): string {
    if |s| == 0 then ""
    else (if s[0] == ' ' then "|" else EscapeChar(s[0])) + EscapeOr(s[1..])
  }

  lemma ReplaceCharAppend(a: string, b: string, from: char, to: char)
    ensures ReplaceChar(a + b, from, to) == ReplaceChar(a, from, to) + ReplaceChar(b, from, to)
  {
  }

  lemma {:induction false} ReplaceSpacesInEscape(s: string)
    ensures ReplaceChar(Escape(s), ' ', '|') == EscapeOr(s)
  {
    if |s| > 0 {
      ReplaceSpacesInEscape(s[1..]);
      ReplaceCharAppend(EscapeChar(s[0]), Escape(s[1..]), ' ', '|');
    }
  }

  lemma AlternativesCons(s: string)
    requires |s| > 0
    ensures Alternatives(s) == [if s[0] == ' ' then Bar else Lit(s[0])] + Alternatives(s[1..])
  {
  }

  lemma {:induction false} EscapeOrReads(s: string)
    ensures ReadAtoms(EscapeOr(s)) == Some(Alternatives(s))
    decreases |s|
  {
    if |s| > 0 {
      var c, tail := s[0], EscapeOr(s[1..]);
      EscapeOrReads(s[1..]);
      AlternativesCons(s);
      if c == ' ' {
        assert EscapeOr(s) == ['|'] + tail;
        ReadUnescaped('|', tail);
      } else if IsMeta(c) {
        assert EscapeOr(s) == ['\\', c] + tail;
        ReadEscaped(c, tail);
      } else {
        assert EscapeOr(s) == [c] + tail;
        ReadUnescaped(c, tail);
      }
    }
  }

  /** The closing bracket alone reads as the end of a group. */
  lemma ReadClose()
    ensures ReadAtoms(")") == Some([Close])
  {
    assert ")" == [')'] + "";
    ReadUnescaped(')', "");
    assert [Close] + [] == [Close];
  }

  /** A readable text between brackets reads as one group around its atoms. */
  lemma ReadGroup(body: string)
    requires ReadAtoms(body).Some?
    ensures ReadAtoms("(" + body + ")") == Some([Open] + ReadAtoms(body).value + [Close])
  {
    ReadClose();
    ReadAtomsAppend(body, ")");
    assert "(" + body + ")" == ['('] + (body + ")");
    ReadUnescaped('(', body + ")");
    assert [Open] + (ReadAtoms(body).value + [Close]) == [Open] + ReadAtoms(body).value + [Close];
  }

  /** With a space, the escaped query becomes one group of bar-separated words. */
  lemma AlternationReads(text: string)
    requires ' ' in text
    ensures ReadAtoms(ConvertOrPattern(Escape(text))) == Some([Open] + Alternatives(text) + [Close])
  {
    var e := Escape(text);
    assert ' ' in e by {
      var k :| 0 <= k < |text| && text[k] == ' ';
      EscapeKeepsSpace(text, k);
    }
    ReplaceSpacesInEscape(text);
    EscapeOrReads(text);
    assert ConvertOrPattern(e) == "(" + EscapeOr(text) + ")";
    ReadGroup(EscapeOr(text));
  }

  /**
   * What a literal-mode query denotes: its characters taken literally, or,
   * when it holds a space, one group whose alternatives are the space-separated
   * words, the only bars in the pattern coming from spaces.
   */
  lemma LiteralQueryMeaning(text: string)
    ensures ReadAtoms(CreatePatternText(false, text)) ==
      if ' ' in text then Some([Open] + Alternatives(text) + [Close])
      else Some(Literals(text))
  {
    if ' ' in text {
      AlternationReads(text);
    } else {
      EscapeSpaces(text);
      EscapeReadsLiterally(text);
    }
  }

  /** Escaping neither adds nor removes spaces. */
  lemma {:induction false} EscapeSpaces(s: string)
    ensures ' ' in Escape(s) <==> ' ' in s
  {
    if |s| > 0 {
      EscapeSpaces(s[1..]);
      var head, tail := EscapeChar(s[0]), Escape(s[1..]);
      assert Escape(s) == head + tail;
      assert ' ' in head <==> s[0] == ' ';
      assert s == [s[0]] + s[1..];
    }
  }

  lemma {:induction false} EscapeKeepsSpace(s: string, k: nat)
    requires k < |s| && s[k] == ' '
    ensures ' ' in Escape(s)
  {
    if k == 0 {
      assert Escape(s)[0] == ' ';
    } else {
      EscapeKeepsSpace(s[1..], k - 1);
      var tail := Escape(s[1..]);
      var j :| 0 <= j < |tail| && tail[j] == ' ';
      assert Escape(s)[|EscapeChar(s[0])| + j] == ' ';
    }
  }

  /** Strings the escaping unit tests expect to pass through unchanged. */
  lemma EscapeIdentityExamples()
    ensures Escape("") == ""
    ensures Escape("test123") == "test123"
  {
    assert Escape("3") == "3";
    assert Escape("23") == "23";
    assert Escape("123") == "123";
    assert Escape("t123") == "t123";
    assert Escape("st123") == "st123";
    assert Escape("est123") == "est123";
  }

  lemma EscapeCons(c: char, t: string)
    ensures Escape([c] + t) == EscapeChar(c) + Escape(t)
  {
    assert ([c] + t)[1..] == t;
  }

  /** A bar typed in literal mode is escaped, so it is no alternation. */
  lemma EscapeBarExample()
    ensures Escape("a|b") == "a\\|b"
  {
    EscapeCons('b', "");
    EscapeCons('|', "b");
    EscapeCons('a', "|b");
  }

  /** Escaping a query with a dot and a space protects the dot only. */
  lemma EscapeDotExample()
    ensures Escape("a.b c") == "a\\.b c"
  {
    assert Escape("c") == "c";
    assert Escape(" c") == " c";
    assert Escape("b c") == "b c";
    assert Escape(".b c") == "\\.b c";
  }

  /** The space-to-bar step on the escaped example. */
  lemma OrExample()
    ensures ConvertOrPattern("a\\.b c") == "(a\\.b|c)"
  {
    var e := "a\\.b c";
    assert e[4] == ' ';
    var body := ReplaceChar(e, ' ', '|');
    assert body == "a\\.b|c" by {
      assert forall i :: 0 <= i < |body| ==> body[i] == "a\\.b|c"[i];
    }
  }

  /** Two words typed in literal mode become a two-way alternation. */
  lemma OrPatternExample()
    ensures CreatePatternText(false, "a.b c") == "(a\\.b|c)"
  {
    EscapeDotExample();
    OrExample();
  }
}

=== FILE: prefs.dfy ===
/**
 * `Prefs`: the preferences the search reads, loaded from and saved to the
 * application's key-value store. The extension list is kept as one string
 * `true|txt|false|log`; the directory list as a JSON array of objects, with two
 * legacy string formats still read when that array is absent; the recent
 * searches as a map from query to the time it was last run.
 *
 * The store is modelled by its typed maps. The JSON text is modelled by the
 * objects it parses to; its syntax is not part of this model.
 */
module Prefs {
  import opened Optional
  import opened Text
  import opened Checked
  import Sorting

  const KeyIgnoreCase := "IgnoreCase"
  const KeyRegularExpression := "RegularExpression"
  const KeyExtensionsOld := "TargetExtensions"
  const KeyDirectoriesOld := "TargetDirectories"
  const KeyExtensionsNew := "TargetExtensionsNew"
  const KeyDirectoriesNew := "TargetDirectoriesNew"
  const KeyFontSize := "FontSize"
  const KeyHighlightFg := "HighlightFg"
  const KeyHighlightBg := "HighlightBg"
  const KeyAddLineNumber := "AddLineNumber"
  const KeyMigrationPrompted := "DirectoryMigrationPrompted"

  /** The ARGB colours `0xFF000000` and `0xFF00FFFF` as the signed 32-bit ints Java stores. */
  const DefaultHighlightFg: int := -0x100_0000
  const DefaultHighlightBg: int := -0xFF_0001

  const Separator: char := '|'

  /** One object of the directory array: each key may be missing. */
  datatype DirObject = DirObject(checked: Option<bool>, uri: Option<string>, name: Option<string>)

  /**
   * The store: strings, booleans and ints by key, and the directory array
   * stored under `TargetDirectoriesTree` (None when that key is absent).
   */
  datatype Store = Store(strings: map<string, string>, bools: map<string, bool>, ints: map<string, int>,
                         tree: Option<seq<DirObject>>)

  datatype Prefs = Prefs(
    regularExpression: bool,
    ignoreCase: bool,
    fontSize: int,
    highlightFg: int,
    highlightBg: int,
    addLineNumber: bool,
    dirs: seq<CheckedString>,
    exts: seq<CheckedString>,
    legacyDirectories: seq<string>,
    needsDirectoryMigration: bool,
    shouldPromptDirectoryMigration: bool)

  function Get<V>(m: map<string, V>, key: string, default: V): V {
    if key in m then m[key] else default
  }

  // ---------------------------------------------------------------------------
  // The extension list string

  /** `String.valueOf(boolean)`. */
  function BoolText(b: bool): (r: string)
    ensures Separator !in r
    ensures r == "true" <==> b
  {
    if b then "true" else "false"
  }

  /** A string appended to a `StringBuilder`: null appends `null`. */
  function ValueText(v: Option<string>): string {
    v.GetOr("null")
  }

  /** What the save loop appends: `checked|string|` for every entry. */
  function Appended(exts: seq<CheckedString>): string {
    if |exts| == 0 then ""
    else BoolText(exts[0].checked) + "|" + ValueText(exts[0].value) + "|" + Appended(exts[1..])
  }

  /** The fields of the encoding, two per entry: the flag, then the value. */
  function Fields(exts: seq<CheckedString>): (r: seq<string>)
    ensures |r| == 2 * |exts|
  {
    if |exts| == 0 then [] else [BoolText(exts[0].checked), ValueText(exts[0].value)] + Fields(exts[1..])
  }

  lemma {:induction false} AppendedJoin(exts: seq<CheckedString>)
    requires |exts| > 0
    ensures Appended(exts) == Join(Fields(exts), Separator) + "|"
    decreases |exts|
  {
    var b, v := BoolText(exts[0].checked), ValueText(exts[0].value);
    var tail := exts[1..];
    var f, ft := Fields(exts), Fields(tail);
    assert f[1..] == [v] + ft;
    assert Join(f, Separator) == b + "|" + Join([v] + ft, Separator);
    if |tail| == 0 {
      assert Join([v] + ft, Separator) == v;
    } else {
      AppendedJoin(tail);
      assert ([v] + ft)[1..] == ft;
      assert Join([v] + ft, Separator) == v + "|" + Join(ft, Separator);
    }
  }

  /**
   * The saved extension string: the appended text with its last `|` deleted,
   * which is the fields joined by `|`; the empty list is the empty string.
   */
  function EncodeExtensions(exts: seq<CheckedString>): (r: string)
    ensures r == "" <==> |exts| == 0
    ensures |exts| > 0 ==> r == Join(Fields(exts), Separator)
  {
    var b := Appended(exts);
    if |b| > 0 then
      AppendedJoin(exts);
      assert |Fields(exts)[0]| > 0;
      b[..|b| - 1]
    else
      assert |exts| == 0 by {
        if |exts| > 0 { AppendedJoin(exts); }
      }
      b
  }

  /**
   * The pairs of a split string, read two fields at a time: a flag that is set
   * iff the field is `true`, and a value. An odd field count reads one field
   * past the end of the array, which throws; that is None.
   */
  function Pairs(fields: seq<string>): (r: Option<seq<(bool, string)>>)
    ensures r.Some? <==> |fields| % 2 == 0
    ensures r.Some? ==>
      |r.value| == |fields| / 2 &&
      forall i :: 0 <= i < |r.value| ==> r.value[i] == (fields[2 * i] == "true", fields[2 * i + 1])
  {
    if |fields| == 0 then Some([])
    else if |fields| == 1 then None
    else
      match Pairs(fields[2..])
      case None => None
      case Some(rest) =>
        assert forall i :: 0 <= i < |rest| ==> fields[2..][2 * i] == fields[2 * (i + 1)];
        Some([(fields[0] == "true", fields[1])] + rest)
  }

  function EnabledAll(values: seq<string>): (r: seq<CheckedString>)
    ensures |r| == |values| && forall i :: 0 <= i < |r| ==> r[i] == Enabled(Some(values[i]))
  {
    seq(|values|, i requires 0 <= i < |values| => Enabled(Some(values[i])))
  }

  /**
   * `loadExtensions`: the pairs of the new key when it is non-empty (None when
   * reading them throws); else the old key, default `txt`, each field an
   * enabled entry.
   */
  function LoadExtensions(strings: map<string, string>): (r: Option<seq<CheckedString>>)
    ensures Get(strings, KeyExtensionsNew, "") == "" ==> r.Some?
    ensures Get(strings, KeyExtensionsNew, "") == "" && KeyExtensionsOld !in strings ==>
      r == Some([Enabled(Some("txt"))])
  {
    var exts := Get(strings, KeyExtensionsNew, "");
    if exts != "" then
      match Pairs(JavaSplit(exts, Separator))
      case None => None
      case Some(ps) => Some(seq(|ps|, i requires 0 <= i < |ps| => WithState(ps[i].0, Some(ps[i].1))))
    else
      var older := Get(strings, KeyExtensionsOld, "txt");
      if older != "" then
        assert Separator !in "txt";
        assert older == "txt" ==> EnabledAll(JavaSplit(older, Separator)) == [Enabled(Some("txt"))];
        Some(EnabledAll(JavaSplit(older, Separator)))
      else Some([])
  }

  /**
   * What the extension string can carry back: every entry has a value free of
   * `|` and is named after it, and the last value is not empty (a trailing
   * empty field is dropped by `split`).
   */
  predicate Encodable(exts: seq<CheckedString>) {
    (forall i :: 0 <= i < |exts| ==>
      exts[i].value.Some? && Separator !in exts[i].value.value && exts[i].name == exts[i].value)
    && (|exts| > 0 ==> exts[|exts| - 1].value.Some? && exts[|exts| - 1].value.value != "")
  }

  /** The flag and value of every entry. */
  function FlagsAndValues(exts: seq<CheckedString>): (r: seq<(bool, string)>)
    requires forall i :: 0 <= i < |exts| ==> exts[i].value.Some?
    ensures |r| == |exts| && forall i :: 0 <= i < |r| ==> r[i] == (exts[i].checked, exts[i].value.value)
  {
    seq(|exts|, i requires 0 <= i < |exts| => (exts[i].checked, exts[i].value.value))
  }

  /** Reading a flag field and a value field in front of more fields. */
  lemma PairsCons(x: string, y: string, rest: seq<string>)
    ensures Pairs([x, y] + rest) == if Pairs(rest).Some? then Some([(x == "true", y)] + Pairs(rest).value) else None
  {
    assert ([x, y] + rest)[2..] == rest;
  }

  lemma {:induction false} PairsOfFields(exts: seq<CheckedString>)
    requires forall i :: 0 <= i < |exts| ==> exts[i].value.Some?
    ensures Pairs(Fields(exts)) == Some(FlagsAndValues(exts))
    decreases |exts|
  {
    if |exts| > 0 {
      var tail := exts[1..];
      assert forall i :: 0 <= i < |tail| ==> tail[i] == exts[i + 1];
      PairsOfFields(tail);
      var b := BoolText(exts[0].checked);
      PairsCons(b, exts[0].value.value, Fields(tail));
      assert (b == "true") == exts[0].checked;
      assert FlagsAndValues(exts) == [(exts[0].checked, exts[0].value.value)] + FlagsAndValues(tail);
    }
  }

  lemma JoinHasSeparator(parts: seq<string>, sep: char)
    requires |parts| >= 2
    ensures sep in Join(parts, sep)
  {
    assert Join(parts, sep)[|parts[0]|] == sep;
  }

  /** Splitting a non-empty encoding gives its fields back. */
  lemma {:induction false} SplitEncoding(exts: seq<CheckedString>)
    requires |exts| > 0 && Encodable(exts)
    ensures JavaSplit(EncodeExtensions(exts), Separator) == Fields(exts)
  {
    var f := Fields(exts);
    var e := EncodeExtensions(exts);
    assert e == Join(f, Separator);
    NoSeparatorInFields(exts);
    SplitAllJoin(f, Separator);
    JoinHasSeparator(f, Separator);
    FieldsAt(exts, |exts| - 1);
    assert f[|f| - 1] != "";
    assert JavaSplit(e, Separator) == StripTrailingEmpty(f);
  }

  lemma {:induction false} NoSeparatorInFields(exts: seq<CheckedString>)
    requires Encodable(exts)
    ensures forall i :: 0 <= i < |Fields(exts)| ==> Separator !in Fields(exts)[i]
  {
    forall i | 0 <= i < |Fields(exts)| ensures Separator !in Fields(exts)[i] {
      FieldsAt(exts, i / 2);
    }
  }

  /** Saving an encodable non-empty list and loading it gives the same list. */
  lemma ExtensionsRoundTrip(exts: seq<CheckedString>, strings: map<string, string>)
    requires |exts| > 0 && Encodable(exts)
    ensures LoadExtensions(strings[KeyExtensionsNew := EncodeExtensions(exts)]) == Some(exts)
  {
    var m := strings[KeyExtensionsNew := EncodeExtensions(exts)];
    assert Get(m, KeyExtensionsNew, "") == EncodeExtensions(exts);
    SplitEncoding(exts);
    PairsOfFields(exts);
    var ps := FlagsAndValues(exts);
    assert seq(|ps|, i requires 0 <= i < |ps| => WithState(ps[i].0, Some(ps[i].1))) == exts;
  }

  /** Entry `k` is written as fields `2k` (its flag) and `2k + 1` (its value). */
  lemma {:induction false} FieldsAt(exts: seq<CheckedString>, k: nat)
    requires k < |exts|
    ensures Fields(exts)[2 * k] == BoolText(exts[k].checked)
    ensures Fields(exts)[2 * k + 1] == ValueText(exts[k].value)
    decreases k
  {
    var f := Fields(exts);
    assert f == [BoolText(exts[0].checked), ValueText(exts[0].value)] + Fields(exts[1..]);
    if k > 0 {
      FieldsAt(exts[1..], k - 1);
      assert f[2 * k] == Fields(exts[1..])[2 * (k - 1)];
      assert f[2 * k + 1] == Fields(exts[1..])[2 * (k - 1) + 1];
    }
  }

  /** An empty list is saved as the empty string and loads back as `[txt]`. */
  lemma EmptyExtensionsLoadAsTxt(strings: map<string, string>)
    ensures EncodeExtensions([]) == ""
    ensures LoadExtensions((strings - {KeyExtensionsOld})[KeyExtensionsNew := EncodeExtensions([])]) == Some([Enabled(Some("txt"))])
  {
  }

  // ---------------------------------------------------------------------------
  // The directory list

  datatype Dirs = Dirs(list: seq<CheckedString>, legacy: seq<string>, needsMigration: bool, shouldPrompt: bool)

  /** An object of the array as an entry: checked by default, the name defaulting to the URI. */
  function FromObject(o: DirObject): (c: CheckedString)
    ensures c.checked == o.checked.GetOr(true) && c.value == o.uri
    ensures c.DisplayName() == OrElse(o.name, o.uri)
  {
    Labelled(o.checked.GetOr(true), o.uri, OrElse(o.name, o.uri))
  }

  function FromObjects(objs: seq<DirObject>): (r: seq<CheckedString>)
    ensures |r| == |objs| && forall i :: 0 <= i < |r| ==> r[i] == FromObject(objs[i])
  {
    seq(|objs|, i requires 0 <= i < |objs| => FromObject(objs[i]))
  }

  /** A legacy path: no URI, the path as its name. */
  function Legacy(checked: bool, path: string): (c: CheckedString)
    ensures !c.HasValue() && c.DisplayName() == Some(path) && c.checked == checked
  {
    Labelled(checked, None, Some(path))
  }

  /**
   * `loadDirectories`: the array when it holds an entry; else the pairs of the
   * newer legacy key, else every path of the oldest key, checked. Every legacy
   * path is remembered, and any legacy path means a migration is due, prompted
   * for unless the prompt was already shown.
   */
  function LoadDirectories(st: Store): (r: Option<Dirs>)
    ensures r.Some? ==> (r.value.needsMigration <==> |r.value.legacy| > 0)
    ensures r.Some? ==> (r.value.shouldPrompt <==> r.value.needsMigration && !Get(st.bools, KeyMigrationPrompted, false))
    ensures st.tree.Some? && |st.tree.value| > 0 ==>
      r == Some(Dirs(FromObjects(st.tree.value), [], false, false))
    ensures r.Some? && |r.value.legacy| > 0 ==>
      |r.value.list| == |r.value.legacy| &&
      forall i :: 0 <= i < |r.value.list| ==>
        r.value.list[i].DisplayName() == Some(r.value.legacy[i]) && !r.value.list[i].HasValue()
  {
    var fromTree := if st.tree.Some? then FromObjects(st.tree.value) else [];
    if |fromTree| > 0 then Some(Dirs(fromTree, [], false, false))
    else
      var dirs := Get(st.strings, KeyDirectoriesNew, "");
      var loaded: Option<(seq<CheckedString>, seq<string>)> :=
        if dirs != "" then
          match Pairs(JavaSplit(dirs, Separator))
          case None => None
          case Some(ps) =>
            Some((seq(|ps|, i requires 0 <= i < |ps| => Legacy(ps[i].0, ps[i].1)),
                  seq(|ps|, i requires 0 <= i < |ps| => ps[i].1)))
        else
          var older := Get(st.strings, KeyDirectoriesOld, "");
          if older != "" then
            var paths := JavaSplit(older, Separator);
            Some((seq(|paths|, i requires 0 <= i < |paths| => Legacy(true, paths[i])), paths))
          else Some(([], []));
      match loaded
      case None => None
      case Some((list, legacy)) =>
        var needs := |legacy| > 0;
        Some(Dirs(list, legacy, needs, needs && !Get(st.bools, KeyMigrationPrompted, false)))
  }

  /** The entries the save loop writes: those with a value, each with its display name. */
  function SavedObjects(dirs: seq<CheckedString>): (r: seq<DirObject>)
    ensures |r| <= |dirs|
    ensures forall i :: 0 <= i < |r| ==> r[i].uri.Some? && |r[i].uri.value| > 0 && r[i].name.Some?
    ensures |r| == 0 <==> forall i :: 0 <= i < |dirs| ==> !dirs[i].HasValue()
  {
    if |dirs| == 0 then []
    else
      var rest := SavedObjects(dirs[1..]);
      assert forall i :: 1 <= i < |dirs| ==> dirs[i] == dirs[1..][i - 1];
      if !dirs[0].HasValue() then rest
      else [DirObject(Some(dirs[0].checked), dirs[0].value, dirs[0].DisplayName())] + rest
  }

  /** The entries with a value, in order. */
  function Valued(dirs: seq<CheckedString>): (r: seq<CheckedString>)
    ensures forall i :: 0 <= i < |r| ==> r[i].HasValue() && r[i] in dirs
    ensures forall c :: c in dirs && c.HasValue() ==> c in r
  {
    if |dirs| == 0 then []
    else if dirs[0].HasValue() then [dirs[0]] + Valued(dirs[1..])
    else Valued(dirs[1..])
  }

  /** Two entries agree on everything the array stores: flag, URI and display name. */
  predicate SameEntry(a: CheckedString, b: CheckedString) {
    a.checked == b.checked && a.value == b.value && a.DisplayName() == b.DisplayName()
  }

  predicate SameEntries(r: seq<CheckedString>, v: seq<CheckedString>) {
    |r| == |v| && forall i :: 0 <= i < |r| ==> SameEntry(r[i], v[i])
  }

  lemma SameEntriesCons(a: CheckedString, b: CheckedString, r: seq<CheckedString>, v: seq<CheckedString>)
    requires SameEntry(a, b) && SameEntries(r, v)
    ensures SameEntries([a] + r, [b] + v)
  {
    forall i | 1 <= i < |r| + 1 ensures SameEntry(([a] + r)[i], ([b] + v)[i]) {
      assert ([a] + r)[i] == r[i - 1] && ([b] + v)[i] == v[i - 1];
    }
  }

  lemma FromObjectsCons(d: DirObject, o: seq<DirObject>)
    ensures FromObjects([d] + o) == [FromObject(d)] + FromObjects(o)
  {
    assert forall i :: 1 <= i < |o| + 1 ==> ([d] + o)[i] == o[i - 1];
  }

  /**
   * A saved directory list read back: exactly the entries with a value, in
   * order, each with the same flag, URI and display name.
   */
  lemma {:induction false} DirectoriesRoundTrip(dirs: seq<CheckedString>)
    ensures SameEntries(FromObjects(SavedObjects(dirs)), Valued(dirs))
    decreases |dirs|
  {
    if |dirs| > 0 {
      var tail := dirs[1..];
      DirectoriesRoundTrip(tail);
      var o := SavedObjects(tail);
      if dirs[0].HasValue() {
        var d := DirObject(Some(dirs[0].checked), dirs[0].value, dirs[0].DisplayName());
        assert SavedObjects(dirs) == [d] + o;
        assert Valued(dirs) == [dirs[0]] + Valued(tail);
        FromObjectsCons(d, o);
        SameEntriesCons(FromObject(d), dirs[0], FromObjects(o), Valued(tail));
      } else {
        assert SavedObjects(dirs) == o;
        assert Valued(dirs) == Valued(tail);
      }
    }
  }

  // ---------------------------------------------------------------------------
  // Loading and saving

  /** `Integer.parseInt` of the stored font size, `-1` when absent, 16 when not a number. */
  function FontSize(strings: map<string, string>): (r: int)
    ensures KeyFontSize !in strings ==> r == -1
    ensures KeyFontSize in strings && ParseInt(strings[KeyFontSize]).None? ==> r == 16
  {
    assert ParseInt("-1") == Some(-1) by {
      ParseIntOfIntToString(-1);
    }
    match ParseInt(Get(strings, KeyFontSize, "-1"))
    case Some(n) => n
    case None => 16
  }

  /** A size stored as the decimal text of an int reads back as that int. */
  lemma FontSizeRoundTrip(strings: map<string, string>, n: int)
    requires IntMin <= n <= IntMax
    ensures FontSize(strings[KeyFontSize := IntToString(n)]) == n
  {
    ParseIntOfIntToString(n);
  }

  /**
   * `loadPrefs`: the two lists (None when reading a legacy pair list throws)
   * and the scalar settings with their defaults.
   */
  function Load(st: Store): (r: Option<Prefs>)
    ensures r.Some? <==> LoadDirectories(st).Some? && LoadExtensions(st.strings).Some?
    ensures r.Some? ==>
      r.value.ignoreCase == Get(st.bools, KeyIgnoreCase, true) &&
      r.value.regularExpression == Get(st.bools, KeyRegularExpression, false) &&
      r.value.highlightFg == Get(st.ints, KeyHighlightFg, DefaultHighlightFg) &&
      r.value.highlightBg == Get(st.ints, KeyHighlightBg, DefaultHighlightBg) &&
      r.value.fontSize == FontSize(st.strings) &&
      r.value.addLineNumber == Get(st.bools, KeyAddLineNumber, false)
    ensures r.Some? ==>
      r.value.dirs == LoadDirectories(st).value.list && r.value.exts == LoadExtensions(st.strings).value
      && r.value.legacyDirectories == LoadDirectories(st).value.legacy
      && r.value.needsDirectoryMigration == LoadDirectories(st).value.needsMigration
      && r.value.shouldPromptDirectoryMigration == LoadDirectories(st).value.shouldPrompt
  {
    match LoadDirectories(st)
    case None => None
    case Some(d) =>
      match LoadExtensions(st.strings)
      case None => None
      case Some(exts) =>
        Some(Prefs(Get(st.bools, KeyRegularExpression, false), Get(st.bools, KeyIgnoreCase, true),
                   FontSize(st.strings), Get(st.ints, KeyHighlightFg, DefaultHighlightFg),
                   Get(st.ints, KeyHighlightBg, DefaultHighlightBg), Get(st.bools, KeyAddLineNumber, false),
                   d.list, exts, d.legacy, d.needsMigration, d.shouldPrompt))
  }

  datatype Saved = Saved(store: Store, prefs: Prefs)

  /**
   * `savePrefs`: the directory array (removed when no entry has a value, else
   * written and the migration settled), the extension string, the two flags;
   * every legacy key is removed.
   */
  function Save(p: Prefs, st: Store): (r: Saved)
    ensures KeyExtensionsOld !in r.store.strings && KeyDirectoriesOld !in r.store.strings
      && KeyDirectoriesNew !in r.store.strings
    ensures r.store.ints == st.ints
    ensures (r.store.tree.Some? <==> exists i :: 0 <= i < |p.dirs| && p.dirs[i].HasValue())
    ensures r.store.tree.Some? ==>
      !r.prefs.needsDirectoryMigration && !r.prefs.shouldPromptDirectoryMigration &&
      Get(r.store.bools, KeyMigrationPrompted, false)
    ensures r.prefs.dirs == p.dirs && r.prefs.exts == p.exts
  {
    var objs := SavedObjects(p.dirs);
    var strings := (st.strings - {KeyDirectoriesOld, KeyExtensionsOld, KeyDirectoriesNew})
                   [KeyExtensionsNew := EncodeExtensions(p.exts)];
    var written := |objs| > 0;
    var bools := if written then st.bools[KeyMigrationPrompted := true] else st.bools;
    var bools' := bools[KeyRegularExpression := p.regularExpression][KeyIgnoreCase := p.ignoreCase];
    var p' := if written then p.(needsDirectoryMigration := false, shouldPromptDirectoryMigration := false) else p;
    Saved(Store(strings, bools', st.ints, if written then Some(objs) else None), p')
  }

  /**
   * Saving and loading again: the same flags and colours; the directories with a
   * value (flag, URI and display name kept) and no migration due; the same
   * extensions, or `[txt]` for an empty list.
   */
  lemma SaveThenLoad(p: Prefs, st: Store)
    requires Encodable(p.exts)
    ensures var r := Load(Save(p, st).store);
      r.Some? && r.value.regularExpression == p.regularExpression && r.value.ignoreCase == p.ignoreCase
      && r.value.exts == (if |p.exts| == 0 then [Enabled(Some("txt"))] else p.exts)
      && r.value.dirs == FromObjects(SavedObjects(p.dirs))
      && !r.value.needsDirectoryMigration
  {
    var s := Save(p, st).store;
    if |p.exts| > 0 {
      ExtensionsRoundTrip(p.exts, (st.strings - {KeyDirectoriesOld, KeyExtensionsOld, KeyDirectoriesNew}));
    }
    if s.tree.None? {
      assert SavedObjects(p.dirs) == [];
    }
  }

  /** `markMigrationPrompted`: the prompt is recorded and not shown again. */
  function MarkMigrationPrompted(p: Prefs, st: Store): (r: Saved)
    ensures !r.prefs.shouldPromptDirectoryMigration
    ensures LoadDirectories(r.store).Some? ==> !LoadDirectories(r.store).value.shouldPrompt
    ensures r.prefs == p.(shouldPromptDirectoryMigration := false)
  {
    Saved(st.(bools := st.bools[KeyMigrationPrompted := true]), p.(shouldPromptDirectoryMigration := false))
  }

  // ---------------------------------------------------------------------------
  // Recent searches

  const MaxRecent: nat := 30

  /** `Long.compareTo` with the operands swapped: the newer entry first. */
  function NewerFirst(a: (string, int), b: (string, int)): int {
    if b.1 < a.1 then -1 else if b.1 == a.1 then 0 else 1
  }

  lemma NewerFirstAntisymmetric()
    ensures Sorting.Antisymmetric(NewerFirst)
  {
  }

  /** Entries tie exactly when their time stamps are equal, an equivalence. */
  lemma NewerFirstTiesTransitive()
    ensures Sorting.TiesTransitive(NewerFirst)
  {
  }

  /** The recent entries sorted newest first. */
  function Ranked(entries: seq<(string, int)>): (r: seq<(string, int)>)
    ensures multiset(r) == multiset(entries)
    ensures forall i, j :: 0 <= i < j < |r| ==> r[i].1 >= r[j].1
    ensures Sorting.Stable(NewerFirst, entries, r)
  {
    NewerFirstAntisymmetric();
    NewerFirstTiesTransitive();
    var r := Sorting.SortBy(NewerFirst, entries);
    SortedNewestFirst(r);
    r
  }

  lemma {:induction false} SortedNewestFirst(r: seq<(string, int)>)
    requires Sorting.SortedBy(NewerFirst, r)
    ensures forall i, j :: 0 <= i < j < |r| ==> r[i].1 >= r[j].1
    decreases |r|
  {
    if |r| > 1 {
      SortedNewestFirst(r[1..]);
      forall i, j | 0 <= i < j < |r| ensures r[i].1 >= r[j].1 {
        if i > 0 {
          assert r[i] == r[1..][i - 1] && r[j] == r[1..][j - 1];
        } else {
          assert NewerFirst(r[0], r[1]) <= 0;
          if j > 1 { assert r[1] == r[1..][0] && r[j] == r[1..][j - 1]; }
        }
      }
    }
  }

  function Keys(entries: seq<(string, int)>): (r: seq<string>)
    ensures |r| == |entries| && forall i :: 0 <= i < |r| ==> r[i] == entries[i].0
  {
    seq(|entries|, i requires 0 <= i < |entries| => entries[i].0)
  }

  /**
   * `getRecent`: the queries newest first, the entries past the 30th removed
   * from the store last to first. `entries` is the store's contents in its
   * iteration order.
   */
  method GetRecent(entries: seq<(string, int)>) returns (result: seq<string>, removed: seq<string>)
    ensures |result| == if |entries| > MaxRecent then MaxRecent else |entries|
    ensures result == Keys(Ranked(entries))[..|result|]
    ensures |removed| == |entries| - |result|
    ensures forall j :: 0 <= j < |removed| ==> removed[j] == Ranked(entries)[|entries| - 1 - j].0
  {
    var keys := Keys(Ranked(entries));
    result := keys;
    removed := [];
    if |keys| > MaxRecent {
      var i := |keys| - 1;
      while i >= MaxRecent
        invariant MaxRecent - 1 <= i < |keys|
        invariant result == keys[..i + 1]
        invariant |removed| == |keys| - 1 - i
        invariant forall j :: 0 <= j < |removed| ==> removed[j] == keys[|keys| - 1 - j]
        decreases i
      {
        removed := removed + [result[i]];
        result := result[..i];
        i := i - 1;
      }
    }
  }
}

=== FILE: records.dfy ===
/**
 * The values that cross the engine interface: the request, the progress events
 * and final summary an engine reports, and the UI state the Java view model
 * publishes. Java's constructors turn a null list into the empty list.
 */
module Records {
  import opened Optional
  import opened Checked
  import opened GrepData

  /**
   * `SearchRequest`: the query text, the compiled pattern (as the predicate
   * "this line contains a match") and the preference lists an engine reads.
   */
  datatype SearchRequest = SearchRequest(
    query: string,
    matches: string -> bool,
    dirs: seq<CheckedString>,
    exts: seq<CheckedString>)

  /** `SearchProgress`: the counters so far and the matches new since the last event. */
  datatype Progress = Progress(query: string, filesProcessed: int, matchesFound: int, newMatches: seq<Data>)

  /** `SearchSummary`: the totals and every match in discovery order. */
  datatype Summary = Summary(query: string, totalFiles: int, totalMatches: int, allMatches: seq<Data>, durationMillis: int)

  /** The matches of a trace of events, in the order they were reported. */
  function Flatten(events: seq<Progress>): seq<Data> {
    if |events| == 0 then [] else Flatten(events[..|events| - 1]) + events[|events| - 1].newMatches
  }

  /** One more event adds its matches at the end. */
  lemma FlattenSnoc(a: seq<Progress>, e: Progress)
    ensures Flatten(a + [e]) == Flatten(a) + e.newMatches
  {
    assert (a + [e])[..|a|] == a;
  }

  lemma {:induction false} FlattenAppend(a: seq<Progress>, b: seq<Progress>)
    ensures Flatten(a + b) == Flatten(a) + Flatten(b)
    decreases |b|
  {
    if |b| > 0 {
      assert (a + b)[..|a + b| - 1] == a + b[..|b| - 1];
      FlattenAppend(a, b[..|b| - 1]);
    } else {
      assert a + b == a;
    }
  }

  /**
   * The batching rule every engine trace obeys: an event reporting fewer than
   * ten matches so far carries at most one new match.
   */
  predicate Batched(events: seq<Progress>) {
    forall i :: 0 <= i < |events| ==> (events[i].matchesFound < 10 ==> |events[i].newMatches| <= 1)
  }

  /** The `SearchProgress` constructor: the counters stored as given, a null list read as empty. */
  function NewProgress(query: string, files: int, matches: int, newMatches: Option<seq<Data>>): (p: Progress)
    ensures p.query == query && p.filesProcessed == files && p.matchesFound == matches
    ensures newMatches.None? ==> p.newMatches == []
    ensures newMatches.Some? ==> p.newMatches == newMatches.value
  {
    Progress(query, files, matches, newMatches.GetOr([]))
  }

  /** The `SearchSummary` constructor: totals and duration as given, a null list read as empty. */
  function NewSummary(query: string, files: int, matches: int, all: Option<seq<Data>>, duration: int): (s: Summary)
    ensures s.query == query && s.totalFiles == files && s.totalMatches == matches
    ensures s.durationMillis == duration
    ensures all.None? ==> s.allMatches == []
    ensures all.Some? ==> s.allMatches == all.value
  {
    Summary(query, files, matches, all.GetOr([]), duration)
  }

  // ---------------------------------------------------------------------------
  // SearchUiState of the Java view model

  datatype UiState = UiState(isSearching: bool, progress: Option<Progress>, summary: Option<Summary>, errorMessage: Option<string>)

  /** How many of the three payloads are present. */
  function Payloads(st: UiState): nat {
    (if st.progress.Some? then 1 else 0) + (if st.summary.Some? then 1 else 0)
    + (if st.errorMessage.Some? then 1 else 0)
  }

  function Idle(): (st: UiState)
    ensures !st.isSearching && Payloads(st) == 0
  {
    UiState(false, None, None, None)
  }

  function Searching(p: Option<Progress>): (st: UiState)
    ensures st.isSearching && st.progress == p && Payloads(st) <= 1
    ensures st.summary.None? && st.errorMessage.None?
  {
    UiState(true, p, None, None)
  }

  function Completed(s: Option<Summary>): (st: UiState)
    ensures !st.isSearching && st.summary == s && Payloads(st) <= 1
    ensures st.progress.None? && st.errorMessage.None?
  {
    UiState(false, None, s, None)
  }

  function Failed(message: Option<string>): (st: UiState)
    ensures !st.isSearching && st.errorMessage == message && Payloads(st) <= 1
    ensures st.progress.None? && st.summary.None?
  {
    UiState(false, None, None, message)
  }

  /** The states the four factories can build. */
  predicate Built(st: UiState) {
    st == Idle() || st == Searching(st.progress) || st == Completed(st.summary) || st == Failed(st.errorMessage)
  }

  /**
   * A built state carries at most one payload, and it is searching exactly
   * when `searching` built it.
   */
  lemma BuiltStates(st: UiState)
    requires Built(st)
    ensures Payloads(st) <= 1
    ensures st.isSearching <==> st == Searching(st.progress)
  {
  }
}

=== FILE: render.dfy ===
/**
 * What the newer search and viewer screens draw from their view model's state
 * (`renderState` in `Search.kt` and `TextViewer.kt`): the status line, which
 * parts are visible, the one-off toasts, the viewer's adapter, and the search
 * screen's handling of a new search intent.
 *
 * Both screens read the same five facts off their state: busy (searching or
 * loading), completed, cancelled, the status message and the error message.
 * The toasts are remembered in `lastCompleted`, `lastCancelled` and
 * `lastError`; the search screen checks finished, cancelled, error in that
 * order and the viewer error, cancelled, finished.
 */
module Render {
  import opened Optional
  import opened GrepData
  import SearchModels
  import ViewerModel
  import TextViewer

  datatype Flags = Flags(
    busy: bool,
    isCompleted: bool,
    isCancelled: bool,
    statusMessage: Option<string>,
    errorMessage: Option<string>)

  function SearchFlags(s: SearchModels.SearchState): Flags {
    Flags(s.isSearching, s.isCompleted, s.isCancelled, s.statusMessage, s.errorMessage)
  }

  function ViewerFlags(s: ViewerModel.ViewerState): Flags {
    Flags(s.isLoading, s.isCompleted, s.isCancelled, s.statusMessage, s.errorMessage)
  }

  // ---------------------------------------------------------------------------
  // The status line

  /** The text of the status line: a message, or one of the three fixed strings. */
  datatype Status = Message(text: string) | Spinner | CanceledText | FinishedText

  /**
   * The status line: an error wins; then, while busy, the status or the
   * spinner text; then the cancelled text; then, once completed, the status or
   * the finished text; else the status, or nothing.
   */
  function StatusLine(f: Flags): (r: Status)
    ensures f.errorMessage.Some? ==> r == Message(f.errorMessage.value)
    ensures r == Spinner <==> f.busy && f.statusMessage.None? && f.errorMessage.None?
    ensures r == CanceledText <==> f.errorMessage.None? && !f.busy && f.isCancelled
    ensures r == FinishedText <==>
      f.isCompleted && !f.busy && !f.isCancelled && f.statusMessage.None? && f.errorMessage.None?
    ensures r.Message? ==> Some(r.text) == f.errorMessage || Some(r.text) == f.statusMessage || r.text == ""
    ensures f.errorMessage.None? && f.statusMessage.Some? && !(f.isCancelled && !f.busy) ==>
      r == Message(f.statusMessage.value)
  {
    if f.errorMessage.Some? then Message(f.errorMessage.value)
    else if f.busy then (if f.statusMessage.Some? then Message(f.statusMessage.value) else Spinner)
    else if f.isCancelled then CanceledText
    else if f.isCompleted then (if f.statusMessage.Some? then Message(f.statusMessage.value) else FinishedText)
    else Message(f.statusMessage.GetOr(""))
  }

  /** The status container is shown when anything about the job is known. */
  predicate ContainerVisible(f: Flags) {
    f.busy || f.statusMessage.Some? || f.errorMessage.Some? || f.isCancelled || f.isCompleted
  }

  /** The progress bar is shown exactly while the job runs. */
  predicate ProgressVisible(f: Flags) {
    f.busy
  }

  /** A hidden container would have shown an empty line: hiding it loses nothing. */
  lemma HiddenShowsNothing(f: Flags)
    ensures !ContainerVisible(f) ==> StatusLine(f) == Message("")
    ensures ProgressVisible(f) ==> ContainerVisible(f)
  {
  }

  // ---------------------------------------------------------------------------
  // Toasts

  /** `lastCompleted`, `lastCancelled`, `lastError`. */
  datatype Memory = Memory(lastCompleted: bool, lastCancelled: bool, lastError: Option<string>)

  /** What both screens remember when they (re)start. */
  function Forgotten(): Memory {
    Memory(false, false, None)
  }

  datatype Toast = FinishedToast | CanceledToast | ErrorToast(message: string)

  datatype Rendered = Rendered(memory: Memory, toasts: seq<Toast>)

  function FinishedStep(m: Memory, f: Flags): (r: Rendered)
    ensures multiset(r.toasts)[FinishedToast] == if f.isCompleted && !m.lastCompleted then 1 else 0
    ensures multiset(r.toasts)[CanceledToast] == 0 && forall e :: ErrorToast(e) !in r.toasts
    ensures |r.toasts| <= 1 && r.memory == m.(lastCompleted := m.lastCompleted || f.isCompleted)
  {
    if f.isCompleted && !m.lastCompleted then Rendered(m.(lastCompleted := true), [FinishedToast])
    else Rendered(m, [])
  }

  function CanceledStep(m: Memory, f: Flags): (r: Rendered)
    ensures multiset(r.toasts)[CanceledToast] == if f.isCancelled && !m.lastCancelled then 1 else 0
    ensures multiset(r.toasts)[FinishedToast] == 0 && forall e :: ErrorToast(e) !in r.toasts
    ensures |r.toasts| <= 1 && r.memory == m.(lastCancelled := m.lastCancelled || f.isCancelled)
  {
    if f.isCancelled && !m.lastCancelled then Rendered(m.(lastCancelled := true), [CanceledToast])
    else Rendered(m, [])
  }

  function ErrorStep(m: Memory, f: Flags): (r: Rendered)
    ensures multiset(r.toasts)[FinishedToast] == 0 && multiset(r.toasts)[CanceledToast] == 0
    ensures forall e :: ErrorToast(e) in r.toasts <==> f.errorMessage == Some(e) && m.lastError != Some(e)
    ensures |r.toasts| <= 1
    ensures r.memory == m.(lastError := if f.errorMessage.Some? then f.errorMessage else m.lastError)
  {
    if f.errorMessage.Some? && f.errorMessage != m.lastError then
      Rendered(m.(lastError := f.errorMessage), [ErrorToast(f.errorMessage.value)])
    else Rendered(m, [])
  }

  function Then(a: Rendered, step: Rendered): (r: Rendered)
    ensures r.memory == step.memory && r.toasts == a.toasts + step.toasts
    ensures multiset(r.toasts) == multiset(a.toasts) + multiset(step.toasts)
    ensures forall x :: x in r.toasts <==> x in a.toasts || x in step.toasts
  {
    Rendered(step.memory, a.toasts + step.toasts)
  }

  /**
   * The toasts of one render: finished the first time the state is completed,
   * cancelled the first time it is cancelled, and an error whenever its
   * message differs from the last one shown; each remembered once shown.
   */
  function Toasts(m: Memory, f: Flags, errorFirst: bool): (r: Rendered)
    ensures multiset(r.toasts)[FinishedToast] == if f.isCompleted && !m.lastCompleted then 1 else 0
    ensures multiset(r.toasts)[CanceledToast] == if f.isCancelled && !m.lastCancelled then 1 else 0
    ensures forall e :: ErrorToast(e) in r.toasts <==> f.errorMessage == Some(e) && m.lastError != Some(e)
    ensures |r.toasts| <= 3
    ensures r.memory.lastCompleted == (m.lastCompleted || f.isCompleted)
    ensures r.memory.lastCancelled == (m.lastCancelled || f.isCancelled)
    ensures r.memory.lastError == if f.errorMessage.Some? then f.errorMessage else m.lastError
    ensures errorFirst && f.errorMessage.Some? && f.errorMessage != m.lastError ==>
      r.toasts[0] == ErrorToast(f.errorMessage.value)
    ensures !errorFirst && f.isCompleted && !m.lastCompleted ==> r.toasts[0] == FinishedToast
  {
    if errorFirst then
      var a := ErrorStep(m, f);
      var b := Then(a, CanceledStep(a.memory, f));
      Then(b, FinishedStep(b.memory, f))
    else
      var a := FinishedStep(m, f);
      var b := Then(a, CanceledStep(a.memory, f));
      Then(b, ErrorStep(b.memory, f))
  }

  /** Rendering the same state again shows no toast. */
  lemma ToastsSettle(m: Memory, f: Flags, errorFirst: bool)
    ensures Toasts(Toasts(m, f, errorFirst).memory, f, errorFirst).toasts == []
  {
  }

  /** Every render of a run of states, in order, from one memory. */
  function RenderTrace(m: Memory, fs: seq<Flags>, errorFirst: bool): Rendered
    decreases |fs|
  {
    if |fs| == 0 then Rendered(m, [])
    else
      var p := RenderTrace(m, fs[..|fs| - 1], errorFirst);
      Then(p, Toasts(p.memory, fs[|fs| - 1], errorFirst))
  }

  /**
   * However many states a screen renders, the finished and cancelled toasts
   * each appear at most once, and not at all when already remembered.
   */
  lemma {:induction false} OneToastPerTransition(m: Memory, fs: seq<Flags>, errorFirst: bool)
    ensures var r := RenderTrace(m, fs, errorFirst);
      multiset(r.toasts)[FinishedToast] <= (if m.lastCompleted then 0 else 1)
      && multiset(r.toasts)[CanceledToast] <= (if m.lastCancelled then 0 else 1)
      && (m.lastCompleted || multiset(r.toasts)[FinishedToast] > 0 ==> r.memory.lastCompleted)
      && (m.lastCancelled || multiset(r.toasts)[CanceledToast] > 0 ==> r.memory.lastCancelled)
    decreases |fs|
  {
    if |fs| > 0 {
      var p := RenderTrace(m, fs[..|fs| - 1], errorFirst);
      OneToastPerTransition(m, fs[..|fs| - 1], errorFirst);
      var q := Toasts(p.memory, fs[|fs| - 1], errorFirst);
      assert multiset(p.toasts + q.toasts) == multiset(p.toasts) + multiset(q.toasts);
    }
  }

  // ---------------------------------------------------------------------------
  // The two screens

  /** What the search screen shows for a state. */
  datatype SearchView = SearchView(rows: seq<Data>, scrollToTop: bool, container: bool, progress: bool, status: Status)

  /**
   * `Search.kt`'s `renderState`: the rows are the state's results, a
   * completed non-empty list scrolls to the top, and the status and toasts
   * follow the shared rules.
   */
  function RenderSearch(m: Memory, s: SearchModels.SearchState): (r: (SearchView, Rendered))
    ensures r.0.rows == s.results
    ensures r.0.scrollToTop <==> s.isCompleted && |s.results| > 0
    ensures r.0.progress <==> s.isSearching
    ensures r.0.status == StatusLine(SearchFlags(s)) && r.0.container == ContainerVisible(SearchFlags(s))
    ensures r.1 == Toasts(m, SearchFlags(s), false)
  {
    var f := SearchFlags(s);
    (SearchView(s.results, s.isCompleted && |s.results| > 0, ContainerVisible(f), ProgressVisible(f), StatusLine(f)),
     Toasts(m, f, false))
  }

  /** The viewer's memory: the toasts, and whether the adapter exists. */
  datatype ViewerMemory = ViewerMemory(toasts: Memory, adapterBuilt: bool)

  /** A new adapter: the lines to show and the row to scroll to. */
  datatype Adapter = Adapter(lines: seq<string>, scroll: Option<nat>)

  datatype ViewerRendered = ViewerRendered(memory: ViewerMemory, toasts: seq<Toast>, built: Option<Adapter>)

  /**
   * `TextViewer.kt`'s `renderState`: toasts error first; the adapter is built
   * from the lines the first time the state is completed, scrolling to the
   * requested line when it is above zero.
   */
  function RenderViewer(m: ViewerMemory, s: ViewerModel.ViewerState, line: int): (r: ViewerRendered)
    ensures r.built.Some? <==> s.isCompleted && !m.adapterBuilt
    ensures r.built.Some? ==> r.built.value.lines == s.lines && r.built.value.scroll == TextViewer.ScrollTarget(line)
    ensures r.memory.adapterBuilt == (m.adapterBuilt || s.isCompleted)
    ensures Rendered(r.memory.toasts, r.toasts) == Toasts(m.toasts, ViewerFlags(s), true)
  {
    var t := Toasts(m.toasts, ViewerFlags(s), true);
    var built := if s.isCompleted && !m.adapterBuilt then Some(Adapter(s.lines, TextViewer.ScrollTarget(line))) else None;
    ViewerRendered(ViewerMemory(t.memory, m.adapterBuilt || s.isCompleted), t.toasts, built)
  }

  /** The adapters built over a run of viewer states, in order. */
  function Builds(m: ViewerMemory, states: seq<ViewerModel.ViewerState>, line: int): (r: (ViewerMemory, seq<Adapter>))
    decreases |states|
  {
    if |states| == 0 then (m, [])
    else
      var p := Builds(m, states[..|states| - 1], line);
      var q := RenderViewer(p.0, states[|states| - 1], line);
      (q.memory, p.1 + (if q.built.Some? then [q.built.value] else []))
  }

  /** However many states the viewer renders, it builds at most one adapter, and none once it has one. */
  lemma {:induction false} AdapterBuiltOnce(m: ViewerMemory, states: seq<ViewerModel.ViewerState>, line: int)
    ensures |Builds(m, states, line).1| <= (if m.adapterBuilt then 0 else 1)
    ensures m.adapterBuilt || |Builds(m, states, line).1| > 0 ==> Builds(m, states, line).0.adapterBuilt
    decreases |states|
  {
    if |states| > 0 {
      AdapterBuiltOnce(m, states[..|states| - 1], line);
    }
  }

  // ---------------------------------------------------------------------------
  // A new search intent

  /** The parts of an intent `handleIntent` reads. */
  datatype SearchIntent = SearchIntent(isSearchAction: bool, hasExtras: bool, query: Option<string>)

  /**
   * Ignored (no intent, another action, no extras); the activity finished
   * (no query, an empty one, or no storage); the current results reused; or
   * a new search started.
   */
  datatype Handled =
    | Ignored
    | Closed
    | Reused(rows: seq<Data>, memory: Memory)
    | Started(state: SearchModels.SearchState, memory: Memory)

  /**
   * `handleIntent`: a search for the query the state already holds, running
   * or completed, is shown again from the state, with the toast memory taken
   * from it; anything else clears the screen and starts the search.
   */
  function HandleIntent(intent: Option<SearchIntent>, mounted: bool, current: SearchModels.SearchState): (r: Handled)
    ensures r.Ignored? <==> intent.None? || !intent.value.isSearchAction || !intent.value.hasExtras
    ensures r.Closed? <==> !r.Ignored? && (intent.value.query.None? || intent.value.query.value == "" || !mounted)
    ensures r.Reused? <==>
      !r.Ignored? && !r.Closed? && current.query == intent.value.query.value
      && (current.isSearching || current.isCompleted)
    ensures r.Reused? ==>
      r.rows == current.results && r.memory == Memory(current.isCompleted, current.isCancelled, current.errorMessage)
    ensures r.Started? ==>
      r.state == SearchModels.StartSearch(current, intent.value.query.value)
      && r.state == SearchModels.Fresh(intent.value.query.value) && r.memory == Forgotten()
  {
    match intent
    case None => Ignored
    case Some(i) =>
      if !i.isSearchAction || !i.hasExtras then Ignored
      else if i.query.None? || i.query.value == "" || !mounted then Closed
      else
        var q := i.query.value;
        if current.query == q && (current.isSearching || current.isCompleted) then
          Reused(current.results, Memory(current.isCompleted, current.isCancelled, current.errorMessage))
        else Started(SearchModels.StartSearch(current, q), Forgotten())
  }

  /** Showing a reused state again raises none of the toasts it had already raised. */
  lemma ReuseIsQuiet(intent: Option<SearchIntent>, mounted: bool, current: SearchModels.SearchState)
    requires intent.Some? && intent.value.isSearchAction && intent.value.hasExtras && mounted
    requires intent.value.query.Some? && intent.value.query.value != ""
    requires current.query == intent.value.query.value && (current.isSearching || current.isCompleted)
    ensures HandleIntent(intent, mounted, current).Reused?
    ensures Toasts(HandleIntent(intent, mounted, current).memory, SearchFlags(current), false).toasts == []
  {
  }
}

=== FILE: settings.dfy ===
/**
 * The two settings screens' list operations: adding an extension (or `*`, "no
 * extension"), adding a directory, the order the lists are shown in and the
 * label each row shows.
 *
 * The newer screen (`src/.../Settings.java`) compares and sorts by the value
 * ignoring case and takes directory paths from the path picker. The older one
 * (`app/.../Settings.java`) sorts by display name with missing names first and
 * takes directory tree URIs from the system picker.
 */
module Settings {
  import opened Optional
  import opened Text
  import opened Checked
  import Sorting

  const NoExtension := "*"

  // ---------------------------------------------------------------------------
  // The newer screen

  /** `o1.string.compareToIgnoreCase(o2.string)`. */
  function ValueOrder(a: CheckedString, b: CheckedString): int {
    CompareIgnoreCase(a.value.GetOr(""), b.value.GetOr(""))
  }

  lemma ValueOrderAntisymmetric()
    ensures Sorting.Antisymmetric(ValueOrder)
  {
    forall a: CheckedString, b: CheckedString ensures ValueOrder(a, b) == -ValueOrder(b, a) {
      CompareIgnoreCaseAntisymmetric(a.value.GetOr(""), b.value.GetOr(""));
    }
  }

  /** Entries tie exactly when their values are equal ignoring case, an equivalence. */
  lemma ValueOrderTiesTransitive()
    ensures Sorting.TiesTransitive(ValueOrder)
  {
    forall a: CheckedString, b: CheckedString, c: CheckedString | ValueOrder(a, b) == 0 && ValueOrder(a, c) == 0
      ensures ValueOrder(b, c) == 0
    {
      CompareIgnoreCaseTies(a.value.GetOr(""), b.value.GetOr(""), c.value.GetOr(""));
    }
  }

  /** A rearrangement of entries that all have a value has only entries with a value. */
  lemma ValuedPermutation(list: seq<CheckedString>, r: seq<CheckedString>)
    requires AllValued(list) && multiset(r) == multiset(list)
    ensures AllValued(r)
  {
    forall i | 0 <= i < |r| ensures r[i].value.Some? {
      assert r[i] in multiset(list);
      var j :| 0 <= j < |list| && list[j] == r[i];
    }
  }

  /** Some entry's value equals `s` ignoring case. */
  predicate HasCaseDuplicate(list: seq<CheckedString>, s: string)
    requires AllValued(list)
  {
    exists i :: 0 <= i < |list| && EqualsIgnoreCase(list[i].value.value, s)
  }

  /**
   * `addExtension`, and a picked directory path: an empty string or one equal
   * ignoring case to an entry already there changes nothing; otherwise one
   * enabled entry is added and the list sorted by value ignoring case.
   */
  function AddUnique(list: seq<CheckedString>, s: string): (r: seq<CheckedString>)
    requires AllValued(list)
    ensures AllValued(r)
    ensures s == "" || HasCaseDuplicate(list, s) ==> r == list
    ensures s != "" && !HasCaseDuplicate(list, s) ==>
      multiset(r) == multiset(list) + multiset{Enabled(Some(s))} && Sorting.SortedBy(ValueOrder, r)
      && Sorting.Stable(ValueOrder, list + [Enabled(Some(s))], r)
  {
    if s == "" || HasCaseDuplicate(list, s) then list
    else
      ValueOrderAntisymmetric();
      ValueOrderTiesTransitive();
      var r := Sorting.SortBy(ValueOrder, list + [Enabled(Some(s))]);
      ValuedPermutation(list + [Enabled(Some(s))], r);
      r
  }

  /** Adding the same text again changes nothing. */
  lemma AddUniqueIdempotent(list: seq<CheckedString>, s: string)
    requires AllValued(list)
    ensures AddUnique(AddUnique(list, s), s) == AddUnique(list, s)
  {
    var r := AddUnique(list, s);
    if s != "" && !HasCaseDuplicate(list, s) {
      assert Enabled(Some(s)) in multiset(r);
      var i :| 0 <= i < |r| && r[i] == Enabled(Some(s));
      assert EqualsIgnoreCase(r[i].value.value, s);
    }
  }

  /** The "no extension" button adds `*` through the same path, once. */
  lemma NoExtensionAddedOnce(list: seq<CheckedString>)
    requires AllValued(list)
    ensures var r := AddUnique(list, NoExtension);
      exists i :: 0 <= i < |r| && EqualsIgnoreCase(r[i].value.value, NoExtension)
  {
    var r := AddUnique(list, NoExtension);
    if !HasCaseDuplicate(list, NoExtension) {
      assert Enabled(Some(NoExtension)) in multiset(r);
      var i :| 0 <= i < |r| && r[i] == Enabled(Some(NoExtension));
    }
  }

  /** What the path picker returned. */
  datatype PickerResult = NotOk | NoData | Picked(path: Option<string>)

  /**
   * `handleDirectoryResult`: a result that is not OK, has no data or no path
   * changes nothing; a path is added as `addExtension` adds an extension.
   */
  function HandleDirectoryResult(list: seq<CheckedString>, result: PickerResult): (r: seq<CheckedString>)
    requires AllValued(list)
    ensures AllValued(r)
    ensures !(result.Picked? && result.path.Some?) ==> r == list
    ensures result.Picked? && result.path.Some? ==> r == AddUnique(list, result.path.value)
  {
    match result
    case Picked(Some(path)) => AddUnique(list, path)
    case _ => list
  }

  /**
   * `updateItems`: the adapter's own sorted copy, empty for a null list. The
   * list passed in is a value here, so the caller's order is untouched.
   */
  function UpdateItems(newItems: Option<seq<CheckedString>>): (items: seq<CheckedString>)
    ensures newItems.None? ==> items == []
    ensures newItems.Some? ==> multiset(items) == multiset(newItems.value) && Sorting.SortedBy(ValueOrder, items)
    ensures newItems.Some? ==> Sorting.Stable(ValueOrder, newItems.value, items)
  {
    ValueOrderAntisymmetric();
    ValueOrderTiesTransitive();
    if newItems.None? then [] else Sorting.SortBy(ValueOrder, newItems.value)
  }

  /** The text of a row: the "no extension" label, or a string (possibly null). */
  datatype Label = NoExtensionLabel | Text(text: Option<string>)

  /**
   * `bind`: `*` shows the "no extension" label in the extension list only;
   * every other row shows its value.
   */
  function BindLabel(data: CheckedString, labelNoExtension: bool): (r: Label)
    ensures r.NoExtensionLabel? <==> labelNoExtension && data.value == Some(NoExtension)
    ensures r.Text? ==> r.text == data.value
  {
    if labelNoExtension && data.value == Some(NoExtension) then NoExtensionLabel else Text(data.value)
  }

  // ---------------------------------------------------------------------------
  // The older screen

  /** The `setListItem` comparator: by display name ignoring case, missing names first. */
  function DisplayOrder(a: CheckedString, b: CheckedString): int {
    var n1, n2 := a.DisplayName(), b.DisplayName();
    if n1.None? then (if n2.None? then 0 else -1)
    else if n2.None? then 1
    else CompareIgnoreCase(n1.value, n2.value)
  }

  lemma DisplayOrderAntisymmetric()
    ensures Sorting.Antisymmetric(DisplayOrder)
  {
    forall a: CheckedString, b: CheckedString ensures DisplayOrder(a, b) == -DisplayOrder(b, a) {
      if a.DisplayName().Some? && b.DisplayName().Some? {
        CompareIgnoreCaseAntisymmetric(a.DisplayName().value, b.DisplayName().value);
      }
    }
  }

  /** Entries tie exactly when both lack a display name or both names are equal ignoring case. */
  lemma DisplayOrderTiesTransitive()
    ensures Sorting.TiesTransitive(DisplayOrder)
  {
    forall a: CheckedString, b: CheckedString, c: CheckedString | DisplayOrder(a, b) == 0 && DisplayOrder(a, c) == 0
      ensures DisplayOrder(b, c) == 0
    {
      if a.DisplayName().Some? && b.DisplayName().Some? && c.DisplayName().Some? {
        CompareIgnoreCaseTies(a.DisplayName().value, b.DisplayName().value, c.DisplayName().value);
      }
    }
  }

  /** Entries without a display name come before every entry with one. */
  lemma NamelessFirst(list: seq<CheckedString>, i: nat, j: nat)
    requires Sorting.SortedBy(DisplayOrder, list)
    requires i < |list| && j < |list| && list[i].DisplayName().None? && list[j].DisplayName().Some?
    ensures i < j
  {
    if j < i {
      NamelessFirstStep(list, j, i);
    }
  }

  lemma {:induction false} NamelessFirstStep(list: seq<CheckedString>, j: nat, i: nat)
    requires Sorting.SortedBy(DisplayOrder, list)
    requires j < i < |list| && list[j].DisplayName().Some?
    ensures list[i].DisplayName().Some?
    decreases i - j
  {
    if j + 1 < i {
      NamelessFirstStep(list, j, i - 1);
    }
    assert DisplayOrder(list[i - 1], list[i]) <= 0;
  }

  /**
   * `setListItem`: the list sorted in place by `DisplayOrder`; entries whose
   * names tie keep their order in the list, as `Collections.sort` is stable.
   */
  function SortForDisplay(list: seq<CheckedString>): (r: seq<CheckedString>)
    ensures multiset(r) == multiset(list) && Sorting.SortedBy(DisplayOrder, r)
    ensures Sorting.Stable(DisplayOrder, list, r)
  {
    DisplayOrderAntisymmetric();
    DisplayOrderTiesTransitive();
    Sorting.SortBy(DisplayOrder, list)
  }

  /**
   * The extension dialog's OK and "no extension" buttons: a non-empty text not
   * equal ignoring case to any entry is added, enabled; the list is then shown,
   * which sorts it.
   */
  function AddExtensionByName(list: seq<CheckedString>, ext: string): (r: seq<CheckedString>)
    requires AllValued(list)
    ensures AllValued(r)
    ensures ext == "" || HasCaseDuplicate(list, ext) ==> r == list
    ensures ext != "" && !HasCaseDuplicate(list, ext) ==>
      multiset(r) == multiset(list) + multiset{Enabled(Some(ext))} && Sorting.SortedBy(DisplayOrder, r)
      && Sorting.Stable(DisplayOrder, list + [Enabled(Some(ext))], r)
  {
    if ext == "" || HasCaseDuplicate(list, ext) then list
    else
      var r := SortForDisplay(list + [Enabled(Some(ext))]);
      ValuedPermutation(list + [Enabled(Some(ext))], r);
      r
  }

  /** What the system directory picker and the platform answered. */
  datatype Selection = Selection(
    uri: Option<string>,
    permissionGranted: bool,
    documentName: Option<string>,
    lastPathSegment: Option<string>)

  /** Some entry with a value holds exactly this URI. */
  predicate HasUri(list: seq<CheckedString>, uri: string) {
    exists i :: 0 <= i < |list| && list[i].HasValue() && list[i].value == Some(uri)
  }

  /** The name a new directory is shown under: the document name, the last path segment, the URI. */
  function DirectoryName(sel: Selection): (name: string)
    requires sel.uri.Some?
    ensures sel.documentName.Some? ==> name == sel.documentName.value
    ensures sel.documentName.None? && sel.lastPathSegment.Some? ==> name == sel.lastPathSegment.value
    ensures sel.documentName.None? && sel.lastPathSegment.None? ==> name == sel.uri.value
  {
    OrElse(sel.documentName, sel.lastPathSegment).GetOr(sel.uri.value)
  }

  /**
   * `handleDirectorySelection`: no URI, a refused permission, or a URI some
   * entry already holds exactly change nothing; otherwise an enabled entry for
   * the URI under `DirectoryName` is added and the list sorted for display.
   */
  function HandleDirectorySelection(list: seq<CheckedString>, sel: Selection): (r: seq<CheckedString>)
    ensures sel.uri.None? || !sel.permissionGranted || HasUri(list, sel.uri.value) ==> r == list
    ensures sel.uri.Some? && sel.permissionGranted && !HasUri(list, sel.uri.value) ==>
      multiset(r) == multiset(list) + multiset{Labelled(true, sel.uri, Some(DirectoryName(sel)))}
      && Sorting.SortedBy(DisplayOrder, r)
      && Sorting.Stable(DisplayOrder, list + [Labelled(true, sel.uri, Some(DirectoryName(sel)))], r)
  {
    if sel.uri.None? || !sel.permissionGranted || HasUri(list, sel.uri.value) then list
    else SortForDisplay(list + [Labelled(true, sel.uri, Some(DirectoryName(sel)))])
  }

  /** Selecting the same non-empty URI again changes nothing. */
  lemma SelectionIdempotent(list: seq<CheckedString>, sel: Selection)
    requires sel.uri.Some? && sel.uri.value != ""
    ensures HandleDirectorySelection(HandleDirectorySelection(list, sel), sel) == HandleDirectorySelection(list, sel)
  {
    var r := HandleDirectorySelection(list, sel);
    if sel.permissionGranted && !HasUri(list, sel.uri.value) {
      var added := Labelled(true, sel.uri, Some(DirectoryName(sel)));
      assert added in multiset(r);
      var i :| 0 <= i < |r| && r[i] == added;
      assert r[i].HasValue();
    }
  }

  /** A row of the older screen: `*` shows the "no extension" label, anything else its display name. */
  function ItemLabel(s: CheckedString): (r: Label)
    ensures r.NoExtensionLabel? <==> s.value == Some(NoExtension)
    ensures r.Text? ==> r.text == s.DisplayName()
  {
    if s.value == Some(NoExtension) then NoExtensionLabel else Text(s.DisplayName())
  }

  /** The older screen shows a named entry by its name where the newer one shows its value. */
  lemma LabelsDifferForNamedValues(s: CheckedString)
    requires s.value.Some? && s.value != Some(NoExtension) && s.name.Some? && s.name != s.value
    ensures ItemLabel(s) != BindLabel(s, true)
  {
  }
}

=== FILE: sorting.dfy ===
/**
 * `Collections.sort` and `Arrays.sort` with a `Comparator`: a stable sort whose
 * comparator returns a negative, zero or positive int. The model is an
 * insertion sort; for a comparator that is a total preorder the result of any
 * stable sort is the same sequence.
 */
module Sorting {

  /** `compare(a, b) == -compare(b, a)`, which every comparator of the source satisfies. */
  ghost predicate Antisymmetric<T(!new)>(cmp: (T, T) -> int) {
    forall a, b :: cmp(a, b) == -cmp(b, a)
  }

  /** Every element is ordered before or with its successor. */
  predicate SortedBy<T>(cmp: (T, T) -> int, s: seq<T>) {
    forall i :: 0 < i < |s| ==> cmp(s[i - 1], s[i]) <= 0
  }

  /**
   * `x` placed before the first element it does not follow; the elements equal
   * to `x` that come after it stay after it, which keeps the sort stable.
   */
  function InsertBy<T(!new)>(cmp: (T, T) -> int, x: T, s: seq<T>): (r: seq<T>)
    requires Antisymmetric(cmp)
    ensures multiset(r) == multiset(s) + multiset{x}
    ensures |r| == |s| + 1
    ensures r[0] == x || (|s| > 0 && r[0] == s[0])
    ensures SortedBy(cmp, s) ==> SortedBy(cmp, r)
  {
    if |s| == 0 then [x]
    else if cmp(x, s[0]) <= 0 then [x] + s
    else
      assert s == [s[0]] + s[1..];
      var rest := InsertBy(cmp, x, s[1..]);
      assert cmp(s[0], x) <= 0;
      if SortedBy(cmp, s) then
        assert |s| > 1 ==> cmp(s[0], s[1]) <= 0;
        SortedCons(cmp, s[0], rest);
        [s[0]] + rest
      else [s[0]] + rest
  }

  /** An element ordered before the head of a sorted sequence can go in front of it. */
  lemma SortedCons<T>(cmp: (T, T) -> int, h: T, t: seq<T>)
    requires SortedBy(cmp, t) && (|t| > 0 ==> cmp(h, t[0]) <= 0)
    ensures SortedBy(cmp, [h] + t)
  {
    var r := [h] + t;
    forall i | 1 < i < |r| ensures cmp(r[i - 1], r[i]) <= 0 {
      assert r[i - 1] == t[i - 2] && r[i] == t[i - 1];
    }
  }

  // ---------------------------------------------------------------------------
  // Stability

  /** The elements of `s` the comparator ties with `x`, in their order in `s`. */
  function Ties<T>(cmp: (T, T) -> int, x: T, s: seq<T>): (r: seq<T>)
    ensures |r| <= |s|
    ensures forall i :: 0 <= i < |r| ==> cmp(x, r[i]) == 0
  {
    if |s| == 0 then []
    else (if cmp(x, s[0]) == 0 then [s[0]] else []) + Ties(cmp, x, s[1..])
  }

  lemma TiesCons<T>(cmp: (T, T) -> int, x: T, h: T, t: seq<T>)
    ensures Ties(cmp, x, [h] + t) == (if cmp(x, h) == 0 then [h] else []) + Ties(cmp, x, t)
  {
    assert ([h] + t)[1..] == t;
  }

  /**
   * Two elements tied with a third are tied with each other, so "compares as
   * zero" is an equivalence and its classes are what a stable sort keeps in order.
   */
  ghost predicate TiesTransitive<T(!new)>(cmp: (T, T) -> int) {
    forall a, b, c :: cmp(a, b) == 0 && cmp(a, c) == 0 ==> cmp(b, c) == 0
  }

  /** `r` keeps every class of tied elements of `s` in the order it has in `s`. */
  ghost predicate Stable<T(!new)>(cmp: (T, T) -> int, s: seq<T>, r: seq<T>) {
    forall x :: Ties(cmp, x, r) == Ties(cmp, x, s)
  }

  /** Whatever is tied with `x` is tied with `h`, when `h` is tied with `x`. */
  ghost predicate TiedThrough<T(!new)>(cmp: (T, T) -> int, x: T, h: T) {
    forall e :: cmp(x, h) == 0 && cmp(x, e) == 0 ==> cmp(h, e) == 0
  }

  /** Inserting `h` passes only elements `h` is not tied with, so no class changes order. */
  lemma {:induction false} InsertByTies<T(!new)>(cmp: (T, T) -> int, h: T, t: seq<T>, x: T)
    requires Antisymmetric(cmp) && TiedThrough(cmp, x, h)
    ensures Ties(cmp, x, InsertBy(cmp, h, t)) == Ties(cmp, x, [h] + t)
    decreases |t|
  {
    if |t| == 0 || cmp(h, t[0]) <= 0 {
      assert InsertBy(cmp, h, t) == [h] + t;
    } else {
      InsertByTies(cmp, h, t[1..], x);
      InsertByPasses(cmp, h, t);
      PassTies(cmp, h, t, InsertBy(cmp, h, t[1..]), x);
    }
  }

  /**
   * `h` moved past the head of `t`: the two are not both tied with `x`, so
   * swapping them leaves the tie class of `x` as it was.
   */
  lemma PassTies<T>(cmp: (T, T) -> int, h: T, t: seq<T>, rest: seq<T>, x: T)
    requires |t| > 0 && !(cmp(x, h) == 0 && cmp(x, t[0]) == 0)
    requires Ties(cmp, x, rest) == Ties(cmp, x, [h] + t[1..])
    ensures Ties(cmp, x, [t[0]] + rest) == Ties(cmp, x, [h] + t)
  {
    TiesCons(cmp, x, t[0], rest);
    TiesCons(cmp, x, h, t[1..]);
    TiesCons(cmp, x, t[0], t[1..]);
    TiesCons(cmp, x, h, t);
    assert t == [t[0]] + t[1..];
    var tail := Ties(cmp, x, t[1..]);
    if cmp(x, h) == 0 {
      assert Ties(cmp, x, [t[0]] + rest) == [h] + tail;
    } else if cmp(x, t[0]) == 0 {
      assert Ties(cmp, x, [t[0]] + rest) == [t[0]] + tail;
    } else {
      assert Ties(cmp, x, [t[0]] + rest) == tail;
    }
  }

  /** An element placed after the head of `t` is inserted into the rest of `t`. */
  lemma InsertByPasses<T(!new)>(cmp: (T, T) -> int, h: T, t: seq<T>)
    requires Antisymmetric(cmp) && |t| > 0 && cmp(h, t[0]) > 0
    ensures InsertBy(cmp, h, t) == [t[0]] + InsertBy(cmp, h, t[1..])
  {
  }

  /** Every element ties with itself, so equal tie classes mean equal elements, counted alike. */
  lemma {:induction false} TiesCount<T(!new)>(cmp: (T, T) -> int, x: T, s: seq<T>)
    requires Antisymmetric(cmp)
    ensures multiset(Ties(cmp, x, s))[x] == multiset(s)[x]
    decreases |s|
  {
    if |s| > 0 {
      assert cmp(x, x) == -cmp(x, x);
      assert s == [s[0]] + s[1..];
      TiesCount(cmp, x, s[1..]);
    }
  }

  /** A stable rearrangement holds the same elements as the original. */
  lemma StablePermutation<T(!new)>(cmp: (T, T) -> int, s: seq<T>, r: seq<T>)
    requires Antisymmetric(cmp) && Stable(cmp, s, r)
    ensures multiset(r) == multiset(s)
  {
    forall x ensures multiset(r)[x] == multiset(s)[x] {
      TiesCount(cmp, x, r);
      TiesCount(cmp, x, s);
    }
  }

  // ---------------------------------------------------------------------------
  // Sorting

  /**
   * The elements of `s`, rearranged in comparator order; when ties are an
   * equivalence, tied elements keep their order in `s`, as a stable sort does.
   */
  function SortBy<T(!new)>(cmp: (T, T) -> int, s: seq<T>): (r: seq<T>)
    requires Antisymmetric(cmp)
    ensures multiset(r) == multiset(s)
    ensures |r| == |s|
    ensures SortedBy(cmp, r)
    ensures TiesTransitive(cmp) ==> Stable(cmp, s, r)
  {
    if |s| == 0 then []
    else
      assert s == [s[0]] + s[1..];
      var rest := SortBy(cmp, s[1..]);
      InsertStable(cmp, s, rest);
      InsertBy(cmp, s[0], rest)
  }

  /** One insertion step of the sort keeps it stable. */
  lemma InsertStable<T(!new)>(cmp: (T, T) -> int, s: seq<T>, rest: seq<T>)
    requires Antisymmetric(cmp) && |s| > 0
    requires TiesTransitive(cmp) ==> Stable(cmp, s[1..], rest)
    ensures TiesTransitive(cmp) ==> Stable(cmp, s, InsertBy(cmp, s[0], rest))
  {
    if TiesTransitive(cmp) {
      forall x ensures Ties(cmp, x, InsertBy(cmp, s[0], rest)) == Ties(cmp, x, s) {
        assert TiedThrough(cmp, x, s[0]);
        InsertByTies(cmp, s[0], rest, x);
        TiesCons(cmp, x, s[0], rest);
        TiesCons(cmp, x, s[0], s[1..]);
        assert s == [s[0]] + s[1..];
      }
    }
  }
}

=== FILE: text.dfy ===
/**
 * String operations of the Java and Kotlin runtimes that the application relies
 * on, written out with their library semantics: case folding, suffix tests,
 * `lastIndexOf`, `String.split` with a one-character separator, decimal
 * rendering and `Integer.parseInt`.
 */
module Text {
  import opened Optional

  // ---------------------------------------------------------------------------
  // Case folding

  /**
   * One character folded for case-insensitive comparison. Java folds with
   * `Character.toLowerCase(Character.toUpperCase(c))`; this model folds the
   * ASCII letters only.
   */
  function FoldChar(c: char): char {
    if 'A' <= c <= 'Z' then (c as int + 32) as char else c
  }

  /** `toLowerCase` over the folded alphabet. */
  function Lower(s: string): (r: string)
    ensures |r| == |s|
  {
    seq(|s|, i requires 0 <= i < |s| => FoldChar(s[i]))
  }

  /** `String.equalsIgnoreCase` for non-null strings. */
  predicate EqualsIgnoreCase(a: string, b: string) {
    Lower(a) == Lower(b)
  }

  /**
   * `String.compareToIgnoreCase`: the difference of the first pair of folded
   * characters that differ, else the difference of the lengths.
   */
  function CompareIgnoreCase(a: string, b: string): int
    decreases |a|
  {
    if |a| == 0 || |b| == 0 then |a| - |b|
    else if FoldChar(a[0]) != FoldChar(b[0]) then FoldChar(a[0]) as int - FoldChar(b[0]) as int
    else CompareIgnoreCase(a[1..], b[1..])
  }

  /** Swapping the operands negates the result, as `compareToIgnoreCase` does. */
  lemma {:induction false} CompareIgnoreCaseAntisymmetric(a: string, b: string)
    ensures CompareIgnoreCase(b, a) == -CompareIgnoreCase(a, b)
    decreases |a|
  {
    if |a| > 0 && |b| > 0 && FoldChar(a[0]) == FoldChar(b[0]) {
      CompareIgnoreCaseAntisymmetric(a[1..], b[1..]);
    }
  }

  /** The comparison is zero exactly for strings equal ignoring case. */
  lemma {:induction false} CompareIgnoreCaseZero(a: string, b: string)
    ensures CompareIgnoreCase(a, b) == 0 <==> EqualsIgnoreCase(a, b)
    decreases |a|
  {
    if |a| > 0 && |b| > 0 {
      CompareIgnoreCaseZero(a[1..], b[1..]);
      assert Lower(a) == [FoldChar(a[0])] + Lower(a[1..]);
      assert Lower(b) == [FoldChar(b[0])] + Lower(b[1..]);
      if FoldChar(a[0]) != FoldChar(b[0]) {
        assert Lower(a)[0] != Lower(b)[0];
      } else {
        assert Lower(a) == Lower(b) <==> Lower(a[1..]) == Lower(b[1..]) by {
          if Lower(a) == Lower(b) {
            assert Lower(a)[1..] == Lower(b)[1..];
          }
        }
      }
    } else if |a| == 0 && |b| > 0 {
      assert |Lower(a)| != |Lower(b)|;
    } else if |a| > 0 && |b| == 0 {
      assert |Lower(a)| != |Lower(b)|;
    }
  }

  /** Case-insensitive order is transitive, so it can drive a sort. */
  lemma {:induction false} CompareIgnoreCaseTransitive(a: string, b: string, c: string)
    requires CompareIgnoreCase(a, b) <= 0 && CompareIgnoreCase(b, c) <= 0
    ensures CompareIgnoreCase(a, c) <= 0
    decreases |a|
  {
    if |a| > 0 && |b| > 0 && |c| > 0
      && FoldChar(a[0]) == FoldChar(b[0]) && FoldChar(b[0]) == FoldChar(c[0]) {
      CompareIgnoreCaseTransitive(a[1..], b[1..], c[1..]);
    }
  }

  /** Two strings equal ignoring case to a third are equal ignoring case to each other. */
  lemma CompareIgnoreCaseTies(a: string, b: string, c: string)
    requires CompareIgnoreCase(a, b) == 0 && CompareIgnoreCase(a, c) == 0
    ensures CompareIgnoreCase(b, c) == 0
  {
    CompareIgnoreCaseZero(a, b);
    CompareIgnoreCaseZero(a, c);
    CompareIgnoreCaseZero(b, c);
  }

  // ---------------------------------------------------------------------------
  // Searching

  /** `s.endsWith(suffix)`. */
  predicate EndsWith(s: string, suffix: string) {
    |suffix| <= |s| && s[|s| - |suffix|..] == suffix
  }

  /** `s.lastIndexOf(c)`: the greatest index holding `c`, or -1. */
  function LastIndexOf(s: string, c: char): (r: int)
    ensures -1 <= r < |s|
    ensures r >= 0 ==> s[r] == c
    ensures forall k :: r < k < |s| ==> s[k] != c
    ensures r == -1 <==> c !in s
  {
    if |s| == 0 then -1
    else if s[|s| - 1] == c then |s| - 1
    else LastIndexOf(s[..|s| - 1], c)
  }

  /** The index holding `c` with no `c` after it is the last index of `c`. */
  lemma LastIndexOfAt(s: string, c: char, k: nat)
    requires k < |s| && s[k] == c && c !in s[k + 1..]
    ensures LastIndexOf(s, c) == k
  {
    forall j | k < j < |s| ensures s[j] != c {
      assert s[j] == s[k + 1..][j - k - 1];
    }
  }

  /** Every occurrence of `from` replaced by `to` (`String.replace` of one character). */
  function ReplaceChar(s: string, from: char, to: char): (r: string)
    ensures |r| == |s|
  {
    seq(|s|, i requires 0 <= i < |s| => if s[i] == from then to else s[i])
  }

  // ---------------------------------------------------------------------------
  // Splitting and joining on a one-character separator

  /** Every field between separators, empty ones included. */
  function SplitAll(s: string, sep: char): (r: seq<string>)
    ensures |r| >= 1
    ensures forall i :: 0 <= i < |r| ==> sep !in r[i]
    decreases |s|
  {
    if |s| == 0 then [""]
    else
      var rest := SplitAll(s[1..], sep);
      if s[0] == sep then [""] + rest
      else [[s[0]] + rest[0]] + rest[1..]
  }

  /** Drops the empty strings at the end, as `String.split` does. */
  function StripTrailingEmpty(fields: seq<string>): (r: seq<string>)
    ensures r <= fields
    ensures |r| > 0 ==> r[|r| - 1] != ""
    ensures forall k :: |r| <= k < |fields| ==> fields[k] == ""
  {
    if |fields| == 0 then []
    else if fields[|fields| - 1] == "" then StripTrailingEmpty(fields[..|fields| - 1])
    else fields
  }

  /**
   * `s.split("\\|")` for the separator `sep`: no separator gives `[s]`, else the
   * fields with the trailing empty ones removed.
   */
  function JavaSplit(s: string, sep: char): seq<string> {
    if sep !in s then [s] else StripTrailingEmpty(SplitAll(s, sep))
  }

  /** The fields joined with `sep` between consecutive ones. */
  function Join(parts: seq<string>, sep: char): string {
    if |parts| == 0 then ""
    else if |parts| == 1 then parts[0]
    else parts[0] + [sep] + Join(parts[1..], sep)
  }

  lemma {:induction false} SplitAllPrefix(a: string, b: string, sep: char)
    requires sep !in a
    ensures SplitAll(a + b, sep) == [a + SplitAll(b, sep)[0]] + SplitAll(b, sep)[1..]
    decreases |a|
  {
    if |a| > 0 {
      assert (a + b)[1..] == a[1..] + b;
      SplitAllPrefix(a[1..], b, sep);
      assert [a[0]] + (a[1..] + SplitAll(b, sep)[0]) == a + SplitAll(b, sep)[0];
    } else {
      assert a + b == b;
      assert a + SplitAll(b, sep)[0] == SplitAll(b, sep)[0];
      assert [SplitAll(b, sep)[0]] + SplitAll(b, sep)[1..] == SplitAll(b, sep);
    }
  }

  /** Splitting a join gives the fields back when no field holds the separator. */
  lemma {:induction false} SplitAllJoin(parts: seq<string>, sep: char)
    requires |parts| >= 1
    requires forall i :: 0 <= i < |parts| ==> sep !in parts[i]
    ensures SplitAll(Join(parts, sep), sep) == parts
    decreases |parts|
  {
    if |parts| == 1 {
      SplitAllPrefix(parts[0], "", sep);
      assert parts[0] + "" == parts[0];
    } else {
      var tail := Join(parts[1..], sep);
      SplitAllJoin(parts[1..], sep);
      assert Join(parts, sep) == parts[0] + ([sep] + tail);
      SplitAllPrefix(parts[0], [sep] + tail, sep);
      assert ([sep] + tail)[1..] == tail;
      assert SplitAll([sep] + tail, sep) == [""] + parts[1..];
      assert parts[0] + "" == parts[0];
    }
  }

  // ---------------------------------------------------------------------------
  // Decimal numbers

  function DigitChar(d: nat): char
    requires d < 10
  {
    ('0' as int + d) as char
  }

  predicate IsDigit(c: char) {
    '0' <= c <= '9'
  }

  /** The decimal digits of `n`, most significant first, no leading zero. */
  function NatToString(n: nat): (r: string)
    ensures |r| >= 1
    ensures forall i :: 0 <= i < |r| ==> IsDigit(r[i])
  {
    if n < 10 then [DigitChar(n)] else NatToString(n / 10) + [DigitChar(n % 10)]
  }

  /** `Integer.toString` / Kotlin string templates of an integer. */
  function IntToString(n: int): string {
    if n < 0 then "-" + NatToString(-n) else NatToString(n)
  }

  /** The value of a string of decimal digits. */
  function DigitsValue(s: string): nat
    requires forall i :: 0 <= i < |s| ==> IsDigit(s[i])
  {
    if |s| == 0 then 0
    else
      var d := s[|s| - 1] as int - '0' as int;
      assert IsDigit(s[|s| - 1]);
      10 * DigitsValue(s[..|s| - 1]) + d
  }

  const IntMin: int := -0x8000_0000
  const IntMax: int := 0x7fff_ffff

  /**
   * `Integer.parseInt`: an optional sign, then one or more ASCII decimal
   * digits, and a value within the 32-bit range; anything else is a
   * NumberFormatException, written None. The other Unicode decimal digits
   * Java also accepts are not modelled.
   */
  function ParseInt(s: string): (r: Option<int>)
    ensures r.Some? ==> IntMin <= r.value <= IntMax
  {
    var neg := |s| > 0 && s[0] == '-';
    var body := if |s| > 0 && (s[0] == '-' || s[0] == '+') then s[1..] else s;
    if |body| == 0 || !(forall i :: 0 <= i < |body| ==> IsDigit(body[i])) then None
    else
      var m: int := DigitsValue(body);
      var v: int := if neg then -m else m;
      if IntMin <= v <= IntMax then Some(v) else None
  }

  lemma {:induction false} DigitsValueOfNatToString(n: nat)
    ensures DigitsValue(NatToString(n)) == n
  {
    if n >= 10 {
      DigitsValueOfNatToString(n / 10);
      var s := NatToString(n);
      assert s[..|s| - 1] == NatToString(n / 10);
    }
  }

  /** Parsing the rendering of a 32-bit integer gives it back. */
  lemma ParseIntOfIntToString(n: int)
    requires IntMin <= n <= IntMax
    ensures ParseInt(IntToString(n)) == Some(n)
  {
    var digits := NatToString(if n < 0 then -n else n);
    DigitsValueOfNatToString(if n < 0 then -n else n);
    assert IsDigit(digits[0]);
    if n < 0 {
      assert IntToString(n)[1..] == digits;
    } else {
      assert IntToString(n) == digits;
    }
  }
}

=== FILE: text_viewer.dfy ===
/**
 * The text viewer's pure decisions: the name and extension of the copy it
 * shares (`app/.../TextViewer.java`), the highlight pattern it prepares from
 * the query, the line it scrolls to, the checks on the extras it is started
 * with (`TextViewer.kt`), and the text of the URI it hands to an external
 * viewer.
 */
module TextViewer {
  import opened Optional
  import opened Text
  import opened Pattern

  // ---------------------------------------------------------------------------
  // The shared copy's name

  /** The path without its trailing separators, as `java.io.File` normalises it. */
  function StripTrailingSlashes(p: string): (r: string)
    ensures |r| <= |p| && r == p[..|r|]
    ensures |r| == 0 || r[|r| - 1] != '/'
    ensures forall i :: |r| <= i < |p| ==> p[i] == '/'
  {
    if |p| > 0 && p[|p| - 1] == '/' then StripTrailingSlashes(p[..|p| - 1]) else p
  }

  /** Nothing is left after stripping exactly when the path is all separators. */
  predicate AllSlashes(p: string) {
    forall i :: 0 <= i < |p| ==> p[i] == '/'
  }

  lemma StripLeavesNothing(p: string)
    ensures StripTrailingSlashes(p) == "" <==> AllSlashes(p)
  {
  }

  /**
   * `new File(p).getName()`: the last segment of the normalised path; empty
   * exactly when the path is nothing but separators.
   */
  function FileName(p: string): (r: string)
    ensures '/' !in r
    ensures r == "" <==> AllSlashes(p)
    ensures EndsWith(StripTrailingSlashes(p), r)
  {
    var q := StripTrailingSlashes(p);
    var k := LastIndexOf(q, '/');
    StripLeavesNothing(p);
    var r := q[k + 1..];
    forall j | 0 <= j < |r| ensures r[j] != '/' {
      assert r[j] == q[k + 1 + j];
    }
    r
  }

  /** The name of the copy when nothing else names it. */
  const SharedName := "shared.txt"

  lemma SharedNameIsName()
    ensures SharedName != "" && '/' !in SharedName
  {
    assert forall i :: 0 <= i < |SharedName| ==> SharedName[i] != '/';
  }

  /** The scheme for which the source's own path names the copy: `file`, or none. */
  predicate FileScheme(scheme: Option<string>) {
    scheme.None? || scheme == Some("file")
  }

  /**
   * `prepareSharedUri`'s base name: the name of the viewed path; failing that,
   * for a `file` (or scheme-less) source, the name of the source's path;
   * failing that, `SharedName`.
   */
  function ShareBaseName(path: Option<string>, scheme: Option<string>, sourcePath: string): (r: string)
    ensures r != "" && '/' !in r
    ensures FileName(path.GetOr("")) != "" ==> r == FileName(path.GetOr(""))
    ensures FileName(path.GetOr("")) == "" && FileScheme(scheme) && FileName(sourcePath) != "" ==>
      r == FileName(sourcePath)
    ensures FileName(path.GetOr("")) == "" && (!FileScheme(scheme) || FileName(sourcePath) == "") ==>
      r == SharedName
  {
    SharedNameIsName();
    var fromPath := FileName(path.GetOr(""));
    var fromSource := if fromPath == "" && FileScheme(scheme) then FileName(sourcePath) else fromPath;
    if fromSource == "" then SharedName else fromSource
  }

  /** The last dot of `base` has a character after it: there is a dot, and the name does not end in one. */
  predicate HasExtension(base: string) {
    '.' in base && base[|base| - 1] != '.'
  }

  /** A dot, then at least one character, none of them a dot. */
  predicate IsExtension(e: string) {
    |e| >= 2 && e[0] == '.' && forall j :: 1 <= j < |e| ==> e[j] != '.'
  }

  /**
   * The suffix of the temporary copy: from the last dot of the base name when
   * a character follows it, else `.txt`.
   */
  function ShareExtension(base: string): (r: string)
    ensures IsExtension(r)
    ensures HasExtension(base) ==> EndsWith(base, r)
    ensures !HasExtension(base) ==> r == ".txt"
  {
    var dot := LastIndexOf(base, '.');
    if 0 <= dot < |base| - 1 then
      DotSuffix(base, dot);
      base[dot..]
    else
      NoExtensionPastLastDot(base, dot);
      ".txt"
  }

  lemma DotSuffix(base: string, dot: nat)
    requires dot < |base| - 1 && base[dot] == '.'
    requires forall k :: dot < k < |base| ==> base[k] != '.'
    ensures IsExtension(base[dot..]) && HasExtension(base) && EndsWith(base, base[dot..])
  {
    var r := base[dot..];
    forall j | 1 <= j < |r| ensures r[j] != '.' {
      assert r[j] == base[dot + j];
    }
    assert base[|base| - 1] != '.';
  }

  lemma NoExtensionPastLastDot(base: string, dot: int)
    requires dot == LastIndexOf(base, '.') && !(0 <= dot < |base| - 1)
    ensures !HasExtension(base)
  {
  }

  /** A stem followed by a dot and a dot-free word gives that dot and word back. */
  lemma ShareExtensionOfName(stem: string, word: string)
    requires word != "" && '.' !in word
    ensures ShareExtension(stem + "." + word) == "." + word
  {
    var base := stem + "." + word;
    assert base[|stem| + 1..] == word;
    LastIndexOfAt(base, '.', |stem|);
    assert base[|stem|..] == "." + word;
  }

  lemma ShareNameExamples()
    ensures ShareExtension(SharedName) == ".txt"
    ensures ShareExtension("notes.") == ".txt"
    ensures ShareExtension("archive.tar.gz") == ".gz"
  {
    assert SharedName == "shared" + "." + "txt";
    ShareExtensionOfName("shared", "txt");
    assert "archive.tar.gz" == "archive.tar" + "." + "gz";
    ShareExtensionOfName("archive.tar", "gz");
    assert !HasExtension("notes.");
  }

  // ---------------------------------------------------------------------------
  // The highlight pattern

  /**
   * The older viewer's `handleIntent`: no query becomes the empty text; a query
   * is escaped unless regular expressions are on, so it reads back as exactly
   * its own characters.
   */
  function JavaPatternText(regex: bool, query: Option<string>): (r: string)
    ensures query.None? ==> r == ""
    ensures query.Some? && regex ==> r == query.value
    ensures query.Some? && !regex ==> ReadAtoms(r) == Some(Literals(query.value)) && |r| >= |query.value|
  {
    match query
    case None => ""
    case Some(q) =>
      if regex then q
      else
        EscapeReadsLiterally(q);
        Escape(q)
  }

  /** `TextViewer.kt`: the query defaults to the empty text and is escaped unless regular expressions are on. */
  function KotlinPatternText(regex: bool, query: string): (r: string)
    ensures regex ==> r == query
    ensures !regex ==> ReadAtoms(r) == Some(Literals(query))
  {
    if regex then query
    else
      EscapeReadsLiterally(query);
      Escape(query)
  }

  /** Both viewers prepare the same pattern text, reading a missing query as empty. */
  lemma SamePatternText(regex: bool, query: Option<string>)
    ensures JavaPatternText(regex, query) == KotlinPatternText(regex, query.GetOr(""))
  {
  }

  /** `onPostExecute`: an empty pattern text compiles to no pattern at all. */
  function HighlightPattern(text: string): (r: Option<string>)
    ensures r.None? <==> text == ""
    ensures r.Some? ==> r.value == text
  {
    if text == "" then None else Some(text)
  }

  /** The older viewer highlights exactly when it was given a non-empty query. */
  lemma HighlightIffQuery(regex: bool, query: Option<string>)
    ensures HighlightPattern(JavaPatternText(regex, query)).Some? <==> query.Some? && query.value != ""
  {
  }

  /** Both viewers: a line above zero scrolls to the row before it; nothing else scrolls. */
  function ScrollTarget(line: int): (r: Option<nat>)
    ensures r.Some? <==> line > 0
    ensures r.Some? ==> r.value + 1 == line
  {
    if line > 0 then Some(line - 1) else None
  }

  // ---------------------------------------------------------------------------
  // Starting the newer viewer

  /** The extras the viewer is started with; each may be missing. */
  datatype Extras = Extras(path: Option<string>, query: Option<string>, line: Option<int>)

  /** What `onCreate` does: finish at once, or load `path` and highlight `pattern`. */
  datatype Start = Finish | Load(path: string, pattern: string, line: int)

  /**
   * `onCreate`: no extras or no path finishes the activity; otherwise the path
   * is loaded, the query (empty when missing) prepared, and the line read (0
   * when missing).
   */
  function OpenViewer(extras: Option<Extras>, regex: bool): (r: Start)
    ensures r.Finish? <==> extras.None? || extras.value.path.None?
    ensures r.Load? ==>
      r.path == extras.value.path.value && r.line == extras.value.line.GetOr(0)
      && (regex ==> r.pattern == extras.value.query.GetOr(""))
      && (!regex ==> ReadAtoms(r.pattern) == Some(Literals(extras.value.query.GetOr(""))))
  {
    match extras
    case None => Finish
    case Some(e) =>
      match e.path
      case None => Finish
      case Some(p) => Load(p, KotlinPatternText(regex, e.query.GetOr("")), e.line.GetOr(0))
  }

  // ---------------------------------------------------------------------------
  // Handing the file to another viewer

  const FilePrefix := "file://"
  const LineQuery := "?line="

  /**
   * The URI text for an external viewer: `file://` and the path, then, when
   * line numbers are on, `?line=` and the one-based row, which reads back as
   * that row.
   */
  function ViewerUri(path: string, addLineNumber: bool, position: int): (r: string)
    ensures |r| >= |FilePrefix| + |path| && r[..|FilePrefix| + |path|] == FilePrefix + path
    ensures !addLineNumber ==> |r| == |FilePrefix| + |path|
    ensures addLineNumber ==>
      var at := |FilePrefix| + |path|;
      |r| > at + |LineQuery| && r[at..at + |LineQuery|] == LineQuery
      && (IntMin <= position + 1 <= IntMax ==> ParseInt(r[at + |LineQuery|..]) == Some(position + 1))
  {
    if !addLineNumber then FilePrefix + path
    else
      var r := FilePrefix + path + LineQuery + IntToString(position + 1);
      assert r[|FilePrefix| + |path| + |LineQuery|..] == IntToString(position + 1);
      if IntMin <= position + 1 <= IntMax then ParseIntOfIntToString(position + 1); r else r
  }
}

=== FILE: view_models.dfy ===
/**
 * The search screens' view models.
 *
 * `SearchViewModel.kt` keeps one `SearchState`: starting a search resets it;
 * each progress event appends its matches and copies its counters; the end
 * of the coroutine engine's search sorts the results (completion), marks
 * the state cancelled, or records the failure's message, which is a
 * parameter here.
 *
 * `SearchViewModel.java` publishes a `Records.UiState`: an error when no
 * engine was created, else `searching` with empty progress, then one state
 * per engine callback; cancelling always publishes `idle`.
 */
module SearchModels {
  import opened Optional
  import opened Text
  import opened Checked
  import opened GrepData
  import opened Records
  import opened FileTree
  import opened Walk
  import Sorting
  import CoroutineEngine
  import ExecutorEngine

  // ---------------------------------------------------------------------------
  // The Kotlin view model

  /** `SearchViewModel.SearchUiState`. */
  datatype SearchState = SearchState(
    query: string,
    isSearching: bool,
    isCompleted: bool,
    isCancelled: bool,
    filesProcessed: int,
    matchesFound: int,
    results: seq<Data>,
    statusMessage: Option<string>,
    errorMessage: Option<string>)

  /** The state of a new view model: every field at its default. */
  function Blank(): (s: SearchState)
    ensures s.query == "" && !s.isSearching && !s.isCompleted && !s.isCancelled
    ensures s.filesProcessed == 0 && s.matchesFound == 0 && s.results == []
    ensures s.statusMessage.None? && s.errorMessage.None?
  {
    SearchState("", false, false, false, 0, 0, [], None, None)
  }

  /** The state a search starts from: the query and the searching flag, all else default. */
  function Fresh(query: string): (s: SearchState)
    ensures s == Blank().(query := query, isSearching := true)
  {
    SearchState(query, true, false, false, 0, 0, [], None, None)
  }

  /** `startSearch`: a running search for the same query is left alone; anything else starts afresh. */
  function StartSearch(s: SearchState, query: string): (r: SearchState)
    ensures s.isSearching && s.query == query ==> r == s
    ensures !(s.isSearching && s.query == query) ==> r == Fresh(query)
    ensures r.isSearching && r.query == query
  {
    if s.isSearching && s.query == query then s else Fresh(query)
  }

  /** Starting the same search twice is starting it once. */
  lemma StartSearchIdempotent(s: SearchState, query: string)
    ensures StartSearch(StartSearch(s, query), query) == StartSearch(s, query)
  {
  }

  const Bullet := " files \U{2022} "
  const MatchesWord := " matches"

  /** `progressStatus`: `"<files> files • <matches> matches"`. */
  function ProgressStatus(files: int, matches: int): (r: string)
    ensures |r| == |IntToString(files)| + |Bullet| + |IntToString(matches)| + |MatchesWord|
  {
    IntToString(files) + Bullet + IntToString(matches) + MatchesWord
  }

  predicate NoSpace(s: string) {
    forall i :: 0 <= i < |s| ==> s[i] != ' '
  }

  /** No rendering of an integer holds a space. */
  lemma NoSpaceInNumber(n: int)
    ensures NoSpace(IntToString(n))
  {
    var d := NatToString(if n < 0 then -n else n);
    assert forall i :: 0 <= i < |d| ==> IsDigit(d[i]);
  }

  /** Two space-free words each followed by a space-led text: equal wholes have equal words. */
  lemma SameWordBeforeSpace(a: string, x: string, b: string, y: string)
    requires a + x == b + y && |x| > 0 && |y| > 0 && x[0] == ' ' && y[0] == ' '
    requires NoSpace(a) && NoSpace(b)
    ensures a == b && x == y
  {
    assert a == (a + x)[..|a|] && b == (b + y)[..|b|];
    assert x == (a + x)[|a|..] && y == (b + y)[|b|..];
  }

  /** The same text around two words makes them equal. */
  lemma SameMiddle(pre: string, w1: string, w2: string, post: string)
    requires pre + w1 + post == pre + w2 + post
    ensures w1 == w2
  {
    assert w1 == (pre + w1 + post)[|pre|..|pre| + |w1|];
    assert w2 == (pre + w2 + post)[|pre|..|pre| + |w2|];
  }

  /** The status layout with any words in place of the numbers: the first word ends at the first space. */
  lemma StatusWords(a1: string, b1: string, a2: string, b2: string)
    requires NoSpace(a1) && NoSpace(a2)
    requires a1 + Bullet + b1 + MatchesWord == a2 + Bullet + b2 + MatchesWord
    ensures a1 == a2 && b1 == b2
  {
    var x1, x2 := Bullet + b1 + MatchesWord, Bullet + b2 + MatchesWord;
    assert a1 + Bullet + b1 + MatchesWord == a1 + x1;
    assert a2 + Bullet + b2 + MatchesWord == a2 + x2;
    SameWordBeforeSpace(a1, x1, a2, x2);
    SameMiddle(Bullet, b1, b2, MatchesWord);
  }

  /** Different integers render differently. */
  lemma IntToStringInjective(a: int, b: int)
    requires IntToString(a) == IntToString(b)
    ensures a == b
  {
    var na, nb := if a < 0 then -a else a, if b < 0 then -b else b;
    var sa, sb := NatToString(na), NatToString(nb);
    assert IsDigit(sa[0]) && IsDigit(sb[0]);
    if a < 0 && b < 0 {
      assert sa == IntToString(a)[1..] == IntToString(b)[1..] == sb;
    } else if a >= 0 && b >= 0 {
      assert sa == sb;
    }
    DigitsValueOfNatToString(na);
    DigitsValueOfNatToString(nb);
  }

  /** The status text determines both counters: different counts never read alike. */
  lemma ProgressStatusInjective(f1: int, m1: int, f2: int, m2: int)
    requires ProgressStatus(f1, m1) == ProgressStatus(f2, m2)
    ensures f1 == f2 && m1 == m2
  {
    NoSpaceInNumber(f1);
    NoSpaceInNumber(f2);
    StatusWords(IntToString(f1), IntToString(m1), IntToString(f2), IntToString(m2));
    IntToStringInjective(f1, f2);
    IntToStringInjective(m1, m2);
  }

  /**
   * A progress event: its matches appended (nothing when it has none), its
   * counters copied, and the status rebuilt from them; nothing else changes.
   */
  function OnProgress(s: SearchState, p: Progress): (r: SearchState)
    ensures r.results == s.results + p.newMatches
    ensures r.filesProcessed == p.filesProcessed && r.matchesFound == p.matchesFound
    ensures r.statusMessage == Some(ProgressStatus(p.filesProcessed, p.matchesFound))
    ensures r.query == s.query && r.isSearching == s.isSearching && r.isCompleted == s.isCompleted
    ensures r.isCancelled == s.isCancelled && r.errorMessage == s.errorMessage
  {
    var combined := if p.newMatches == [] then s.results else s.results + p.newMatches;
    assert s.results + [] == s.results;
    s.(filesProcessed := p.filesProcessed, matchesFound := p.matchesFound,
       statusMessage := Some(ProgressStatus(p.filesProcessed, p.matchesFound)), results := combined)
  }

  /** A run of progress events, in order. */
  function Progressed(s: SearchState, events: seq<Progress>): SearchState
    decreases |events|
  {
    if |events| == 0 then s else OnProgress(Progressed(s, events[..|events| - 1]), events[|events| - 1])
  }

  /** Everything but the results, the counters and the status. */
  predicate SameFlags(a: SearchState, b: SearchState) {
    a.query == b.query && a.isSearching == b.isSearching && a.isCompleted == b.isCompleted
    && a.isCancelled == b.isCancelled && a.errorMessage == b.errorMessage
  }

  lemma {:induction false} ProgressedResults(s: SearchState, events: seq<Progress>)
    ensures Progressed(s, events).results == s.results + Flatten(events)
    decreases |events|
  {
    if |events| == 0 {
      assert s.results + [] == s.results;
    } else {
      var init, last := events[..|events| - 1], events[|events| - 1];
      ProgressedResults(s, init);
      var before := Progressed(s, init);
      assert Progressed(s, events).results == before.results + last.newMatches;
      assert Flatten(events) == Flatten(init) + last.newMatches;
      Associative(s.results, Flatten(init), last.newMatches);
    }
  }

  lemma {:induction false} ProgressedFlags(s: SearchState, events: seq<Progress>)
    ensures SameFlags(Progressed(s, events), s)
    decreases |events|
  {
    if |events| > 0 {
      ProgressedFlags(s, events[..|events| - 1]);
    }
  }

  /**
   * After any run of events the results are those before followed by every
   * event's matches in order, the counters and status are the last event's,
   * and the flags are untouched.
   */
  lemma ProgressedAccumulates(s: SearchState, events: seq<Progress>)
    ensures Progressed(s, events).results == s.results + Flatten(events)
    ensures |events| > 0 ==>
      var last := events[|events| - 1];
      Progressed(s, events).filesProcessed == last.filesProcessed
      && Progressed(s, events).matchesFound == last.matchesFound
      && Progressed(s, events).statusMessage == Some(ProgressStatus(last.filesProcessed, last.matchesFound))
    ensures SameFlags(Progressed(s, events), s)
  {
    ProgressedResults(s, events);
    ProgressedFlags(s, events);
  }

  /**
   * Normal completion: the summary's results sorted with the `GrepView.Data`
   * comparator, the status from its counters, searching over and completed.
   */
  function OnComplete(s: SearchState, summary: CoroutineEngine.CoSummary): (r: SearchState)
    ensures multiset(r.results) == multiset(summary.results) && Sorting.SortedBy(Compare, r.results)
    ensures Sorting.Stable(Compare, summary.results, r.results)
    ensures !r.isSearching && r.isCompleted
    ensures r.statusMessage == Some(ProgressStatus(summary.filesProcessed, summary.matchesFound))
    ensures r.query == s.query && r.isCancelled == s.isCancelled && r.errorMessage == s.errorMessage
    ensures r.filesProcessed == s.filesProcessed && r.matchesFound == s.matchesFound
  {
    s.(isSearching := false, isCompleted := true,
       statusMessage := Some(ProgressStatus(summary.filesProcessed, summary.matchesFound)),
       results := SortResults(summary.results))
  }

  /** Cancellation: searching over and cancelled, with the results gathered so far kept. */
  function OnCancelled(s: SearchState): (r: SearchState)
    ensures !r.isSearching && r.isCancelled
    ensures r.(isSearching := s.isSearching, isCancelled := s.isCancelled) == s
  {
    s.(isSearching := false, isCancelled := true)
  }

  /** Any other failure: searching over, and the failure's message (possibly none) recorded. */
  function OnFailure(s: SearchState, message: Option<string>): (r: SearchState)
    ensures !r.isSearching && r.errorMessage == message
    ensures r.(isSearching := s.isSearching, errorMessage := s.errorMessage) == s
  {
    s.(isSearching := false, errorMessage := message)
  }

  /**
   * A whole search of the coroutine engine as the view model sees it: a fresh
   * state, every progress event, then the ending.
   */
  function Settle(query: string, outcome: CoroutineEngine.Outcome, failure: Option<string>): (r: SearchState)
    ensures !r.isSearching && r.query == query
    ensures r.isCompleted <==> outcome.Finished?
    ensures r.isCancelled <==> outcome.Cancelled?
    ensures outcome.Finished? ==>
      multiset(r.results) == multiset(outcome.summary.results) && Sorting.SortedBy(Compare, r.results)
    ensures !outcome.Finished? ==> r.results == Flatten(outcome.events)
    ensures outcome.Crashed? ==> r.errorMessage == failure
    ensures !outcome.Crashed? ==> r.errorMessage.None?
  {
    var live := Progressed(Fresh(query), outcome.events);
    ProgressedAccumulates(Fresh(query), outcome.events);
    assert [] + Flatten(outcome.events) == Flatten(outcome.events);
    match outcome
    case Finished(_, summary) => OnComplete(live, summary)
    case Cancelled(_) => OnCancelled(live)
    case Crashed(_) => OnFailure(live, failure)
  }

  /**
   * With the coroutine engine: the screen ends up showing, sorted, the same
   * matches it had gathered live from the progress events; and when no poll
   * of the uninterrupted search finds the flag set and every enabled root has
   * a path, every match of the selected roots.
   */
  lemma CoroutineSearchShown(req: SearchRequest, cancel: Cancel, resolve: string -> Option<Node>, failure: Option<string>)
    requires AllValued(req.exts)
    ensures var outcome := CoroutineEngine.Search(req, cancel, resolve);
      var r := Settle(req.query, outcome, failure);
      (outcome.Finished? && AllClean(resolve) ==>
        multiset(r.results) == multiset(Progressed(Fresh(req.query), outcome.events).results))
      && (ClearBefore(cancel, CoroutineEngine.RootsPolls(req, resolve, req.dirs)) && CoroutineEngine.NullFree(req.dirs) ==>
        r.isCompleted && multiset(r.results) == multiset(CoroutineEngine.RootsHits(req, resolve, req.dirs)))
  {
    var outcome := CoroutineEngine.Search(req, cancel, resolve);
    ProgressedAccumulates(Fresh(req.query), outcome.events);
    assert [] + Flatten(outcome.events) == Flatten(outcome.events);
  }

  // ---------------------------------------------------------------------------
  // The Java view model

  const NotInitialized := "Engine not initialized"

  /** How many engines the view model has created, and the state it last published. */
  datatype JavaModel = JavaModel(engines: nat, ui: UiState)

  function Created(): (m: JavaModel)
    ensures m.engines == 0 && m.ui == Idle()
  {
    JavaModel(0, Idle())
  }

  /** `initializeEngine`: creates the engine only when there is none. */
  function InitializeEngine(m: JavaModel): (r: JavaModel)
    ensures m.engines > 0 ==> r == m
    ensures m.engines == 0 ==> r.engines == 1 && r.ui == m.ui
  {
    if m.engines == 0 then m.(engines := 1) else m
  }

  /** However often it is called, at most one engine is ever created. */
  lemma {:induction false} InitializeEngineOnce(m: JavaModel, times: nat)
    requires m.engines <= 1
    ensures Repeat(m, times).engines <= 1
    ensures times > 0 ==> Repeat(m, times).engines == 1
    decreases times
  {
    if times > 0 {
      InitializeEngineOnce(m, times - 1);
    }
  }

  function Repeat(m: JavaModel, times: nat): JavaModel
    decreases times
  {
    if times == 0 then m else InitializeEngine(Repeat(m, times - 1))
  }

  /**
   * The start of `search`: without an engine the error state and nothing
   * else; with one, searching with progress for the query at zero counts and
   * no matches.
   */
  function StartJava(m: JavaModel, query: string): (r: JavaModel)
    ensures r.engines == m.engines
    ensures m.engines == 0 ==> r.ui == Failed(Some(NotInitialized))
    ensures m.engines > 0 ==>
      r.ui.isSearching && r.ui.progress.Some? && r.ui.progress.value.query == query
      && r.ui.progress.value.filesProcessed == 0 && r.ui.progress.value.matchesFound == 0
      && r.ui.progress.value.newMatches == []
  {
    if m.engines == 0 then m.(ui := Failed(Some(NotInitialized)))
    else m.(ui := Searching(Some(NewProgress(query, 0, 0, None))))
  }

  /** What an engine reports through `ProgressCallback`. */
  datatype Callback = OnProgressCall(p: Progress) | OnCompleteCall(s: Summary) | OnErrorCall(message: string)

  /** The state each callback publishes. */
  function Publish(c: Callback): (st: UiState)
    ensures Built(st)
    ensures c.OnProgressCall? ==> st.isSearching && st.progress == Some(c.p)
    ensures c.OnCompleteCall? ==> !st.isSearching && st.summary == Some(c.s)
    ensures c.OnErrorCall? ==> !st.isSearching && st.errorMessage == Some(c.message)
  {
    match c
    case OnProgressCall(p) => Searching(Some(p))
    case OnCompleteCall(s) => Completed(Some(s))
    case OnErrorCall(message) => Failed(Some(message))
  }

  /** The state left after a run of callbacks: the last one's, or the state before when there are none. */
  function Deliver(ui: UiState, calls: seq<Callback>): (r: UiState)
    ensures |calls| == 0 ==> r == ui
    ensures |calls| > 0 ==> r == Publish(calls[|calls| - 1])
    decreases |calls|
  {
    if |calls| == 0 then ui else Publish(calls[|calls| - 1])
  }

  /** The executor engine's report as callbacks: each progress event, then the summary. */
  function Calls(report: ExecutorEngine.Report): (r: seq<Callback>)
    ensures |r| == |report.events| + 1
    ensures forall i :: 0 <= i < |report.events| ==> r[i] == OnProgressCall(report.events[i])
    ensures r[|r| - 1] == OnCompleteCall(report.summary)
  {
    seq(|report.events|, i requires 0 <= i < |report.events| => OnProgressCall(report.events[i]))
      + [OnCompleteCall(report.summary)]
  }

  /** `cancelSearch`: idle, whatever the state and whether or not there is an engine. */
  function CancelSearch(m: JavaModel): (r: JavaModel)
    ensures r.engines == m.engines && r.ui == Idle()
  {
    m.(ui := Idle())
  }

  /**
   * With an engine, a search with the executor engine ends completed with
   * its summary, which always counts exactly its matches, and without
   * cancellation holds every match of the selected roots; without an
   * engine it ends in the error state.
   */
  lemma JavaSearchEnds(m: JavaModel, req: SearchRequest, cancel: Cancel,
                       resolve: string -> Option<Node>, duration: int)
    requires AllValued(req.exts)
    ensures var report := ExecutorEngine.Search(req, cancel, resolve, duration);
      var r := if m.engines == 0 then StartJava(m, req.query).ui
               else Deliver(StartJava(m, req.query).ui, Calls(report));
      (m.engines == 0 ==> r == Failed(Some(NotInitialized)))
      && (m.engines > 0 ==>
        r == Completed(Some(report.summary)) && report.summary.totalMatches == |report.summary.allMatches|
        && (cancel.Never? ==> report.summary.allMatches == ExecutorEngine.RootsHits(req, resolve, req.dirs)))
  {
  }
}

=== FILE: viewer_model.dfy ===
/**
 * `TextViewerViewModel.kt`: loading a file's lines for the viewer.
 *
 * A load reads the file line by line, checking before every read whether it
 * was cancelled, and posts "<k> lines" after every 200th line. It ends with
 * the lines and their count, by cancellation, or with an error: a missing file
 * has its own message, and any other failure carries the exception's message,
 * which is a parameter here. The file is a `FileTree.Content` (or None when it
 * does not exist); the job's cancellation is the `Cancel` oracle, one poll per
 * read.
 */
module ViewerModel {
  import opened Optional
  import opened Text
  import opened FileTree

  /** `TextViewerState`. */
  datatype ViewerState = ViewerState(
    path: Option<string>,
    isLoading: bool,
    isCompleted: bool,
    isCancelled: bool,
    lines: seq<string>,
    statusMessage: Option<string>,
    errorMessage: Option<string>)

  /** The state of a new view model: every field at its default. */
  function Blank(): (s: ViewerState)
    ensures s.path.None? && !s.isLoading && !s.isCompleted && !s.isCancelled
    ensures s.lines == [] && s.statusMessage.None? && s.errorMessage.None?
  {
    ViewerState(None, false, false, false, [], None, None)
  }

  /** The state a load starts from: the path and the loading flag, all else default. */
  function Loading(path: string): (s: ViewerState)
    ensures s.path == Some(path) && s.isLoading && !s.isCompleted && !s.isCancelled
    ensures s.lines == [] && s.statusMessage.None? && s.errorMessage.None?
  {
    Blank().(path := Some(path), isLoading := true)
  }

  /** The view model: whether the load job is still active, and the state it publishes. */
  datatype Loader = Loader(active: bool, state: ViewerState)

  /**
   * `loadText`: while a load of the same path is active, nothing happens;
   * otherwise the old job is cancelled and a new one starts from `Loading`.
   */
  function LoadText(l: Loader, path: string): (r: Loader)
    ensures l.active && l.state.path == Some(path) ==> r == l
    ensures !(l.active && l.state.path == Some(path)) ==> r.active && r.state == Loading(path)
  {
    if l.active && l.state.path == Some(path) then l else Loader(true, Loading(path))
  }

  /** Asking again for the path being loaded changes nothing. */
  lemma LoadTextIdempotent(l: Loader, path: string)
    ensures LoadText(LoadText(l, path), path) == LoadText(l, path)
  {
  }

  // ---------------------------------------------------------------------------
  // Reading

  const StatusEvery: nat := 200

  /** The line counts after which the loop posts a status: the positive multiples of 200 up to `n`, in order. */
  function Milestones(n: nat): seq<nat>
    decreases n
  {
    if n == 0 then [] else Milestones(n - 1) + (if n % StatusEvery == 0 then [n] else [])
  }

  /** A count is a milestone exactly when it is a positive multiple of 200 no larger than `n`; there are `n / 200`. */
  lemma {:induction false} MilestonesMeaning(n: nat)
    ensures forall k :: k in Milestones(n) <==> 0 < k <= n && k % StatusEvery == 0
    ensures |Milestones(n)| == n / StatusEvery
    ensures forall i, j :: 0 <= i < j < |Milestones(n)| ==> Milestones(n)[i] < Milestones(n)[j]
    decreases n
  {
    if n > 0 {
      MilestonesMeaning(n - 1);
      var m := Milestones(n - 1);
      assert forall k :: k in m ==> k <= n - 1;
      if n % StatusEvery == 0 {
        var s := Milestones(n);
        assert s == m + [n];
        forall i, j | 0 <= i < j < |s| ensures s[i] < s[j] {
          if j == |m| {
            assert s[i] == m[i] && m[i] in m;
          }
        }
        assert n / StatusEvery == (n - 1) / StatusEvery + 1;
      } else {
        assert n / StatusEvery == (n - 1) / StatusEvery;
      }
    }
  }

  /** How a read that opened the file ended. */
  datatype Ending = Done | Stopped | Failed

  /**
   * A read: the file did not exist, or it ended after `count` lines, holding
   * those lines and having posted a status at each of `updates`.
   */
  datatype ReadResult = Missing | Read(ending: Ending, lines: seq<string>, count: nat, updates: seq<nat>)

  /** The cancellation oracle stops a read of `n` lines: it fires at or before the last poll. */
  predicate StopsWithin(cancel: Cancel, n: nat) {
    cancel.AfterPolls? && cancel.n <= n
  }

  /**
   * `readAllLines`: a missing file fails at once; an unopenable one fails
   * before any line; otherwise each round polls the job (stopping when it is
   * cancelled) and reads a line, posting at every 200th; the end of the lines
   * is the result, unless the reader fails there.
   */
  method ReadAllLines(file: Option<Content>, cancel: Cancel) returns (r: ReadResult)
    ensures r.Missing? <==> file.None?
    ensures file == Some(Unopenable) ==> r == Read(Failed, [], 0, [])
    ensures r.Read? ==> r.count == |r.lines| && r.updates == Milestones(r.count)
    ensures file.Some? && file.value.Readable? ==>
      var ls := file.value.lines;
      r.Read? && r.count <= |ls| && r.lines == ls[..r.count]
      && (r.ending == Stopped <==> StopsWithin(cancel, |ls|))
      && (r.ending == Stopped ==> r.count == cancel.n)
      && (r.ending == Done <==> !StopsWithin(cancel, |ls|) && !file.value.failsAfter)
      && (r.ending != Stopped ==> r.count == |ls|)
  {
    if file.None? {
      return Missing;
    }
    if file.value.Unopenable? {
      return Read(Failed, [], 0, []);
    }
    var ls := file.value.lines;
    var lines: seq<string> := [];
    var count: nat := 0;
    var updates: seq<nat> := [];
    while true
      invariant count <= |ls| && lines == ls[..count]
      invariant updates == Milestones(count)
      invariant forall p :: 0 <= p < count ==> !IsCancelled(cancel, p)
      decreases |ls| - count
    {
      if IsCancelled(cancel, count) {
        if count > 0 {
          assert !IsCancelled(cancel, count - 1);
        }
        return Read(Stopped, lines, count, updates);
      }
      if count == |ls| {
        assert lines == ls;
        if file.value.failsAfter {
          return Read(Failed, lines, count, updates);
        }
        return Read(Done, lines, count, updates);
      }
      lines := lines + [ls[count]];
      count := count + 1;
      if count % StatusEvery == 0 {
        updates := updates + [count];
      }
    }
  }

  // ---------------------------------------------------------------------------
  // Settling the state

  /** `"$n lines"`: the count, which reads back from the text before the word. */
  function LinesStatus(n: int): (r: string)
    ensures |r| > 6 && r[|r| - 6..] == " lines"
    ensures IntMin <= n <= IntMax ==> ParseInt(r[..|r| - 6]) == Some(n)
  {
    var r := IntToString(n) + " lines";
    assert r[..|r| - 6] == IntToString(n);
    if IntMin <= n <= IntMax then ParseIntOfIntToString(n); r else r
  }

  const NotFound := "File not found: "

  /** The status after the posts of a read: the last milestone's, or none. */
  function Posted(s: ViewerState, updates: seq<nat>): (t: ViewerState)
    ensures t == s.(statusMessage := t.statusMessage)
    ensures updates == [] ==> t == s
    ensures updates != [] ==> t.statusMessage == Some(LinesStatus(updates[|updates| - 1]))
  {
    if updates == [] then s else s.(statusMessage := Some(LinesStatus(updates[|updates| - 1])))
  }

  /**
   * The state a load of `path` leaves: loading ends; a completed read sets
   * the lines and the final count, clearing any error; a cancelled one sets
   * `isCancelled`; a missing file and any other failure set the error message.
   * The lines posted along the way leave their last status behind.
   */
  function Settle(path: string, r: ReadResult, failure: Option<string>): (t: ViewerState)
    ensures t.path == Some(path) && !t.isLoading
    ensures t.isCompleted <==> r.Read? && r.ending == Done
    ensures t.isCancelled <==> r.Read? && r.ending == Stopped
    ensures t.isCompleted ==>
      t.lines == r.lines && t.statusMessage == Some(LinesStatus(r.count)) && t.errorMessage.None?
    ensures !t.isCompleted ==> t.lines == []
    ensures r.Missing? ==> t.errorMessage == Some(NotFound + path) && t.statusMessage.None?
    ensures r.Read? && r.ending == Failed ==> t.errorMessage == failure
    ensures r.Read? && r.ending != Done ==> t.statusMessage == Posted(Loading(path), r.updates).statusMessage
  {
    var s := Loading(path);
    match r
    case Missing => s.(isLoading := false, errorMessage := Some(NotFound + path))
    case Read(ending, lines, count, updates) =>
      var p := Posted(s, updates);
      match ending
      case Done =>
        p.(isLoading := false, isCompleted := true, lines := lines,
           statusMessage := Some(LinesStatus(count)), errorMessage := None)
      case Stopped => p.(isLoading := false, isCancelled := true)
      case Failed => p.(isLoading := false, errorMessage := failure)
  }

  /** A completed load's status reads back as the number of lines it shows. */
  lemma CompletedStatusCountsLines(path: string, r: ReadResult, failure: Option<string>)
    requires r.Read? && r.count == |r.lines| && r.count <= IntMax
    ensures var t := Settle(path, r, failure);
      t.isCompleted ==> ParseInt(t.statusMessage.value[..|t.statusMessage.value| - 6]) == Some(|t.lines|)
  {
  }

  /** Once the load has settled, asking for the same path loads it again. */
  lemma ReloadAfterSettling(path: string, r: ReadResult, failure: Option<string>)
    ensures LoadText(Loader(false, Settle(path, r, failure)), path) == Loader(true, Loading(path))
  {
  }
}

=== FILE: walk.dfy ===
/**
 * What both engines share: the state a run threads through a walk, the
 * records of a file's matching lines in line order, and the trees whose files
 * all read without error.
 */
module Walk {
  import opened Optional
  import opened GrepData
  import opened Records
  import opened FileTree

  /**
   * The shared counters of a run, the list of every match, the events
   * reported so far and how many times the cancellation flag was polled.
   */
  datatype Run = Run(fileCount: nat, matchCount: nat, all: seq<Data>, events: seq<Progress>, polls: nat)

  /** The result of a traversal step: false asks every caller to stop. */
  datatype Step = Step(ok: bool, run: Run)

  /** How a run may change: counters and lists only grow, and every new match is counted once. */
  predicate Grows(a: Run, b: Run) {
    a.fileCount <= b.fileCount && a.polls <= b.polls
    && a.all <= b.all && a.events <= b.events
    && b.matchCount - a.matchCount == |b.all| - |a.all|
  }

  lemma GrowsTransitive(a: Run, b: Run, c: Run)
    requires Grows(a, b) && Grows(b, c)
    ensures Grows(a, c)
  {
  }

  /** The record of a matching line: 1-based line number, the line's text. */
  function Hit(uri: string, path: string, lines: seq<string>, i: nat): Data
    requires i < |lines|
  {
    Data(Some(uri), Some(path), i + 1, Some(lines[i]))
  }

  /** The records of the matching lines among `lines[from..to]`, in line order. */
  function Hits(matches: string -> bool, uri: string, path: string, lines: seq<string>, from: nat, to: nat): (r: seq<Data>)
    requires from <= to <= |lines|
    ensures |r| <= to - from
    decreases (to as int) - (from as int)
  {
    if from == to then []
    else (if matches(lines[from]) then [Hit(uri, path, lines, from)] else []) + Hits(matches, uri, path, lines, from + 1, to)
  }

  lemma Associative<T>(a: seq<T>, b: seq<T>, c: seq<T>)
    ensures (a + b) + c == a + (b + c)
  {
  }

  /**
   * Two walks in a row, the second starting only once the first added all of
   * `x`: together they added a prefix of `x + y`.
   */
  lemma PrefixJoin<T>(a: seq<T>, x: seq<T>, y: seq<T>, h: seq<T>, r: seq<T>)
    requires h <= a + x && r <= h + y
    requires h != a + x ==> r == h
    ensures r <= a + (x + y)
  {
    Associative(a, x, y);
    if h != a + x {
      assert (a + (x + y))[..|a + x|] == a + x;
    }
  }

  /** The matches a trace has reported so far are a prefix of those recorded. */
  predicate Sent(run: Run) {
    Flatten(run.events) <= run.all
  }

  lemma {:induction false} HitsSplit(matches: string -> bool, uri: string, path: string, lines: seq<string>, a: nat, b: nat, c: nat)
    requires a <= b <= c <= |lines|
    ensures Hits(matches, uri, path, lines, a, c) ==
      Hits(matches, uri, path, lines, a, b) + Hits(matches, uri, path, lines, b, c)
    decreases b - a
  {
    if a == b {
      assert [] + Hits(matches, uri, path, lines, b, c) == Hits(matches, uri, path, lines, b, c);
    } else {
      HitsSplit(matches, uri, path, lines, a + 1, b, c);
      var head := if matches(lines[a]) then [Hit(uri, path, lines, a)] else [];
      Associative(head, Hits(matches, uri, path, lines, a + 1, b), Hits(matches, uri, path, lines, b, c));
    }
  }

  /** `filesProcessed` never decreases along the trace and never exceeds the file count. */
  predicate Ordered(events: seq<Progress>, files: nat) {
    (forall i, j :: 0 <= i < j < |events| ==> events[i].filesProcessed <= events[j].filesProcessed)
    && (forall i :: 0 <= i < |events| ==> events[i].filesProcessed <= files)
  }

  /** The trace reports exactly the recorded matches, in order. */
  predicate Consistent(run: Run) {
    Flatten(run.events) == run.all
  }

  /** No file of the tree fails while being read. */
  predicate Clean(n: Node)
    decreases n
  {
    match n
    case File(_, c) => !(c.Readable? && c.failsAfter)
    case Dir(_, cs) => forall i :: 0 <= i < |cs| ==> Clean(cs[i])
  }

  predicate CleanAll(cs: seq<Node>) {
    forall i :: 0 <= i < |cs| ==> Clean(cs[i])
  }

  /** Every tree the resolver can return reads without error. */
  ghost predicate AllClean(resolve: string -> Option<Node>) {
    forall u :: resolve(u).Some? ==> Clean(resolve(u).value)
  }
}
